=== FILE: README.md ===
# A Dafny model of the Amend core

Amend is a version-control tool; this is its port to the Apple IIgs,
built with ORCA/C on GS/OS. Its
repository is a single BILE file: a log-structured store of typed, keyed
objects. This project models the parts of the program that are pure data
handling and proves properties of them:

- **The BILE store** (bile.c, bile.h). The file is a byte sequence. It has
  a 256-byte header holding the magic and two map pointers, and a catalog
  of 16-byte descriptors `{pos, size, type, id}`.
  - Modules `BileFormat`, `BileCatalog`, `BileStore`, `BileSafety`,
    `BileInsertion` and `BileIds`.
  - Modelled: descriptor and catalog encoding; lookups and by-type queries;
    first-fit allocation with its insertion loop; verified reads; `bile_write`
    with its tombstone; the catalog rewrite and header-pointer switch of
    `bile_write_map`; next ids and the HIGHESTID marker; delete; create,
    open, recover and verify.
  - Host writes and flushes are steps that can fail. An operation takes
    `failAt`, the number of its host calls that succeed.
  - A store carries the insertion rule its allocator follows: `AsWritten`
    is `bile_alloc` as the source has it, and `Corrected` keeps the catalog
    in file order. `BileInsertion` shows that the rule as written makes a
    reachable store lose a freshly written object; the safety theorems hold
    for the corrected rule, and for the rule as written wherever it happens
    to keep the order (`InOrder`).
  - The main theorem is `BileSafety.WriteKeepsOnDiskState`. Until
    `bile_write` rewrites the map pointer at offset 5, it writes no byte
    that the header, the current on-disk map or any object that map lists
    depends on. `BileSafety.CrashKeepsOpen` follows: opening the file after
    a crash at any point before then gives the same store as before the
    write.
- **Repository records** (repo.c), module `RepoRecords`:
  - the amendment and file record layouts, with round trips;
  - the two sorts and next-id seeding;
  - the indented log copy of `repo_diff_header`.
- **Natural-order comparison** (strnatcmp.c), module `NatCompare`. It
  proves the result range, reflexivity and antisymmetry, and the rules for
  digit runs and case folding.
- **String helpers** (util.c), module `UtilStrings`: `strlcpy`, `strlcat`,
  `strsep`, `strndup`, `rtrim`, `strpos_quoted`, `ordinal`, `getline`,
  `OSTypeToString` and the multiplication-overflow guard.
- **The window focus list** (focusable.c), module `Focusables`.
- **The pure kernels of the diff engine** (diffreg.c), modules `DiffSort`,
  `DiffKernels`, `DiffIsqrt`, `DiffHash` and `DiffFormat`:
  - shellsort by (value, serial) and the candidate binary search;
  - prefix/suffix pruning, the equivalence classes and `unsort`;
  - the integer square root;
  - the line hash with its translation tables;
  - the `range` and `uni_range` texts.
- **The diff-line scanners of the side-by-side view** (visualize.c),
  module `VisualizeScan`: `parseDiff` and `gotoLine`.

Shared pieces:

- `Bytes` holds bytes, 16- and 32-bit words and the big-endian and
  host-order codecs.
- `CType` holds C strings, CR-terminated lines and the ASCII character
  classes.
- `Options` holds the option type.
- `Seqs` holds the first-position search that the focus list and the
  range texts share.
- `Sorting` holds a generic exchange sort. The program's bubble sorts use
  it.

Representation choices:

- The host is the IIgs's 65816, which is little-endian. Under ORCA/C
  `word` and `int` are 16 bits; `long`, `unsigned long` and `size_t` are
  32 bits. Values that bile.c stores raw are written in the host's byte
  order; the store takes that order as a parameter, so both orders are
  covered.
- `char` is taken to be unsigned.
- `word` is taken to be ORCA/C's unsigned 16-bit type: getline's index,
  the repository's next-id counters and the amendment id order all rely
  on it.
- Buffers are byte sequences. A C string is the bytes before its first
  NUL.
- Wrap-around is written out where the source relies on it: the hash's
  32-bit sum, 32-bit descriptor fields, `size_t` subtraction in allocation,
  the 32-bit ids of `bile_next_id`, and the 16-bit record ids and next-id
  counters of repo.c.

## Model

| member | source | states |
|---|---|---|
| Bytes.Be16RoundTrip | repo.c:1109-1126 | a 16-bit word written as two big-endian bytes reads back as itself |
| Bytes.Be32RoundTrip | repo.c:1100-1103 | a 32-bit value written as four big-endian bytes reads back as itself |
| Bytes.Be32Decoded | repo.c:291-294 | every four bytes are the big-endian encoding of the value the parser reads from them |
| Bytes.U32RoundTrip | bile.h:65-70 | an `unsigned long` stored raw in either byte order reads back as the value reduced to 32 bits |
| Bytes.U32RoundTripExact | bile.h:65-70 | a 32-bit value survives being stored raw and read back, in either byte order |
| Bytes.U32Decoded | bile.h:65-70 | any four stored bytes are the raw encoding of the value read from them |
| Bytes.U32EncodeInjective | bile.h:65-70 | distinct 32-bit values are stored as distinct bytes |
| CType.UpToNul | util.c:1110-1133 | the C string in a buffer is a prefix of it with no NUL, followed by a NUL when it ends before the buffer does |
| CType.UpToNulTerminated | util.c:1125-1130 | a string followed by its NUL reads back as itself, whatever the buffer holds after the NUL |
| CType.UpToNulOfString | util.c:1110-1133 | a buffer without a NUL is a C string of its whole length |
| CType.LineOf | diffreg.c:1133-1152 | the line at the front of a byte stream is the longest prefix without a carriage return, which follows it unless the stream ends |
| CType.LineOfTerminated | visualize.c:409-410 | a line followed by a carriage return reads back as itself, whatever comes after |
| CType.ToUpper | strnatcmp.c:127-130 | toupper maps each lower-case ASCII letter 32 places down and leaves every other byte alone |
| CType.ToUpperKeepsClasses | strnatcmp.c:101-136 | upper-casing keeps NUL, digits and white space as they are, and is idempotent |
| BileFormat.DescRoundTrip | bile.c:946-957 | a descriptor whose fields fit 32 bits, written raw as 16 bytes, reads back unchanged in either byte order |
| BileFormat.DescDecodeTruncates | bile.h:65-70 | writing a descriptor and reading it back gives each field reduced to 32 bits |
| BileFormat.DescDecoded | bile.c:869-885 | any 16 bytes are the raw encoding of the descriptor read from them |
| BileFormat.CatalogRoundTrip | bile.c:941-957 | the map contents written as back-to-back descriptors read back as the same catalog |
| BileFormat.EncodeDecodeCatalog | bile.c:887-897 | any map contents whose length is a multiple of 16 are the encoding of the catalog read from them |
| BileFormat.CreateHeader | bile.c:89-124 | the new header is 256 bytes: the magic "BILE2", an empty map pointer of type MAPPTR, an all-zero previous pointer and zero padding |
| BileCatalog.LastMatch | bile.c:768-787 | the backward scan finds the last matching entry below the bound, and None exactly when there is none |
| BileCatalog.ObjectInMap | bile.c:768-787 | the result is the highest-index entry with the type and id, and None exactly when no entry matches |
| BileCatalog.Find | bile.c:255-273 | a copy of a matching catalog entry is returned exactly when one exists, and it is the newest match: no later entry matches |
| BileCatalog.ObjectInMapAgreesWithOfType | bile.c:275-325 | the lookup finds an object exactly when its id is among the ids the by-type queries report for its type |
| BileCatalog.OfTypeComplete | bile.c:275-289 | every entry of the type is among the entries the by-type queries count |
| BileCatalog.OfTypePrefix | bile.c:327-355 | the entries of a type in a prefix of the catalog come first among that type's entries |
| BileCatalog.CountByType | bile.c:275-289 | the count is the number of catalog entries of the type |
| BileCatalog.NthOfType | bile.c:327-355 | the index-th entry of the type in catalog order, and None exactly when there are not that many |
| BileCatalog.CollectIds | bile.c:300-312 | the ids of the type's entries, in catalog order |
| BileCatalog.SortedIdsByType | bile.c:291-325 | the result is a permutation of the type's ids, in ascending order |
| BileCatalog.SizeSub | bile.c:796-800 | `size_t` subtraction is exact when no borrow occurs and wraps modulo 2^32 otherwise |
| BileCatalog.AllocPosIsFirstFit | bile.c:793-806 | the position chosen is the start of the first gap after the header that holds a descriptor plus the payload, or the end of the last entry when no gap does |
| BileCatalog.AllocPosIsFree | bile.c:793-806 | the chosen extent lies past the header and overlaps no catalog entry |
| BileCatalog.ScanFromIsFirstFit | bile.c:793-806 | the allocation scan from any gap on stops at the first fitting gap from there |
| BileCatalog.FirstFitIndex | bile.c:793-806 | the reference first fit: a gap that fits with none before it fitting |
| BileCatalog.InsertAt | bile.c:814-841 | inserting a descriptor shifts the later entries up by one and changes nothing else |
| BileCatalog.AllocAsWritten | bile.c:789-842 | bile_alloc as written adds one descriptor at the chosen position, the other entries unchanged and in order |
| BileCatalog.Alloc | bile.c:789-842 | bile_alloc adds one descriptor at the chosen position, the other entries unchanged and in order |
| BileCatalog.InsertLoopFindsGap | bile.c:814-835 | with any number of entries but one, the insertion loop stops at the first fitting gap |
| BileCatalog.InsertIndexIsGap | bile.c:814-841 | the corrected insertion index is the first fitting gap, so the new entry lands between its neighbours in file order |
| BileCatalog.InsertKeepsOrder | bile.c:814-841 | inserting an entry between neighbours it does not overlap keeps the catalog in file order |
| BileCatalog.AllocKeepsOrder | bile.c:789-842 | allocation keeps the catalog sorted by position, pairwise disjoint and past the header |
| BileCatalog.AllocBy | bile.c:789-842 | under either insertion rule, allocation adds one descriptor at the first-fit position and shifts the later entries up, the rest unchanged |
| BileCatalog.AllocByAgrees | bile.c:814-835 | the insertion as written gives the corrected allocation on every catalog except a single entry with room before it |
| BileCatalog.AllocAsWrittenMisorders | bile.c:814-841 | as written, a catalog with one entry and a fitting gap before it gets the new entry appended after it, out of order |
| BileStore.GrowTo | bile.c:1008-1022 | the file grows to the smallest multiple of 8192 strictly above the end of the write |
| BileStore.XWriteAt | bile.c:1000-1041 | the bytes land at the position, the file grows (zero-filled) only when the write reaches past its end, and no other byte changes |
| BileStore.Run | bile.c:1000-1041 | the file never shrinks under writes |
| BileStore.ReadObject | bile.c:447-529 | the read fails with BILE_ERR_BOGUS_OBJECT exactly when the object reaches past the file or its on-disk header differs in id, type or size; otherwise it returns min(len, size) payload bytes |
| BileStore.Read | bile.c:531-548 | -1 when no object has the type and id; otherwise the verified read of the newest one |
| BileStore.ReadAlloc | bile.c:550-579 | a missing object gives -1; otherwise the result is the verified read of the newest match at its full size, and on success the payload bytes that follow its header in the file |
| BileStore.Kept | bile.c:914-947 | the new map keeps exactly the entries that are neither tombstones nor the map object the header points at |
| BileStore.LastMapAt | bile.c:937-939 | the index of the last map descriptor at the new map's position, and None exactly when there is none |
| BileStore.PlanMap | bile.c:902-947 | the new map object has type MAP, the next map id, and a size of 16 bytes per copied entry, and it copies no more entries than the slots it allocated |
| BileStore.MapSteps | bile.c:950-997 | the map rewrite writes the map header, then its contents, flushes, then writes the pointers at offsets 5 and 21 and flushes, and the last four calls stay inside the header |
| BileStore.AfterMapSteps | bile.c:950-997 | until the first flush succeeds the memory keeps the old map; afterwards the map pointer names the new map and the previous pointer the old one |
| BileStore.WriteMap | bile.c:902-998 | the rewrite returns 0 exactly when all six host calls succeed, the file holds exactly the calls that succeeded, and `last_error` is set only by a failed write |
| BileStore.Tombstone | bile.c:595-601 | the newest entry with the type and id becomes PURGE, keeping its extent and id, and nothing else changes |
| BileStore.BeforeMap | bile.c:597-601 | the catalog handed to the map rewrite is the allocation, under the store's insertion rule, into the tombstoned catalog; the header pointers and the persisted catalog are unchanged |
| BileStore.ObjectSteps | bile.c:603-610 | the object's descriptor and then its payload are written at the allocated position |
| BileStore.WriteSteps | bile.c:581-620 | a successful write makes eight host calls, and the sixth rewrites the map pointer at offset 5 |
| BileStore.WriteAsWritten | bile.c:581-620 | as written, the result is 0 or len, and len whenever all eight host calls succeed |
| BileStore.Write | bile.c:581-620 | the result is len exactly when all eight host calls succeed, 0 otherwise |
| BileStore.IdFloor | bile.c:357-371 | the loop's value is 1 or one past an id of the type, in 32 bits; with ids below 2^32-1 it is at least 1, above every id of the type, and one past the largest when above 1 |
| BileStore.FromMarker | bile.c:373-377 | the marker replaces the loop's value only when strictly larger, by itself plus one in 32 bits; without wrap-around the result is at least both, and above the marker unless the marker equals the loop's value |
| BileStore.NextId | bile.c:357-380 | the result is the marker rule applied to the catalog scan; when nothing is near 2^32 it is at least 1, above every id of the type in the catalog and at least the marker |
| BileStore.Delete | bile.c:382-445 | -1 with nothing changed when the object is missing; otherwise the entry is tombstoned, and then either the marker is written through bile_write and 0 returned, or the map is rewritten and -1 returned exactly when that set `last_error` |
| BileStore.Create | bile.c:60-135 | a new store is the 256-byte header with the magic and an empty catalog |
| BileStore.ReadMap | bile.c:844-900 | the map is read only when it lies inside the file and its size is a multiple of 16; the catalog read has size/16 entries and encodes back to the map's contents |
| BileStore.Open | bile.c:137-206 | a wrong magic fails the open; an opened store holds the file unchanged and the catalog read from the map, size/16 entries of it, empty when the map pointer is empty |
| BileStore.OpenRecover | bile.c:218-231 | recovery fails exactly when opening on the previous map pointer fails; otherwise it rewrites the map from the catalog found there |
| BileStore.Verify | bile.c:741-764 | 0 exactly when every entry's header checks out, its payload is not empty and it starts past the previous entry's position plus its payload size (its 16 header bytes not counted, so an overlap of up to 16 bytes passes); otherwise -1 or the read error |
| BileSafety.RunFrame | bile.c:1000-1041 | a byte no write touches keeps its value |
| BileSafety.RunWritten | bile.c:1000-1041 | a byte holds what the last write covering it wrote |
| BileSafety.TombstoneInOrder | bile.c:597-599 | tombstoning keeps a catalog on which the insertion as written behaves |
| BileSafety.BeforeMapInOrder | bile.c:597-601 | the store handed to the map rewrite still allocates in file order when the one it came from did |
| BileSafety.TombstoneKeepsOrder | bile.c:597-599 | tombstoning keeps the catalog ordered and every extent covered |
| BileSafety.AllocKeepsMemValid | bile.c:789-842 | allocation keeps every entry and the in-memory invariant, and the new extent is clear of every old entry |
| BileSafety.KeptOrdered | bile.c:914-947 | the copy into the new map keeps the catalog's file order |
| BileSafety.MapCopyFits | bile.c:913-942 | the new map's own descriptor is among the copied entries, and the copy fits the slots allocated (under InOrder) |
| BileSafety.WriteMapCopyFits | bile.c:913-942 | on a valid store the map rewrite copies no more entries than `new_nobjects` (under InOrder) |
| BileSafety.PlanMapNewMap | bile.c:914-947 | the new map is ordered and lists its own descriptor (under InOrder) |
| BileSafety.PlanMapCatalog | bile.c:913-924 | the new map object is allocated clear of every old entry and within the slots allocated (under InOrder) |
| BileSafety.NewMapKeeps | bile.c:914-947 | every kept entry of the catalog is copied into the new map (under InOrder) |
| BileSafety.MapStepsSpare | bile.c:950-997 | the map rewrite writes nothing over an entry of its catalog (under InOrder) |
| BileSafety.WriteStepsClear | bile.c:581-620 | every host write of bile_write before the pointer rewrite lands past the header and clear of the old catalog (under InOrder) |
| BileSafety.ClearStepsKeep | bile.c:581-620 | writes clear of the catalog leave the header, the map and every listed object alone |
| BileSafety.WriteKeepsOnDiskState | bile.c:581-620 | no byte the on-disk state depends on is overwritten before the map pointer at offset 5 is rewritten (under InOrder) |
| BileSafety.WriteMapKeepsValid | bile.c:902-998 | the map rewrite keeps the store valid whichever host call fails: the old map is in charge before the switch-over, the new one after (under InOrder) |
| BileSafety.WriteKeepsValid | bile.c:581-620 | bile_write on a valid store does not fault and leaves a valid store whichever host call fails (under InOrder) |
| BileSafety.TombstoneKeepsValid | bile.c:399 | tombstoning keeps the store invariant |
| BileSafety.DeleteKeepsValid | bile.c:382-445 | delete, without its zero-fill, on a valid store does not fault and leaves a valid store whichever host call of the map rewrite or marker write fails (under InOrder) |
| BileSafety.IntactVerifies | bile.c:741-764 | bile_verify passes every entry of a catalog in file order past the header whose objects lie in the file with matching headers and non-empty payloads, so it returns 0 |
| BileSafety.VerifiedAscending | bile.c:741-764 | a catalog bile_verify passes has each object start past the previous one's position plus payload |
| BileSafety.CreateValid | bile.c:60-135 | a new file is a valid store |
| BileSafety.ReadsBack | bile.c:447-529 | an object whose header and payload are in the file reads back as its payload |
| BileSafety.WriteCompletes | bile.c:581-620 | when every host call succeeds, the store is the complete map rewrite of the catalog the write allocated in (under InOrder) |
| BileSafety.WriteThenRead | bile.c:531-548 | after a write whose host calls all succeed, the new object reads back as the data written (under InOrder) |
| BileSafety.MapWriteKeepsObject | bile.c:902-998 | a complete map rewrite keeps an object already on disk in the catalog and readable (under InOrder) |
| BileSafety.WriteMaskedFlush | bile.c:611-619 | as written, a failed first flush in the map rewrite still lets bile_write report len, although the header still names the previous map (under InOrder) |
| BileSafety.FirstFlushMasked | bile.c:962-967 | a failed first flush returns -1 with `last_error` clear and the header's map pointer unchanged (under InOrder) |
| BileSafety.ReadMapOk | bile.c:851-897 | when the map read succeeds, its checks held and it decoded the map's contents |
| BileSafety.ReadMapFrame | bile.c:844-900 | the map read looks only at the map object's bytes |
| BileSafety.OpenFrame | bile.c:137-206 | opening looks only at the header and the map object |
| BileSafety.CrashKeepsOpen | bile.c:137-206 | reopening after a crash at any point before the pointer rewrite gives the store as it was before the write (under InOrder) |
| BileInsertion.PurgeWriteLeavesOneMap | bile.c:581-620 | writing one 32-byte object of type PURGE into a new file leaves a catalog of the single map object at 304, and under the insertion as written that catalog is one the rule misorders |
| BileInsertion.OneEntryMapPosition | bile.c:814-841 | on that catalog the next object's header goes to 256, and the new map object lands at 256 as written but at 336 with the corrected insertion |
| BileInsertion.SecondPlanAsWritten | bile.c:814-841 | as written, the misordered catalog makes the map rewrite allocate its map object at 256, over the object just written |
| BileInsertion.MapOverObject | bile.c:950-997 | once the map object is written at 256, the object there no longer reads back: its header check fails |
| BileInsertion.AsWrittenLosesObject | bile.c:581-620 | as written, the write reports 32 and lists the object, yet reading the object then fails with BILE_ERR_BOGUS_OBJECT |
| BileInsertion.CorrectedKeepsObject | bile.c:581-620 | with the corrected insertion the same write leaves the object readable as the data written |
| BileInsertion.OneEntryInsertion | bile.c:814-841 | from a new file, a PURGE write then a second write: the second object is lost as written and reads back with the corrected insertion |
| BileIds.TombstoneClears | bile.c:597-599 | with at most one entry of a type and id, tombstoning leaves none |
| BileIds.NewMapFrom | bile.c:914-947 | every entry of the new map other than map objects comes from the catalog it was built from (under InOrder) |
| BileIds.WriteEntries | bile.c:581-620 | after a complete write, every entry other than map objects is the new object or an entry of the tombstoned catalog (under InOrder) |
| BileIds.WriteThenReadById | bile.c:531-620 | after a complete write, reading the object by type and id returns all the data written, with no error (under InOrder) |
| BileIds.DeleteStoresMarker | bile.c:418-436 | deleting the highest id of a type returns 0 and leaves a HIGHESTID marker that reads back as that id (under InOrder) |
| BileIds.DeleteKeepsType | bile.c:382-445 | a complete delete of the highest id keeps every other entry of the type and adds none of it (under InOrder) |
| BileIds.DeleteRemoves | bile.c:382-445 | after a complete delete the object is no longer found: reading it gives -1 (under InOrder) |
| BileIds.FromMarkerCorrected | bile.c:373-377 | with the comparison made inclusive, the next id is above the marker and at least the loop's value |
| BileIds.DeleteThenNextIdReissues | bile.c:357-445 | as written, when the deleted highest id is 1 or the id below it is still present, a complete delete leaves a marker and a catalog on which bile_next_id returns the deleted id again (under InOrder) |
| BileIds.DeleteThenNextIdFresh | bile.c:357-445 | with the inclusive comparison, the next id after deleting the highest id is above it (under InOrder) |
| RepoRecords.Words | repo.c:1111-1114 | each file id becomes two bytes |
| RepoRecords.MarshallAmendment | repo.c:1072-1133 | the record is exactly 4+1+author+2+2·nfiles+2+2+2+log_len bytes long |
| RepoRecords.WordsRoundTrip | repo.c:1111-1114 | big-endian words read back as the ids, leaving what follows them |
| RepoRecords.TailRoundTrip | repo.c:1116-1126 | additions, subtractions, log length and log read back from their layout |
| RepoRecords.BodyRoundTrip | repo.c:1109-1126 | the fields after the author read back from their layout |
| RepoRecords.AmendmentRoundTrip | repo.c:1072-1133 | parsing a marshalled amendment gives back date, author, file ids, counts and log |
| RepoRecords.ParseAmendment | repo.c:281-339 | a parsed amendment carries the id given reduced to 16 bits, a 32-bit date and an author of at most 31 bytes with no NUL |
| RepoRecords.ParseIgnoresTrailing | repo.c:281-339 | bytes after the announced record never change the parse |
| RepoRecords.AuthorTruncated | repo.c:298-302 | an author longer than 31 bytes is cut to 31, while the parse still skips the whole Pascal string |
| RepoRecords.FileLayout | repo.c:243-276 | a file record is its name, a length byte and 17 more bytes |
| RepoRecords.ParseFile | repo.c:233-279 | the parse succeeds exactly when the record is the length its name byte implies, and it carries the given id reduced to 16 bits |
| RepoRecords.ParseFileExact | repo.c:233-279 | laying a parsed file record out again gives the input back |
| RepoRecords.FileRoundTrip | repo.c:233-279 | parsing a file record's layout gives the record back |
| RepoRecords.FileWithId | repo.c:341-351 | the first file with the id, and None exactly when there is none |
| RepoRecords.NameAfterAsymmetric | repo.c:683-697 | no two names each sort naturally after the other, so the bubble sort settles |
| RepoRecords.SortFiles | repo.c:683-697 | the files are permuted so that no name compares as 1 against the next |
| RepoRecords.OlderIsWeakOrder | repo.c:699-713 | comparing ids is a weak order |
| RepoRecords.SortAmendments | repo.c:699-713 | the amendments are permuted into non-increasing id order |
| RepoRecords.MaxId | repo.c:160-190 | the largest id, 0 for none |
| RepoRecords.NextIdStep | repo.c:160-190 | one step of the seeding keeps the counter one past the largest id seen |
| RepoRecords.NextId | repo.c:146-190 | the 16-bit counter is one past the largest parsed id, 1 for none, while that fits |
| RepoRecords.HeaderPrefix | repo.c:359-364 | the header prefix is 19 bytes plus the author and the date text |
| RepoRecords.DiffHeader | repo.c:353-381 | the header is the prefix, then the log with two spaces after every carriage return but a final one, then two carriage returns, with the length that implies |
| RepoRecords.IndentedShape | repo.c:366-375 | the indented log is two bytes longer than the log for every inner carriage return |
| RepoRecords.IndentedPlaces | repo.c:366-375 | each log byte lands two places later for every inner carriage return before it |
| RepoRecords.HeaderOverflows | repo.c:358-380 | as written, a log with 54 or more inner carriage returns needs more than the 128+log_len bytes allocated |
| RepoRecords.DiffHeaderSized | repo.c:353-381 | with the buffer sized as required, the header fits and needs at most three bytes per log byte beyond the prefix |
| RepoRecords.InnerCRsAtMost | repo.c:367-377 | a log has no more inner carriage returns than bytes |
| Sorting.BubbleSort | repo.c:683-713 | the exchange sort permutes its input, leaves no adjacent pair out of order for an asymmetric test, and sorts fully for a weak order |
| Sorting.Pass | bile.c:313-322 | one exchange pass permutes and carries the largest element to the top |
| NatCompare.NatCmp | strnatcmp.c:143-145 | strnatcmp returns -1, 0 or 1 |
| NatCompare.NatCaseCmp | strnatcmp.c:149-151 | strnatcasecmp returns -1, 0 or 1 |
| NatCompare.CompareRight | strnatcmp.c:42-67 | the result is -1, 0 or 1, and 0 exactly when no digit differed so far and the two digit runs are equal |
| NatCompare.CompareLeft | strnatcmp.c:70-88 | the result is -1, 0 or 1, and 0 exactly when the two digit runs are equal |
| NatCompare.RunIsMaximal | strnatcmp.c:42-88 | a digit run is the longest digit prefix |
| NatCompare.CompareLeftIsLex | strnatcmp.c:70-88 | left-aligned comparison of runs that start with a zero is lexicographic comparison of the runs, a run that ends first being smaller |
| NatCompare.CompareRightRuns | strnatcmp.c:42-67 | right-aligned comparison: the longer run wins, else the first differing digit decides |
| NatCompare.CompareRightIsNumeric | strnatcmp.c:42-67 | for runs without a leading zero, the right-aligned comparison is the comparison of their numeric values |
| NatCompare.LexIsNumericSameLength | strnatcmp.c:42-67 | for equally long digit runs, the first differing digit decides as their values do |
| NatCompare.NatAntisymmetric | strnatcmp.c:90-140 | swapping the arguments negates the result |
| NatCompare.NatCmpAsymmetric | strnatcmp.c:143-145 | strnatcmp(a, b) == -strnatcmp(b, a) |
| NatCompare.CompareRightAntisymmetric | strnatcmp.c:42-67 | swapping the runs negates the result |
| NatCompare.CompareLeftAntisymmetric | strnatcmp.c:70-88 | swapping the runs negates the result |
| NatCompare.NatReflexive | strnatcmp.c:90-140 | every string compares equal to itself |
| NatCompare.LeadingSpaceIgnored | strnatcmp.c:101-106 | white space before a comparison step is skipped |
| NatCompare.NumericRunsDecide | strnatcmp.c:109-118 | when both strings start digit runs without a leading zero and the values differ, the values decide |
| NatCompare.ZeroLedRunsDecide | strnatcmp.c:109-114 | when a run starts with '0' and the runs differ, the left-aligned comparison decides |
| NatCompare.EqualRunsContinue | strnatcmp.c:109-124 | equal runs are passed over and the comparison goes on after them |
| NatCompare.CaseFoldIsUpperCase | strnatcmp.c:127-151 | strnatcasecmp is strnatcmp on the upper-cased strings |
| NatCompare.LeadingZeroExample | strnatcmp.c:101-114 | leading zeros are not skipped: "2" sorts after "010" |
| NatCompare.LongerRunExample | strnatcmp.c:42-67 | "a10" sorts after "a9" |
| NatCompare.InnerSpaceExample | strnatcmp.c:101-106 | spaces inside a string are skipped, so "a b" equals "ab" |
| UtilStrings.Strlcpy | util.c:1105-1133 | copies at most dsize-1 bytes, terminates when dsize is not 0, returns strlen(src), and the result is at least dsize exactly when the copy was cut |
| UtilStrings.Strlcat | util.c:1069-1103 | appends within dsize-1 bytes, returns strlen(src) plus the old length, and the result is at least dsize exactly when the text was cut |
| UtilStrings.StrlcatResult | util.c:1087-1102 | the buffer holds the old string plus as much of src as fits, terminated, with the bytes after the terminator unchanged |
| UtilStrings.Strsep | util.c:1155-1191 | None in gives None; otherwise the token runs to the first delimiter, which ends it and is skipped, or the whole string is the token and the rest becomes None |
| UtilStrings.Strndup | util.c:1135-1153 | the copy is the longest prefix of at most maxlen bytes that stops at the terminator |
| UtilStrings.Rtrim | util.c:338-359 | the maximal suffix of characters from the set is cleared to NULs and the remaining length returned |
| UtilStrings.StrposQuoted | util.c:361-386 | the first position of c outside a quoted region, where a backslash in quotes escapes the next byte, and -1 exactly when there is none |
| UtilStrings.StrposAsWritten | util.c:361-386 | strpos_quoted as written: a position it returns lies in the string and holds c, and a start past the end reads past it |
| UtilStrings.StrposReadsPastEnd | util.c:368-370 | as written, a backslash that ends a quoted string makes the scan step over the terminator and read past the end |
| UtilStrings.StrposAsWrittenFinds | util.c:361-386 | when the as-written scan stops inside the string, it stops at a hit |
| UtilStrings.Ordinal | util.c:317-336 | "st", "nd" and "rd" for final digits 1, 2 and 3 except in 11 to 13, "th" otherwise |
| UtilStrings.OrdinalByHundreds | util.c:317-336 | the suffix depends only on n mod 100 |
| UtilStrings.GetLine | util.c:300-315 | 0 for an empty string; otherwise the text before the first carriage return, or before the last byte when there is none, and the count including the byte dropped |
| UtilStrings.OSTypeToString | util.c:388-399 | the four type bytes, big-endian, then a NUL |
| UtilStrings.GuardExact | util.c:213-216 | the overflow guard trips exactly when nmemb·size exceeds SIZE_MAX, so the 2^16 shortcut never misses an overflow |
| UtilStrings.XCalloc | util.c:209-223 | panics exactly when the product overflows or is zero; otherwise it allocates nmemb·size bytes |
| Seqs.FirstIndex | focusable.c:103-108 | the first position holding the entry, or the length when no position does |
| Focusables.Find | focusable.c:33-41 | the first entry on the window, and None exactly when none is |
| Focusables.Focused | focusable.c:43-47 | the front entry, when the list is not empty and that entry is visible |
| Focusables.Add | focusable.c:49-61 | the new entry goes in front of the others, in order, and is visible and focused |
| Focusables.Show | focusable.c:63-92 | refused with nothing changed when a different modal entry is in front; otherwise the entry moves to the front, the ones before it shift down by one, the rest stay, and it is visible and focused |
| Focusables.Close | focusable.c:94-117 | refused with nothing changed when the close callback declines; otherwise the first occurrence is removed, the others keep their order and the count drops by one |
| Focusables.Hide | focusable.c:119-132 | the entry becomes invisible and moves to the end, the others keeping their order |
| Focusables.CloseUndoesAdd | focusable.c:94-117 | closing an entry just added restores the list |
| Focusables.RemovedKeepsOthers | focusable.c:103-108 | removal takes out one occurrence and keeps the rest in order |
| Focusables.RaisedPermutes | focusable.c:67-80 | raising an entry permutes the list, shifting the earlier entries and keeping the later ones |
| Focusables.HideUnfocuses | focusable.c:119-132 | hiding the only visible entry leaves nothing focused |
| DiffSort.Sort | diffreg.c:729-760 | the lines are permuted into ascending order by (value, serial) |
| DiffSort.GapPass | diffreg.c:738-759 | one gap pass permutes the lines, and with gap 1 sorts them |
| DiffSort.Sink | diffreg.c:740-757 | the inner loop permutes the lines and, with gap 1, extends the sorted prefix by one |
| DiffKernels.Search | diffreg.c:585-607 | for increasing candidates whose first is below y, the result l has y(l-1) < y ≤ y(l), or is past the last when y exceeds all; it is the number of candidates below y |
| DiffKernels.CountBelowSplit | diffreg.c:585-607 | in an increasing sequence the candidates below y are exactly a prefix |
| DiffKernels.Prune | diffreg.c:459-477 | the longest common prefix and, of the rest, the longest common suffix, and each file's middle renumbered from 1 |
| DiffKernels.CommonPrefix | diffreg.c:462-465 | the longest common prefix of the line hashes |
| DiffKernels.CommonSuffix | diffreg.c:466-469 | the longest common suffix of what the prefix leaves |
| DiffKernels.Renumber | diffreg.c:470-476 | the middle lines are renumbered from 1 in place, behind the prefix offset |
| DiffKernels.ClassOf | diffreg.c:479-505 | the index, counted from 1, of the first line of b with the value, and 0 exactly when there is none |
| DiffKernels.Equiv | diffreg.c:479-505 | each line of a gets its class in b; member holds b's serials with class heads negated and ends with -1 |
| DiffKernels.ClassMembers | diffreg.c:479-505 | the lines of one class in b follow its head with no other head among them |
| DiffKernels.Unsort | diffreg.c:762-773 | position i of the result holds the value of the line with serial i+1 |
| DiffKernels.UnsortInverts | diffreg.c:762-773 | unsort undoes a permutation of lines numbered by position |
| DiffIsqrt.Isqrt | diffreg.c:507-521 | 0 for 0; otherwise the floor of the square root or one more |
| DiffIsqrt.StepAbove | diffreg.c:513-518 | a Newton step never falls below the floor of the root |
| DiffIsqrt.StepSettled | diffreg.c:513-518 | once a step moves by at most one, the estimate is at most one above the root |
| DiffHash.Cup2LowAsWritten | diffreg.c:263-289 | the table as written maps 0x40 to 0x5f up by 32 and every other byte to itself |
| DiffHash.Cup2Low | diffreg.c:230-233 | the corrected table maps upper-case letters to lower case and every other byte to itself |
| DiffHash.Wrap32 | diffreg.c:1140-1168 | a `long` sum wraps into the 32-bit range, congruent modulo 2^32 |
| DiffHash.NonZero | diffreg.c:1182-1186 | a zero sum is reported as 1, any other sum as itself |
| DiffHash.Chrtran | diffreg.c:316-320 | without D_IGNORECASE every byte is itself; with it, upper-case letters move 32 up and no byte moves otherwise; the table as written also moves 0x40 to 0x5f, the letters-only one only 'A' to 'Z' |
| DiffHash.ReadHash | diffreg.c:1125-1187 | reads the line and its carriage return; 0 exactly when EOF comes before any counted byte, otherwise the nonzero wrapped sum of the counted bytes through the chosen table |
| DiffHash.PlainScan | diffreg.c:1131-1152 | without blank handling every byte of the line enters the sum |
| DiffHash.BlankScan | diffreg.c:1153-1181 | with blank handling the blank bytes are skipped and the rest enter the sum |
| DiffHash.SumOfTranslated | diffreg.c:1133-1141 | bytes that translate alike hash alike |
| DiffHash.IgnoreCaseMerges | diffreg.c:1132-1141 | with D_IGNORECASE, lines differing only in letter case hash alike, under either table |
| DiffHash.LettersOnlySeparates | diffreg.c:263-289 | with the letters-only table, two one-byte lines hash alike exactly when the bytes are equal or the same letter in two cases |
| DiffHash.NonBlankSkips | diffreg.c:1154-1170 | blanks added anywhere leave the blank-insensitive hash unchanged |
| DiffHash.Cup2LowFoldsBrackets | diffreg.c:263-289 | as written the table makes the lines "[" and "{" hash alike, though they are not case variants of each other |
| DiffFormat.Digits | diffreg.c:843-858 | `%ld` prints at least one decimal digit |
| DiffFormat.DecimalRoundTrip | diffreg.c:843-858 | a printed `%ld` reads back as its value |
| DiffFormat.Range | diffreg.c:843-848 | the text starts with min(a,b); it is just that number when a ≥ b, and longer than the number and the separator together when a < b |
| DiffFormat.UniRange | diffreg.c:850-858 | the text starts with min(a,b); it is b alone when a = b, and holds a comma otherwise |
| DiffFormat.RangeReadsBack | diffreg.c:843-848 | range text names min(a,b), then separator and b only when a < b |
| DiffFormat.UniRangeReadsBack | diffreg.c:850-858 | uni_range reads back as "a,(b-a+1)" for a < b, "b" for a = b and "b,0" for a > b |
| VisualizeScan.LineFrom | visualize.c:409-410 | the line at a position holds no carriage return and lies inside the text |
| VisualizeScan.ParseDiff | visualize.c:406-422 | -1 with the position unchanged exactly when more than bufLen+1 bytes precede the terminator; otherwise the line's length, the line copied in, the position moved onto the carriage return and never past it, and a NUL after the line only when it is at most bufLen long |
| VisualizeScan.CopyLineCopies | visualize.c:409-416 | the copy loop copies the line byte by byte up to bufLen+1 bytes and stops at the terminator |
| VisualizeScan.ParseDiffTerminated | visualize.c:406-422 | with the guard corrected, -1 exactly when the line is longer than bufLen; otherwise the line is copied and NUL-terminated inside the buffer and reads back as a C string |
| VisualizeScan.ParseDiffUnterminated | visualize.c:411-419 | as written, with bufLen 1 the line "ab" fills the two-byte buffer with no NUL; the corrected guard refuses it |
| VisualizeScan.GotoLine | visualize.c:510-524 | 0 for line 0; otherwise the position of the line-th 0xFF 0xFF pair found byte by byte, or bufSize exactly when there are fewer; never past bufSize |
| VisualizeScan.MarkersMonotone | visualize.c:510-524 | a longer prefix holds at least as many markers, and more when it covers one more marker |

## Left out

- Host I/O. GS/OS calls (FOpen, FRead, FWrite, FSeek, FSetEOF, FFlush,
  FGetEOF) are replaced by a byte-sequence file. A host write's or
  flush's failure is the `failAt` parameter. Reads are slices of the file.
  Where bile.c's bounds check does not keep a read inside the file, the
  read is a failure of its own. For example, bile_read_map's check at
  bile.c:851 leaves out the 16 header bytes, which gives
  `OpenError.ShortRead`.
- Memory allocation failure, `xrealloc`'s copy and `xmalloc`'s bookkeeping.
  `panic` and `err` are preconditions or the `Fault` outcome.
- BileStore.Delete: does not model the zero-fill of the old extent at
  bile.c:408-416, nor the -1 its FSeek or FWrite failures return after the
  in-memory tombstone. The loop passes `&size` for the count, so with
  s0 = size + 16 it writes s0-128, then s0-256, and so on, bytes from the
  object's position. It reads past its 128-byte buffer, and it zeroes
  only part of the extent or, once s0 exceeds 384, runs past the end of
  the object. Either way it writes over an object the on-disk map still
  references.
- BileSafety.DeleteKeepsValid: is a theorem about the model's delete
  without the zero-fill. The program's fill, for a payload above 368
  bytes, can overwrite the following object or the current on-disk map,
  for instance one 400-byte object at 256 with the map at 672. If the
  marker write then fails before the pointer rewrite, the header names a
  zeroed map and the store is not valid.
- BileStore.NextId: promises an id above the catalog's and the marker's
  only while those stay below 2^32-1. At that point the C code's
  `id + 1` wraps to 0, and the model wraps with it.
- BileStore.AfterMapSteps: takes the fields of `new_map_obj` as intact.
  That pointer points into the old catalog array, which bile_write_map
  frees at bile.c:970 before reading `pos`, `size` and `id` through it at
  bile.c:976-978 for the header pointer. What freed memory holds is up to
  the host's allocator, so the model reads the values the descriptor had,
  as a copy taken before the free would.
- BileStore.OpenRecover: states no guarantee that the older map is intact.
  The map rewrite drops its space from the catalog, and the next allocation
  may reuse it.
- BileSafety.WriteKeepsOnDiskState: requires `InOrder`, meaning the
  corrected insertion, or a catalog on which the insertion as written
  keeps file order. `BileInsertion.AsWrittenLosesObject` shows that the
  rule as written can place the new map over a listed object.
- BileSafety.CrashKeepsOpen: requires `InOrder`, for the same reason.
- BileSafety.WriteKeepsValid: requires `InOrder`. On the misordered
  catalog, the store the rule as written leaves lists an object that does
  not read back.
- BileSafety.WriteMapKeepsValid: requires `InOrder`, for the same reason.
- BileSafety.DeleteKeepsValid: requires `InOrder`, for the same reason.
- BileSafety.WriteThenRead: requires `InOrder`. Without it the read fails,
  as `BileInsertion.OneEntryInsertion` shows.
- BileSafety.MapWriteKeepsObject: requires `InOrder`. As written, the map
  rewrite of a misordered catalog can land on the object, as
  `BileInsertion.MapOverObject` shows.
- BileIds.WriteThenReadById: requires `InOrder`. Without it the write
  reports success and the read fails, as
  `BileInsertion.AsWrittenLosesObject` shows.
- BileIds.DeleteStoresMarker: requires `InOrder`, because the marker is
  stored by bile_write and is lost the same way.
- BileIds.DeleteRemoves: requires `InOrder`, for the same reason.
- BileIds.DeleteThenNextIdReissues: requires `InOrder`, for the same
  reason.
- BileIds.DeleteThenNextIdFresh: requires `InOrder`, for the same reason.
- The other rows marked "(under InOrder)" require it for the same
  reason: each is about a map rewrite, which the rule as written can
  place over a listed object.
- `bile_marshall_object` and `bile_unmarshall_object` are not called from
  the modelled code.
- The `persisted` field of the store records the catalog the on-disk map
  encodes. It is bookkeeping for the invariant and has no C counterpart.
- `bile_check_sanity`, `bile_flush`'s volume flush and `bile_close` are
  not modelled. The first only panics on a NULL handle; the other two are
  host calls.
- RepoRecords.ParseAmendment: answers None where the C code would read
  past the end of a short record. The C code never checks the size.
- RepoRecords.MarshallAmendment: assumes the record fits the 16-bit
  length it is announced with, rather than modelling wrap-around.
- The `header_len` arithmetic of `repo_diff_header` uses unbounded
  integers. The date text comes from the toolbox and is a parameter.
- File-record timestamps are not round-tripped. `repo_file_update` stores
  them with a native copy, while `repo_parse_file` reads them big-endian.
- RepoRecords.SortFiles: states adjacency only: no name compares as 1
  against the next. `strnatcmp` is not shown to be transitive, so full
  sortedness is not claimed.
- The repository's dialog, file-system and patch flows (repo_open,
  repo_amend, repo_export_patch and the rest) are I/O and user interface.
- `timeString`, `ConvSeconds` and `xorshift32` are toolbox calls or
  randomness.
- Window-manager calls in focusable.c are not modelled; neither is
  `focusables_quit`, which only loops over the close callbacks.
- Focusables.Close and Focusables.Hide: require a non-empty list. On an
  empty list `nfocusables--` wraps (focusable.c:111), and `focusable_hide`
  writes `focusables[nfocusables - 1]` before the array (focusable.c:131).
  An entry that is not in a non-empty list is modelled the way the C code
  treats it: Close drops the last entry, and Hide overwrites it.
- UtilStrings.Strlcat: takes the destination's string length as the
  position of its NUL within the buffer, as the loop capped by `dsize`
  does.
- The rest of diffreg.c is not modelled: diffreg, files_differ, prepare,
  stone, unravel, check, output, change, fetch, the dump functions and
  match_function. These drive file cursors and global output state.
- The diff flags are decoded into three booleans. Only D_FOLDBLANKS,
  D_IGNOREBLANKS and D_IGNORECASE affect the hash.
- DiffKernels.Equiv: the C code overlays `member` on `file[1]`, whose
  reads stay ahead of its writes. The model writes a separate sequence.
- DiffFormat.RangeReadsBack: `range` and `uni_range` compute with
  unbounded integers. `b - a + 1` cannot overflow for line numbers of a
  32-bit file.
- VisualizeScan.ParseDiff: after -1, the buffer's first bufLen+1 bytes
  are stated; the caller does not use them.
- The drawing, scrolling and buffer-building code of visualize.c is user
  interface.
- Character signedness: if `char` were signed, the 0xff comparisons in
  `gotoLine` could never hold. The model assumes unsigned bytes.

## Findings

| source | as written | input that shows it | evidently intended | confidence | as-written member | corrected member |
|---|---|---|---|---|---|---|
| bile.c:814-841 | the insertion loop `for (n = 0; n + 1 < nobjects; n++)` never runs with exactly one entry, so the new entry is appended after it | one entry at 1000 and a 4-byte object that fits at 256 | insert before the entry whose position is past the new one, keeping the catalog sorted | high, not executed | BileCatalog.AllocAsWrittenMisorders | BileCatalog.AllocKeepsOrder |
| bile.c:814-841 | with the catalog misordered, bile_write_map's first-fit scan puts the new map at 256, over the object just written, and bile_write still reports success | a new file; write a 32-byte PURGE object, then a 32-byte object of another type: reading the second fails with BILE_ERR_BOGUS_OBJECT | the written object reads back | high, not executed | BileInsertion.AsWrittenLosesObject | BileInsertion.CorrectedKeepsObject |
| bile.c:611-619 | bile_write tests `last_error` after the map rewrite, but a failed flush does not set it | the first flush of the map rewrite fails | report 0 when the rewrite did not complete | high, not executed | BileSafety.WriteMaskedFlush | BileStore.Write |
| repo.c:358-380 | 128 + log_len bytes are allocated, but the header needs the prefix, the log, two spaces per inner carriage return and two more bytes | a log of sixty carriage returns under an empty author and date | allocate the size required | high, not executed | RepoRecords.HeaderOverflows | RepoRecords.DiffHeaderSized |
| util.c:368-370 | a backslash inside quotes skips the next byte even when that byte is the terminator | the string `"\` | stop at the terminator | high, not executed | UtilStrings.StrposReadsPastEnd | UtilStrings.StrposQuoted |
| diffreg.c:263-289 | cup2low maps 0x40 to 0x5f up by 32, folding punctuation as well as letters | the lines "[" and "{" under D_IGNORECASE | fold only 'A' to 'Z' | medium, not executed | DiffHash.Cup2LowFoldsBrackets | DiffHash.LettersOnlySeparates |
| bile.c:374-378 | `highest > id` is strict, so a marker equal to the loop's value is ignored, and the id the marker was written to protect is handed out again | ids 1, 2 and 3 of a type; delete 3; bile_next_id returns 3 | `highest >= id`, so a deleted highest id is never reissued, as the comment at bile.c:418-420 says | high, not executed | BileIds.DeleteThenNextIdReissues | BileIds.DeleteThenNextIdFresh |
| visualize.c:411-419 | `returnCount > bufLen` lets bufLen+1 bytes in, filling the buffer with no NUL | bufLen 1 and the text "ab" then a carriage return | refuse a line longer than bufLen, so the NUL always fits | high, not executed | VisualizeScan.ParseDiffUnterminated | VisualizeScan.ParseDiffTerminated |

=== FILE: bile_catalog.dfy ===
/**
 The in-memory catalog of a BILE file (`bile->map`, `bile->nobjects`): a
 sequence of descriptors kept in file order. This module holds the lookups
 (bile_object_in_map, bile_find, bile_count_by_type, bile_get_nth_of_type,
 bile_sorted_ids_by_type) and the allocator (bile_alloc).
 */
module BileCatalog {
  import opened Bytes
  import opened Options
  import opened BileFormat
  import Sorting

  type Catalog = seq<Desc>

  /** The entries lie in file order, each one (header and payload) ending
      before the next one starts. This is what "the map is always sorted"
      means, and it makes the entries pairwise disjoint. */
  ghost predicate Ordered(cat: Catalog) {
    forall i, j :: 0 <= i < j < |cat| ==> End(cat[i]) <= cat[j].pos
  }

  /** No entry overlaps the file header. */
  ghost predicate AfterHeader(cat: Catalog) {
    forall i :: 0 <= i < |cat| ==> HEADER_LEN <= cat[i].pos
  }

  /** Two descriptors' extents (header and payload) share no byte. */
  predicate Disjoint(d: Desc, e: Desc) {
    End(d) <= e.pos || End(e) <= d.pos
  }

  predicate Matches(d: Desc, typ: nat, id: nat) {
    d.typ == typ && d.id == id
  }

  // ---------------------------------------------------------------------
  // Lookups

  /** The backward scan of bile_object_in_map over the first `n` entries. */
  function LastMatch(cat: Catalog, typ: nat, id: nat, n: nat): (r: Option<nat>)
    requires n <= |cat|
    ensures r.Some? ==> r.value < n && Matches(cat[r.value], typ, id)
    ensures r.Some? ==> forall j :: r.value < j < n ==> !Matches(cat[j], typ, id)
    ensures r.None? ==> forall j :: 0 <= j < n ==> !Matches(cat[j], typ, id)
  {
    if n == 0 then None
    else if Matches(cat[n - 1], typ, id) then Some(n - 1)
    else LastMatch(cat, typ, id, n - 1)
  }

  /** bile_object_in_map: the index of the newest (highest-index) entry with
      this type and id, or None when there is none. */
  function ObjectInMap(cat: Catalog, typ: nat, id: nat): (r: Option<nat>)
    ensures r.Some? ==> r.value < |cat| && Matches(cat[r.value], typ, id)
    ensures r.Some? ==> forall j :: r.value < j < |cat| ==> !Matches(cat[j], typ, id)
    ensures r.None? <==> forall j :: 0 <= j < |cat| ==> !Matches(cat[j], typ, id)
  {
    LastMatch(cat, typ, id, |cat|)
  }

  /** bile_find: a copy of the descriptor bile_object_in_map finds. */
  function Find(cat: Catalog, typ: nat, id: nat): (r: Option<Desc>)
    ensures r.Some? <==> exists j :: 0 <= j < |cat| && Matches(cat[j], typ, id)
    ensures r.Some? ==> r.value in cat && Matches(r.value, typ, id)
    ensures r.Some? ==>
      exists i :: 0 <= i < |cat| && cat[i] == r.value && forall j :: i < j < |cat| ==> !Matches(cat[j], typ, id)
  {
    match ObjectInMap(cat, typ, id)
    case None => None
    case Some(i) => Some(cat[i])
  }

  /** The entries of one type, in catalog order: the reference the by-type
      queries are measured against. */
  function OfType(cat: Catalog, typ: nat): (r: seq<Desc>)
    ensures |r| <= |cat|
    ensures forall k :: 0 <= k < |r| ==> r[k].typ == typ && r[k] in cat
  {
    if cat == [] then []
    else OfType(cat[..|cat| - 1], typ) + (if cat[|cat| - 1].typ == typ then [cat[|cat| - 1]] else [])
  }

  function Ids(ds: seq<Desc>): (r: seq<nat>)
    ensures |r| == |ds| && forall k :: 0 <= k < |ds| ==> r[k] == ds[k].id
  {
    if ds == [] then [] else [ds[0].id] + Ids(ds[1..])
  }

  /** Every entry of the type appears in the filtered sequence. */
  lemma {:induction false} OfTypeComplete(cat: Catalog, typ: nat, j: nat)
    requires j < |cat| && cat[j].typ == typ
    ensures cat[j] in OfType(cat, typ)
  {
    if j < |cat| - 1 {
      assert cat[..|cat| - 1][j] == cat[j];
      OfTypeComplete(cat[..|cat| - 1], typ, j);
    }
  }

  /** Filtering a prefix gives a prefix of the filtered whole. */
  lemma {:induction false} OfTypePrefix(cat: Catalog, typ: nat, n: nat)
    requires n <= |cat|
    ensures OfType(cat[..n], typ) <= OfType(cat, typ)
    decreases |cat| - n
  {
    if n < |cat| {
      assert cat[..|cat| - 1][..n] == cat[..n];
      OfTypePrefix(cat[..|cat| - 1], typ, n);
    } else {
      assert cat[..n] == cat;
    }
  }

  /** bile_object_in_map finds an entry exactly when its id is among the ids
      the by-type queries report for its type. */
  lemma ObjectInMapAgreesWithOfType(cat: Catalog, typ: nat, id: nat)
    ensures ObjectInMap(cat, typ, id).Some? <==> id in Ids(OfType(cat, typ))
  {
    var ids := Ids(OfType(cat, typ));
    if ObjectInMap(cat, typ, id).Some? {
      var i := ObjectInMap(cat, typ, id).value;
      OfTypeComplete(cat, typ, i);
      var k :| 0 <= k < |OfType(cat, typ)| && OfType(cat, typ)[k] == cat[i];
      assert ids[k] == id;
    } else {
      forall k | 0 <= k < |ids|
        ensures ids[k] != id
      {
        assert OfType(cat, typ)[k] in cat;
      }
    }
  }

  /** bile_count_by_type. */
  method CountByType(cat: Catalog, typ: nat) returns (count: nat)
    ensures count == |OfType(cat, typ)|
  {
    count := 0;
    var n := 0;
    while n < |cat|
      invariant n <= |cat|
      invariant count == |OfType(cat[..n], typ)|
    {
      assert cat[..n + 1][..n] == cat[..n];
      if cat[n].typ == typ {
        count := count + 1;
      }
      n := n + 1;
    }
    assert cat[..n] == cat;
  }

  /** bile_get_nth_of_type: the `index`-th entry of the type in catalog
      order, or None when there are not that many. */
  method NthOfType(cat: Catalog, index: nat, typ: nat) returns (r: Option<Desc>)
    ensures r.Some? <==> index < |OfType(cat, typ)|
    ensures r.Some? ==> r.value == OfType(cat, typ)[index]
  {
    var count := 0;
    var n := 0;
    while n < |cat|
      invariant n <= |cat|
      invariant count == |OfType(cat[..n], typ)| && count <= index
    {
      assert cat[..n + 1][..n] == cat[..n];
      if cat[n].typ == typ {
        if count == index {
          OfTypePrefix(cat, typ, n + 1);
          assert OfType(cat[..n + 1], typ)[index] == cat[n];
          return Some(cat[n]);
        }
        count := count + 1;
      }
      n := n + 1;
    }
    assert cat[..n] == cat;
    return None;
  }

  /** The first loop of bile_sorted_ids_by_type: the ids of the type in
      catalog order. */
  method CollectIds(cat: Catalog, typ: nat) returns (ids: seq<nat>)
    ensures ids == Ids(OfType(cat, typ))
  {
    ids := [];
    var n := 0;
    while n < |cat|
      invariant n <= |cat|
      invariant ids == Ids(OfType(cat[..n], typ))
    {
      assert cat[..n + 1][..n] == cat[..n];
      IdsAppend(OfType(cat[..n], typ), if cat[n].typ == typ then [cat[n]] else []);
      if cat[n].typ == typ {
        ids := ids + [cat[n].id];
      }
      n := n + 1;
    }
    assert cat[..n] == cat;
  }

  lemma {:induction false} IdsAppend(a: seq<Desc>, b: seq<Desc>)
    ensures Ids(a + b) == Ids(a) + Ids(b)
  {
    if a != [] {
      assert (a + b)[1..] == a[1..] + b;
      IdsAppend(a[1..], b);
    }
  }

  /** The order the id sort swaps on: `ids[j] > ids[j + 1]`. */
  function IdAfter(a: nat, b: nat): bool {
    a > b
  }

  lemma IdAfterIsWeakOrder()
    ensures Sorting.WeakOrder(IdAfter)
  {
  }

  /** bile_sorted_ids_by_type: the ids of the type, sorted ascending. */
  method SortedIdsByType(cat: Catalog, typ: nat) returns (ids: seq<nat>)
    ensures multiset(ids) == multiset(Ids(OfType(cat, typ)))
    ensures forall i, j :: 0 <= i < j < |ids| ==> ids[i] <= ids[j]
  {
    var collected := CollectIds(cat, typ);
    ids := Sorting.BubbleSort(collected, IdAfter);
    IdAfterIsWeakOrder();
    assert Sorting.SortedBy(ids, IdAfter);
  }

  // ---------------------------------------------------------------------
  // Allocation

  /** `a - b` on the host's 32-bit size_t: it wraps when `b > a`. */
  function SizeSub(a: nat, b: nat): (r: nat)
    ensures a >= b ==> r == a - b
    ensures a < b && b - a <= SIZE_MAX ==> r + (b - a) == U32_LIMIT
  {
    if a >= b then a - b else (a - b) % U32_LIMIT
  }

  /** The gap scan of bile_alloc from entry `n` on, `last` being the end of
      what precedes it: the first `last` followed by a gap of at least
      `size + 16` bytes, or the end of the last entry. Every entry counts,
      tombstones included. */
  function ScanFrom(cat: Catalog, n: nat, last: nat, size: nat): nat
    requires n <= |cat|
    decreases |cat| - n
  {
    if n == |cat| then last
    else if SizeSub(cat[n].pos, last) >= size + OBJECT_SIZE then last
    else ScanFrom(cat, n + 1, End(cat[n]), size)
  }

  /** The position bile_alloc picks for an object of `size` payload bytes. */
  function AllocPos(cat: Catalog, size: nat): nat {
    ScanFrom(cat, 0, HEADER_LEN, size)
  }

  /** Where gap `k` starts: after the header for the first, after entry
      `k - 1` otherwise. Gap `|cat|` is the unbounded space past the end. */
  function GapStart(cat: Catalog, k: nat): nat
    requires k <= |cat|
  {
    if k == 0 then HEADER_LEN else End(cat[k - 1])
  }

  /** Gap `k` holds a header plus `size` bytes. */
  predicate GapFits(cat: Catalog, size: nat, k: nat)
    requires k <= |cat|
  {
    k == |cat| || GapStart(cat, k) + OBJECT_SIZE + size <= cat[k].pos
  }

  /** The declarative first-fit choice: gap `k` fits and no earlier one does. */
  predicate FirstFit(cat: Catalog, size: nat, k: nat)
    requires k <= |cat|
  {
    GapFits(cat, size, k) && forall j :: 0 <= j < k ==> !GapFits(cat, size, j)
  }

  /** The index of the first fitting gap, from gap `n` on. */
  function FirstFitFrom(cat: Catalog, size: nat, n: nat): (k: nat)
    requires n <= |cat|
    ensures n <= k <= |cat| && GapFits(cat, size, k)
    ensures forall j :: n <= j < k ==> !GapFits(cat, size, j)
    decreases |cat| - n
  {
    if GapFits(cat, size, n) then n else FirstFitFrom(cat, size, n + 1)
  }

  function FirstFitIndex(cat: Catalog, size: nat): (k: nat)
    ensures k <= |cat| && FirstFit(cat, size, k)
  {
    FirstFitFrom(cat, size, 0)
  }

  lemma {:induction false} ScanFromIsFirstFit(cat: Catalog, size: nat, n: nat)
    requires Ordered(cat) && AfterHeader(cat)
    requires n <= |cat|
    ensures ScanFrom(cat, n, GapStart(cat, n), size) == GapStart(cat, FirstFitFrom(cat, size, n))
    decreases |cat| - n
  {
    if n < |cat| {
      assert cat[n].pos >= GapStart(cat, n);
      if !GapFits(cat, size, n) {
        ScanFromIsFirstFit(cat, size, n + 1);
      }
    }
  }

  /** bile_alloc's gap scan is first fit: on an ordered catalog it picks the
      start of the first gap past the header that holds a header plus
      `size` bytes, or the end of the last entry when none does. */
  lemma AllocPosIsFirstFit(cat: Catalog, size: nat)
    requires Ordered(cat) && AfterHeader(cat)
    ensures AllocPos(cat, size) == GapStart(cat, FirstFitIndex(cat, size))
  {
    ScanFromIsFirstFit(cat, size, 0);
  }

  /** The chosen extent lies past the header and overlaps no entry. */
  lemma AllocPosIsFree(cat: Catalog, size: nat)
    requires Ordered(cat) && AfterHeader(cat)
    ensures AllocPos(cat, size) >= HEADER_LEN
    ensures forall i :: 0 <= i < |cat| ==> Disjoint(Desc(AllocPos(cat, size), size, 0, 0), cat[i])
  {
    AllocPosIsFirstFit(cat, size);
    var k := FirstFitIndex(cat, size);
    var p := AllocPos(cat, size);
    forall i | 0 <= i < |cat|
      ensures Disjoint(Desc(p, size, 0, 0), cat[i])
    {
      if i < k {
        assert End(cat[i]) <= GapStart(cat, k);
      } else {
        assert p + OBJECT_SIZE + size <= cat[k].pos;
      }
    }
  }

  /** The insertion loop of bile_alloc as written: `for (n = 0; n + 1 <
      nobjects; n++)`, which looks at neighbouring pairs only. */
  function InsertLoop(cat: Catalog, last: nat, n: nat): (r: nat)
    requires n <= |cat|
    ensures r <= |cat|
    decreases |cat| - n
  {
    if n + 1 >= |cat| then |cat|
    else if n == 0 && last < cat[0].pos then 0
    else if last > cat[n].pos && last < cat[n + 1].pos then n + 1
    else InsertLoop(cat, last, n + 1)
  }

  /** The insertion index as written. With one entry the loop body never
      runs and the new descriptor is appended wherever it lies. */
  function InsertIndexAsWritten(cat: Catalog, last: nat): (r: nat)
    ensures r <= |cat|
  {
    InsertLoop(cat, last, 0)
  }

  /** The insertion index with the one-entry case handled as the loop
      handles the first entry of a longer catalog. */
  function InsertIndex(cat: Catalog, last: nat): (r: nat)
    ensures r <= |cat|
  {
    if |cat| == 1 && last < cat[0].pos then 0 else InsertLoop(cat, last, 0)
  }

  /** The result of bile_alloc: the catalog with the new descriptor wedged
      in, and the index it went to. */
  datatype Allocation = Allocation(catalog: Catalog, index: nat)

  function InsertAt(cat: Catalog, k: nat, d: Desc): (r: Catalog)
    requires k <= |cat|
    ensures |r| == |cat| + 1 && r[k] == d
    ensures r[..k] == cat[..k] && r[k + 1..] == cat[k..]
  {
    cat[..k] + [d] + cat[k..]
  }

  /** bile_alloc as written. */
  function AllocAsWritten(cat: Catalog, typ: nat, id: nat, size: nat): (a: Allocation)
    ensures a.index <= |cat| && |a.catalog| == |cat| + 1
    ensures a.catalog[a.index] == Desc(AllocPos(cat, size), size, typ, id)
    ensures a.catalog[..a.index] == cat[..a.index] && a.catalog[a.index + 1..] == cat[a.index..]
  {
    var last := AllocPos(cat, size);
    var k := InsertIndexAsWritten(cat, last);
    Allocation(InsertAt(cat, k, Desc(last, size, typ, id)), k)
  }

  /** bile_alloc with the one-entry insertion handled. */
  function Alloc(cat: Catalog, typ: nat, id: nat, size: nat): (a: Allocation)
    ensures a.index <= |cat| && |a.catalog| == |cat| + 1
    ensures a.catalog[a.index] == Desc(AllocPos(cat, size), size, typ, id)
    ensures a.catalog[..a.index] == cat[..a.index] && a.catalog[a.index + 1..] == cat[a.index..]
  {
    var last := AllocPos(cat, size);
    var k := InsertIndex(cat, last);
    Allocation(InsertAt(cat, k, Desc(last, size, typ, id)), k)
  }

  /** Which insertion bile_alloc performs: the loop as the program has it,
      or the loop with the one-entry case handled. */
  datatype Insertion = AsWritten | Corrected

  /** bile_alloc under the chosen insertion. */
  function AllocBy(ins: Insertion, cat: Catalog, typ: nat, id: nat, size: nat): (a: Allocation)
    ensures a.index <= |cat| && |a.catalog| == |cat| + 1
    ensures a.catalog[a.index] == Desc(AllocPos(cat, size), size, typ, id)
    ensures a.catalog[..a.index] == cat[..a.index] && a.catalog[a.index + 1..] == cat[a.index..]
  {
    match ins
    case AsWritten => AllocAsWritten(cat, typ, id, size)
    case Corrected => Alloc(cat, typ, id, size)
  }

  /** The catalogs on which the insertion as written puts the new entry
      where the corrected one does: all but a single entry with room in
      front of it. */
  predicate InsertsInOrder(cat: Catalog) {
    |cat| != 1 || cat[0].pos <= HEADER_LEN
  }

  /** On such a catalog (or with the corrected insertion) the allocation is
      the corrected one. */
  lemma AllocByAgrees(ins: Insertion, cat: Catalog, typ: nat, id: nat, size: nat)
    requires AfterHeader(cat) && (ins == Corrected || InsertsInOrder(cat))
    ensures AllocBy(ins, cat, typ, id, size) == Alloc(cat, typ, id, size)
  {
    if ins == AsWritten && |cat| == 1 {
      assert cat[0].pos == HEADER_LEN;
      assert SizeSub(cat[0].pos, HEADER_LEN) == 0;
      assert AllocPos(cat, size) == ScanFrom(cat, 1, End(cat[0]), size) == End(cat[0]);
    }
  }

  /** On an ordered catalog with at least two entries the insertion loop
      stops at the first fitting gap. */
  lemma {:induction false} InsertLoopFindsGap(cat: Catalog, size: nat, n: nat)
    requires Ordered(cat) && AfterHeader(cat) && |cat| != 1
    requires n == 0 || n < FirstFitIndex(cat, size)
    ensures InsertLoop(cat, GapStart(cat, FirstFitIndex(cat, size)), n) == FirstFitIndex(cat, size)
    decreases |cat| - n
  {
    var k := FirstFitIndex(cat, size);
    var last := GapStart(cat, k);
    if n + 1 < |cat| {
      if k == 0 {
        assert last < cat[0].pos;
      } else {
        assert last >= End(cat[k - 1]);
        if n == 0 {
          assert !GapFits(cat, size, 0);
          assert cat[0].pos <= cat[k - 1].pos < last;
        }
        if n + 1 == k {
          assert last < cat[k].pos;
        } else {
          assert cat[n + 1].pos <= cat[k - 1].pos < last;
          InsertLoopFindsGap(cat, size, n + 1);
        }
      }
    }
  }

  /** The insertion index of the corrected allocator is the first fitting
      gap, so the new entry lands between its neighbours in file order. */
  lemma InsertIndexIsGap(cat: Catalog, size: nat)
    requires Ordered(cat) && AfterHeader(cat)
    ensures InsertIndex(cat, AllocPos(cat, size)) == FirstFitIndex(cat, size)
  {
    AllocPosIsFirstFit(cat, size);
    if |cat| != 1 {
      InsertLoopFindsGap(cat, size, 0);
    }
  }

  /** Placing `d` between entries `k - 1` and `k` of an ordered catalog,
      clear of both, keeps it ordered. */
  lemma InsertKeepsOrder(cat: Catalog, k: nat, d: Desc)
    requires Ordered(cat) && k <= |cat|
    requires k > 0 ==> End(cat[k - 1]) <= d.pos
    requires k < |cat| ==> End(d) <= cat[k].pos
    ensures Ordered(InsertAt(cat, k, d))
  {
    var r := InsertAt(cat, k, d);
    assert forall i :: 0 <= i < k ==> r[i] == cat[i];
    assert forall i :: k < i < |r| ==> r[i] == cat[i - 1];
    forall i, j | 0 <= i < j < |r|
      ensures End(r[i]) <= r[j].pos
    {
      if i < k && k < j {
        assert End(r[i]) <= End(cat[k - 1]) by {
          if i < k - 1 {
            assert End(cat[i]) <= cat[k - 1].pos;
          }
        }
        assert cat[k].pos <= r[j].pos by {
          if j - 1 > k {
            assert End(cat[k]) <= cat[j - 1].pos;
          }
        }
      }
    }
  }

  /** bile_alloc keeps the catalog in file order and past the header: the
      "map is always sorted" promise, for the corrected insertion. */
  lemma AllocKeepsOrder(cat: Catalog, typ: nat, id: nat, size: nat)
    requires Ordered(cat) && AfterHeader(cat)
    ensures Ordered(Alloc(cat, typ, id, size).catalog)
    ensures AfterHeader(Alloc(cat, typ, id, size).catalog)
  {
    var k := FirstFitIndex(cat, size);
    var p := AllocPos(cat, size);
    InsertIndexIsGap(cat, size);
    AllocPosIsFirstFit(cat, size);
    AllocPosIsFree(cat, size);
    var d := Desc(p, size, typ, id);
    assert p == GapStart(cat, k);
    assert k > 0 ==> End(cat[k - 1]) <= d.pos;
    assert k < |cat| ==> End(d) <= cat[k].pos by {
      if k < |cat| {
        assert GapFits(cat, size, k);
      }
    }
    InsertKeepsOrder(cat, k, d);
    var r := Alloc(cat, typ, id, size).catalog;
    assert r == InsertAt(cat, k, d);
    forall i | 0 <= i < |r|
      ensures HEADER_LEN <= r[i].pos
    {
      if i < k {
        assert r[i] == cat[i];
      } else if i > k {
        assert r[i] == cat[i - 1];
      }
    }
  }

  /** The insertion as written breaks the order: one entry at 1000 and a
      four-byte object that fits in the gap before it. */
  lemma AllocAsWrittenMisorders()
    ensures var cat := [Desc(1000, 10, 1, 1)];
      Ordered(cat) && AfterHeader(cat) &&
      AllocAsWritten(cat, 2, 1, 4).catalog == [Desc(1000, 10, 1, 1), Desc(HEADER_LEN, 4, 2, 1)] &&
      !Ordered(AllocAsWritten(cat, 2, 1, 4).catalog)
  {
    var cat := [Desc(1000, 10, 1, 1)];
    assert AllocPos(cat, 4) == HEADER_LEN;
    var r := AllocAsWritten(cat, 2, 1, 4).catalog;
    assert r == [Desc(1000, 10, 1, 1), Desc(HEADER_LEN, 4, 2, 1)];
    assert End(r[0]) > r[1].pos;
  }
}

=== FILE: bile_format.dfy ===
/**
 The on-disk format of a BILE file (bile.h): the magic strings, the
 reserved object types, the fixed sizes, the error codes, the object
 descriptor and its raw encoding.

 The program writes `struct bile_object` (four `unsigned long`s) to disk as
 raw memory, so the byte order of a descriptor is the host's. The encoding is
 therefore parameterised by a `ByteOrder` and its round trip is proved for
 both orders.
 */
module BileFormat {
  import opened Bytes

  const MAGIC_LEN: nat := 5
  /** BILE_MAGIC */
  const MAGIC: seq<byte> := Ascii("BILE2")
  /** BILE1_MAGIC, the format that needs an upgrade */
  const LEGACY_MAGIC: seq<byte> := Ascii("BILE1")

  /** '_BLM': the catalog ("map") object */
  const TYPE_MAP: U32 := 0x4D4C425F
  /** '_BL>': the type written into the header's map pointer */
  const TYPE_MAPPTR: U32 := 0x3E4C425F
  /** '_BLP': a tombstoned descriptor */
  const TYPE_PURGE: U32 := 0x504C425F
  /** '_BLH': the highest-id marker of a type */
  const TYPE_HIGHESTID: U32 := 0x484C425F

  /** BILE_OBJECT_SIZE, sizeof(struct bile_object) */
  const OBJECT_SIZE: nat := 16
  /** BILE_HEADER_LEN */
  const HEADER_LEN: nat := 256
  /** BILE_ALLOCATE_SIZE: the file grows in chunks of this */
  const ALLOCATE_SIZE: nat := 8192

  /** Offsets of the two map pointers in the header. */
  const MAP_PTR_OFFSET: nat := MAGIC_LEN
  const OLD_MAP_PTR_OFFSET: nat := MAGIC_LEN + OBJECT_SIZE

  const ERR_NEED_UPGRADE_1: int := -4000
  const ERR_BOGUS_OBJECT: int := -4001

  /** struct bile_object. The fields are unbounded here; writing one to disk
      keeps the low 32 bits of each, as the C field would. */
  datatype Desc = Desc(pos: nat, size: nat, typ: nat, id: nat)

  const ZERO_DESC: Desc := Desc(0, 0, 0, 0)

  /** Every field of the descriptor fits its 32-bit C field. */
  predicate Fits32(d: Desc) {
    d.pos < U32_LIMIT && d.size < U32_LIMIT && d.typ < U32_LIMIT && d.id < U32_LIMIT
  }

  /** The first byte past the object: header plus payload. */
  function End(d: Desc): nat {
    d.pos + OBJECT_SIZE + d.size
  }

  /** The 16 raw bytes of a descriptor. */
  function EncodeDesc(order: ByteOrder, d: Desc): (r: seq<byte>)
    ensures |r| == OBJECT_SIZE
  {
    EncodeU32(order, d.pos) + EncodeU32(order, d.size) + EncodeU32(order, d.typ) + EncodeU32(order, d.id)
  }

  function DecodeDesc(order: ByteOrder, bs: seq<byte>): (d: Desc)
    requires |bs| == OBJECT_SIZE
    ensures Fits32(d)
  {
    Desc(DecodeU32(order, bs[0..4]), DecodeU32(order, bs[4..8]),
         DecodeU32(order, bs[8..12]), DecodeU32(order, bs[12..16]))
  }

  /** Decoding an encoded descriptor gives its fields reduced to 32 bits. */
  lemma DescDecodeTruncates(order: ByteOrder, d: Desc)
    ensures DecodeDesc(order, EncodeDesc(order, d)) ==
            Desc(d.pos % U32_LIMIT, d.size % U32_LIMIT, d.typ % U32_LIMIT, d.id % U32_LIMIT)
  {
    var a, b, c, e := EncodeU32(order, d.pos), EncodeU32(order, d.size), EncodeU32(order, d.typ), EncodeU32(order, d.id);
    assert EncodeDesc(order, d) == a + b + c + e;
    DecodeFields(order, a, b, c, e);
    U32RoundTrip(order, d.pos);
    U32RoundTrip(order, d.size);
    U32RoundTrip(order, d.typ);
    U32RoundTrip(order, d.id);
  }

  lemma DescRoundTrip(order: ByteOrder, d: Desc)
    requires Fits32(d)
    ensures DecodeDesc(order, EncodeDesc(order, d)) == d
  {
    var a, b, c, e := EncodeU32(order, d.pos), EncodeU32(order, d.size), EncodeU32(order, d.typ), EncodeU32(order, d.id);
    assert EncodeDesc(order, d) == a + b + c + e;
    DecodeFields(order, a, b, c, e);
    assert DecodeU32(order, a) == d.pos by { U32RoundTripExact(order, d.pos); }
    assert DecodeU32(order, b) == d.size by { U32RoundTripExact(order, d.size); }
    assert DecodeU32(order, c) == d.typ by { U32RoundTripExact(order, d.typ); }
    assert DecodeU32(order, e) == d.id by { U32RoundTripExact(order, d.id); }
  }

  /** Decoding sixteen bytes decodes each four-byte field. */
  lemma DecodeFields(order: ByteOrder, a: seq<byte>, b: seq<byte>, c: seq<byte>, e: seq<byte>)
    requires |a| == 4 && |b| == 4 && |c| == 4 && |e| == 4
    ensures DecodeDesc(order, a + b + c + e) == Desc(DecodeU32(order, a), DecodeU32(order, b), DecodeU32(order, c), DecodeU32(order, e))
  {
    var bs := a + b + c + e;
    assert bs[0..4] == a && bs[4..8] == b && bs[8..12] == c && bs[12..16] == e;
  }

  /** Every 16 bytes are the encoding of the descriptor they decode to. */
  lemma DescDecoded(order: ByteOrder, bs: seq<byte>)
    requires |bs| == OBJECT_SIZE
    ensures EncodeDesc(order, DecodeDesc(order, bs)) == bs
  {
    U32Decoded(order, bs[0..4]);
    U32Decoded(order, bs[4..8]);
    U32Decoded(order, bs[8..12]);
    U32Decoded(order, bs[12..16]);
    assert bs == bs[0..4] + bs[4..8] + bs[8..12] + bs[12..16];
  }

  /** The catalog as the map object's contents: the descriptors back to back. */
  function EncodeCatalog(order: ByteOrder, ds: seq<Desc>): (r: seq<byte>)
    ensures |r| == OBJECT_SIZE * |ds|
  {
    if ds == [] then [] else EncodeDesc(order, ds[0]) + EncodeCatalog(order, ds[1..])
  }

  function DecodeCatalog(order: ByteOrder, bs: seq<byte>): (ds: seq<Desc>)
    requires |bs| % OBJECT_SIZE == 0
    ensures |ds| == |bs| / OBJECT_SIZE
    ensures forall i :: 0 <= i < |ds| ==> Fits32(ds[i])
    decreases |bs|
  {
    if |bs| == 0 then [] else [DecodeDesc(order, bs[..OBJECT_SIZE])] + DecodeCatalog(order, bs[OBJECT_SIZE..])
  }

  lemma {:induction false} CatalogRoundTrip(order: ByteOrder, ds: seq<Desc>)
    requires forall i :: 0 <= i < |ds| ==> Fits32(ds[i])
    ensures DecodeCatalog(order, EncodeCatalog(order, ds)) == ds
  {
    if ds != [] {
      var bs := EncodeCatalog(order, ds);
      assert bs[..OBJECT_SIZE] == EncodeDesc(order, ds[0]);
      assert bs[OBJECT_SIZE..] == EncodeCatalog(order, ds[1..]);
      DescRoundTrip(order, ds[0]);
      CatalogRoundTrip(order, ds[1..]);
    }
  }

  /** Any map contents are the encoding of the catalog they decode to. */
  lemma {:induction false} EncodeDecodeCatalog(order: ByteOrder, bs: seq<byte>)
    requires |bs| % OBJECT_SIZE == 0
    ensures EncodeCatalog(order, DecodeCatalog(order, bs)) == bs
    decreases |bs|
  {
    if |bs| > 0 {
      var ds := DecodeCatalog(order, bs);
      assert ds[1..] == DecodeCatalog(order, bs[OBJECT_SIZE..]);
      DescDecoded(order, bs[..OBJECT_SIZE]);
      EncodeDecodeCatalog(order, bs[OBJECT_SIZE..]);
      assert bs == bs[..OBJECT_SIZE] + bs[OBJECT_SIZE..];
    }
  }

  /** The 256 header bytes bile_create writes: the magic, a map pointer with
      type MAPPTR and everything else zero, a zeroed previous map pointer and
      zero padding. */
  function CreateHeader(order: ByteOrder): (r: seq<byte>)
    ensures |r| == HEADER_LEN
    ensures r[..MAGIC_LEN] == MAGIC
    ensures DecodeDesc(order, r[MAP_PTR_OFFSET..MAP_PTR_OFFSET + OBJECT_SIZE]) == Desc(0, 0, TYPE_MAPPTR, 0)
    ensures DecodeDesc(order, r[OLD_MAP_PTR_OFFSET..OLD_MAP_PTR_OFFSET + OBJECT_SIZE]) == ZERO_DESC
    ensures forall i :: OLD_MAP_PTR_OFFSET + OBJECT_SIZE <= i < HEADER_LEN ==> r[i] == 0
  {
    var ptr := EncodeDesc(order, Desc(0, 0, TYPE_MAPPTR, 0));
    var prev := EncodeDesc(order, ZERO_DESC);
    var padding := Zeros(HEADER_LEN - MAGIC_LEN - OBJECT_SIZE - OBJECT_SIZE);
    var r := MAGIC + ptr + prev + padding;
    assert r[MAP_PTR_OFFSET..MAP_PTR_OFFSET + OBJECT_SIZE] == ptr;
    assert r[OLD_MAP_PTR_OFFSET..OLD_MAP_PTR_OFFSET + OBJECT_SIZE] == prev;
    DescRoundTrip(order, Desc(0, 0, TYPE_MAPPTR, 0));
    DescRoundTrip(order, ZERO_DESC);
    r
  }
}

=== FILE: bile_ids.dfy ===
/**
 What bile_delete leaves behind and what bile_next_id makes of it. A delete
 of the highest id of a type stores a HIGHESTID marker holding that id, so
 that bile_next_id does not hand the id out again; any other delete drops
 the entry from the rewritten map.
 */
module BileIds {
  import opened Bytes
  import opened Options
  import opened BileFormat
  import opened BileCatalog
  import opened BileStore
  import opened BileSafety

  /** At most one catalog entry carries this type and id. */
  predicate AtMostOne(cat: Catalog, typ: nat, id: nat) {
    forall i, j :: 0 <= i < j < |cat| && Matches(cat[i], typ, id) ==> !Matches(cat[j], typ, id)
  }

  /** Tombstoning the only entry with a type and id leaves none. */
  lemma TombstoneClears(cat: Catalog, typ: nat, id: nat)
    requires AtMostOne(cat, typ, id) && typ != TYPE_PURGE
    ensures forall k :: 0 <= k < |cat| ==> !Matches(Tombstone(cat, typ, id)[k], typ, id)
  {
    if ObjectInMap(cat, typ, id).Some? {
      var i := ObjectInMap(cat, typ, id).value;
      forall k | 0 <= k < i
        ensures !Matches(cat[k], typ, id)
      {
        assert Matches(cat[i], typ, id);
      }
    }
  }

  /** Every entry of an allocation but the new one was there before. */
  lemma InsertedFrom(cat: Catalog, a: Allocation)
    requires a.index <= |cat| && |a.catalog| == |cat| + 1
    requires a.catalog[..a.index] == cat[..a.index] && a.catalog[a.index + 1..] == cat[a.index..]
    ensures forall e :: e in a.catalog && e != a.catalog[a.index] ==> e in cat
  {
    forall e | e in a.catalog && e != a.catalog[a.index]
      ensures e in cat
    {
      var k :| 0 <= k < |a.catalog| && a.catalog[k] == e;
      if k < a.index {
        assert a.catalog[..a.index][k] == e;
      } else {
        assert a.catalog[a.index + 1..][k - a.index - 1] == e;
      }
    }
  }

  /** Tombstoning never creates an entry of another type than PURGE. */
  lemma TombstoneMatches(cat: Catalog, typ: nat, id: nat, t2: nat, id2: nat, k: nat)
    requires t2 != TYPE_PURGE && k < |cat| && Matches(Tombstone(cat, typ, id)[k], t2, id2)
    ensures Matches(cat[k], t2, id2)
  {
  }

  /** The entries of a rewritten map other than map objects all come from
      the catalog it was planned from. */
  lemma NewMapFrom(s: Store)
    requires InOrder(s) && MemValid(s.catalog, s.mapPtr)
    ensures PlanMap(s).Some?
    ensures forall e :: e in PlanMap(s).value.newMap && e.typ != TYPE_MAP ==> e in s.catalog
  {
    PlanMapValue(s);
    var a := MapAlloc(s);
    var kept := Kept(a.catalog, s.mapPtr.pos);
    var obj := a.catalog[a.index].(size := OBJECT_SIZE * |kept|);
    var j :| 0 <= j < |kept| && kept[j] == a.catalog[a.index] &&
             PlanMap(s).value == MapPlan(a.catalog[a.index := obj], obj, kept[j := obj]);
    InsertedFrom(s.catalog, a);
    forall e | e in PlanMap(s).value.newMap && e.typ != TYPE_MAP
      ensures e in a.catalog && e != a.catalog[a.index]
    {
      var m :| 0 <= m < |kept| && kept[j := obj][m] == e;
      assert e in kept;
    }
  }

  /** The entries of the catalog after a complete write, other than map
      objects, are the tombstoned catalog's entries and the new object. */
  lemma WriteEntries(s: Store, typ: nat, id: nat, data: seq<byte>, failAt: nat)
    requires InOrder(s) && MemValid(s.catalog, s.mapPtr) && |data| > 0 && failAt >= 8
    ensures Write(s, typ, id, data, failAt).Done?
    ensures var a := WriteAlloc(s, typ, id, |data|);
            forall e :: e in Write(s, typ, id, data, failAt).store.catalog && e.typ != TYPE_MAP ==>
              e == a.catalog[a.index] || e in Tombstone(s.catalog, typ, id)
  {
    var a := WriteAlloc(s, typ, id, |data|);
    var s1 := BeforeMap(s, typ, id, data);
    WriteCompletes(s, typ, id, data, failAt);
    BeforeMapCovers(s, typ, id, data);
    BeforeMapInOrder(s, typ, id, data);
    NewMapFrom(s1);
    InsertedFrom(Tombstone(s.catalog, typ, id), a);
  }

  /** Writing an object whose type and id no other entry carries, and
      reading it back by type and id, yields the data written: bile_read
      finds the new entry and no other. */
  lemma WriteThenReadById(t: Store, typ: nat, id: nat, data: seq<byte>, failAt: nat)
    requires InOrder(t) && Valid(t) && |data| > 0 && failAt >= 8
    requires typ != TYPE_PURGE && typ != TYPE_MAP && typ < U32_LIMIT && id < U32_LIMIT && |data| < U32_LIMIT
    requires AtMostOne(t.catalog, typ, id)
    ensures var w := Write(t, typ, id, data, failAt);
            w.Done? && w.ret == |data| && Read(w.store, typ, id, |data|) == ReadResult(|data|, data, 0)
  {
    TombstoneClears(t.catalog, typ, id);
    WriteThenRead(t, typ, id, data, failAt);
    WriteEntries(t, typ, id, data, failAt);
    var w := Write(t, typ, id, data, failAt);
    var a := WriteAlloc(t, typ, id, |data|);
    var o := a.catalog[a.index];
    var cat := w.store.catalog;
    assert ObjectInMap(cat, typ, id).Some?;
    var i := ObjectInMap(cat, typ, id).value;
    assert cat[i] == o;
  }

  /** A delete of the highest id of its type that completes stores the
      marker: reading the type's HIGHESTID object yields that id. One
      marker per type at most is what bile_write's tombstoning keeps. */
  lemma DeleteStoresMarker(s: Store, typ: nat, id: nat, failAt: nat)
    requires InOrder(s) && Valid(s) && failAt >= 8
    requires typ < U32_LIMIT && id < U32_LIMIT && AtMostOne(s.catalog, TYPE_HIGHESTID, typ)
    requires ObjectInMap(s.catalog, typ, id).Some? && IsHighest(Tombstone(s.catalog, typ, id), typ, id)
    ensures var r := Delete(s, typ, id, failAt);
            r.Done? && r.ret == 0 && !r.lastError && Marker(r.store, typ) == Some(id)
  {
    var t := s.(catalog := Tombstone(s.catalog, typ, id));
    var data := EncodeU32(s.order, id);
    var w := Write(t, TYPE_HIGHESTID, typ, data, failAt);
    assert w.Done? && Read(w.store, TYPE_HIGHESTID, typ, 4) == ReadResult(4, data, 0) by {
      TombstoneKeepsValid(s, typ, id);
      TombstoneInOrder(s, typ, id);
      TombstoneKeepsAtMostOne(s.catalog, typ, id, TYPE_HIGHESTID, typ);
      WriteThenReadById(t, TYPE_HIGHESTID, typ, data, failAt);
    }
    assert Delete(s, typ, id, failAt) == Done(w.store, 0, false) by {
      DeleteHighestWrites(s, typ, id, failAt);
    }
    U32RoundTripExact(s.order, id);
  }

  /** A delete of the highest id ends with bile_write of the marker; when
      the write completes its store is the delete's. */
  lemma DeleteHighestWrites(s: Store, typ: nat, id: nat, failAt: nat)
    requires ObjectInMap(s.catalog, typ, id).Some? && IsHighest(Tombstone(s.catalog, typ, id), typ, id)
    requires failAt >= 8
    ensures var t := s.(catalog := Tombstone(s.catalog, typ, id));
            var w := Write(t, TYPE_HIGHESTID, typ, EncodeU32(s.order, id), failAt);
            w.Done? ==> Delete(s, typ, id, failAt) == Done(w.store, 0, false)
  {
  }

  /** Tombstoning keeps every other key unique. */
  lemma TombstoneKeepsAtMostOne(cat: Catalog, typ: nat, id: nat, t2: nat, id2: nat)
    requires AtMostOne(cat, t2, id2) && t2 != TYPE_PURGE
    ensures AtMostOne(Tombstone(cat, typ, id), t2, id2)
  {
    var t := Tombstone(cat, typ, id);
    forall i, j | 0 <= i < j < |t| && Matches(t[i], t2, id2)
      ensures !Matches(t[j], t2, id2)
    {
      TombstoneMatches(cat, typ, id, t2, id2, i);
      if Matches(t[j], t2, id2) {
        TombstoneMatches(cat, typ, id, t2, id2, j);
      }
    }
  }

  /** A delete that completes removes the object: reading it by type and id
      finds nothing. The one entry it tombstones is dropped by the map
      rewrite, whether the rewrite comes from bile_write of the marker or
      from bile_write_map. */
  lemma DeleteRemoves(s: Store, typ: nat, id: nat, failAt: nat)
    requires InOrder(s) && Valid(s) && failAt >= 8
    requires typ != TYPE_PURGE && typ != TYPE_MAP && typ != TYPE_HIGHESTID && typ < U32_LIMIT && id < U32_LIMIT
    requires ObjectInMap(s.catalog, typ, id).Some? && AtMostOne(s.catalog, typ, id)
    ensures var r := Delete(s, typ, id, failAt);
            r.Done? && r.ret == 0 && !r.lastError && Read(r.store, typ, id, 1) == ReadResult(0, [], -1)
  {
    var t := s.(catalog := Tombstone(s.catalog, typ, id));
    TombstoneKeepsValid(s, typ, id);
    TombstoneInOrder(s, typ, id);
    TombstoneClears(s.catalog, typ, id);
    if IsHighest(t.catalog, typ, id) {
      var w := Write(t, TYPE_HIGHESTID, typ, EncodeU32(s.order, id), failAt);
      assert Delete(s, typ, id, failAt) == Done(w.store, 0, false) by {
        WriteCompletes(t, TYPE_HIGHESTID, typ, EncodeU32(s.order, id), failAt);
        DeleteHighestWrites(s, typ, id, failAt);
      }
      MarkerWriteDrops(t, typ, id, EncodeU32(s.order, id), failAt);
    } else {
      var p := PlanMap(t).value by { NewMapFrom(t); }
      assert Delete(s, typ, id, failAt) == Done(AfterMapSteps(t, p, 6), 0, false);
      MapRewriteDrops(t, typ, id);
    }
  }

  /** Writing the marker of a type leaves no entry with another type and
      id when the catalog had none. */
  lemma MarkerWriteDrops(t: Store, typ: nat, id: nat, data: seq<byte>, failAt: nat)
    requires InOrder(t) && MemValid(t.catalog, t.mapPtr) && |data| > 0 && failAt >= 8
    requires typ != TYPE_MAP && typ != TYPE_HIGHESTID && typ != TYPE_PURGE
    requires forall k :: 0 <= k < |t.catalog| ==> !Matches(t.catalog[k], typ, id)
    ensures var w := Write(t, TYPE_HIGHESTID, typ, data, failAt);
            w.Done? && ObjectInMap(w.store.catalog, typ, id).None?
  {
    var a := WriteAlloc(t, TYPE_HIGHESTID, typ, |data|);
    var o := a.catalog[a.index];
    var tt := Tombstone(t.catalog, TYPE_HIGHESTID, typ);
    TombstoneNoMatch(t.catalog, TYPE_HIGHESTID, typ, typ, id);
    var w := Write(t, TYPE_HIGHESTID, typ, data, failAt);
    assert w.Done? && forall e :: e in w.store.catalog && e.typ != TYPE_MAP ==> e == o || e in tt by {
      WriteEntries(t, TYPE_HIGHESTID, typ, data, failAt);
    }
    NoneAmong(w.store.catalog, o, tt, typ, id);
  }

  /** Tombstoning creates no entry with a type other than PURGE. */
  lemma TombstoneNoMatch(cat: Catalog, typ: nat, id: nat, t2: nat, id2: nat)
    requires t2 != TYPE_PURGE && forall k :: 0 <= k < |cat| ==> !Matches(cat[k], t2, id2)
    ensures forall k :: 0 <= k < |cat| ==> !Matches(Tombstone(cat, typ, id)[k], t2, id2)
  {
  }

  /** A catalog whose entries other than map objects are `o` or entries of
      `tt` holds no entry with a type and id that neither has. */
  lemma NoneAmong(cat: Catalog, o: Desc, tt: Catalog, typ: nat, id: nat)
    requires typ != TYPE_MAP && !Matches(o, typ, id)
    requires forall k :: 0 <= k < |tt| ==> !Matches(tt[k], typ, id)
    requires forall e :: e in cat && e.typ != TYPE_MAP ==> e == o || e in tt
    ensures ObjectInMap(cat, typ, id).None?
  {
    forall k | 0 <= k < |cat|
      ensures !Matches(cat[k], typ, id)
    {
      if cat[k].typ != TYPE_MAP && cat[k] != o {
        var j :| 0 <= j < |tt| && tt[j] == cat[k];
      }
    }
  }

  /** The map rewrite keeps no entry with a type and id the catalog does
      not hold. */
  lemma MapRewriteDrops(t: Store, typ: nat, id: nat)
    requires InOrder(t) && MemValid(t.catalog, t.mapPtr) && typ != TYPE_MAP
    requires forall k :: 0 <= k < |t.catalog| ==> !Matches(t.catalog[k], typ, id)
    ensures PlanMap(t).Some? && ObjectInMap(PlanMap(t).value.newMap, typ, id).None?
  {
    NewMapFrom(t);
    var p := PlanMap(t).value;
    forall k | 0 <= k < |p.newMap|
      ensures !Matches(p.newMap[k], typ, id)
    {
      var e := p.newMap[k];
      if e.typ != TYPE_MAP {
        var j :| 0 <= j < |t.catalog| && t.catalog[j] == e;
      }
    }
  }

  // ---------------------------------------------------------------------
  // bile_next_id after a delete

  /** The marker step with the comparison bile_delete's comment calls for:
      a marker at or above the loop's value moves past it. */
  function FromMarkerCorrected(floor: nat, marker: Option<nat>): (id: nat)
    requires floor < U32_LIMIT
    ensures id < U32_LIMIT
    ensures marker.Some? && marker.value < U32_LIMIT - 1 ==> floor <= id && marker.value < id
    ensures marker.None? ==> id == floor
  {
    match marker
    case Some(m) => if m >= floor then (m + 1) % U32_LIMIT else floor
    case None => floor
  }

  /** Entries of a type other than the marker's that a marker write's
      catalog holds were in the catalog before. */
  lemma TypeFromTombstoned(cat: Catalog, o: Desc, t: Catalog, typ: nat)
    requires typ != TYPE_MAP && typ != TYPE_PURGE && o.typ != typ
    requires forall e :: e in cat && e.typ != TYPE_MAP ==> e == o || e in Tombstone(t, TYPE_HIGHESTID, typ)
    ensures forall e: Desc :: e in cat && e.typ == typ ==> e in t
  {
    var tt := Tombstone(t, TYPE_HIGHESTID, typ);
    forall e: Desc | e in cat && e.typ == typ
      ensures e in t
    {
      var k :| 0 <= k < |tt| && tt[k] == e;
      TombstoneMatches(t, TYPE_HIGHESTID, typ, typ, e.id, k);
    }
  }

  /** The map rewrite after a marker write copies every entry of the
      marked type. */
  lemma TypeIntoNewMap(t: Store, typ: nat, data: seq<byte>)
    requires InOrder(t) && MemValid(t.catalog, t.mapPtr)
    requires typ != TYPE_PURGE && typ != TYPE_MAP && typ != TYPE_HIGHESTID
    ensures var s1 := BeforeMap(t, TYPE_HIGHESTID, typ, data);
            PlanMap(s1).Some? && forall e: Desc :: e in t.catalog && e.typ == typ ==> e in PlanMap(s1).value.newMap
  {
    var s1 := BeforeMap(t, TYPE_HIGHESTID, typ, data);
    BeforeMapCovers(t, TYPE_HIGHESTID, typ, data);
    BeforeMapInOrder(t, TYPE_HIGHESTID, typ, data);
    assert PlanMap(s1).Some? by {
      PlanMapCatalog(s1);
    }
    forall e: Desc | e in t.catalog && e.typ == typ
      ensures e in PlanMap(s1).value.newMap
    {
      EntryIntoNewMap(t, typ, data, e);
    }
  }

  /** One entry of the marked type is copied into the new map. */
  lemma EntryIntoNewMap(t: Store, typ: nat, data: seq<byte>, e: Desc)
    requires InOrder(t) && MemValid(t.catalog, t.mapPtr)
    requires typ != TYPE_PURGE && typ != TYPE_MAP && typ != TYPE_HIGHESTID
    requires e in t.catalog && e.typ == typ
    ensures var s1 := BeforeMap(t, TYPE_HIGHESTID, typ, data);
            PlanMap(s1).Some? && e in PlanMap(s1).value.newMap
  {
    var s1 := BeforeMap(t, TYPE_HIGHESTID, typ, data);
    var tt := Tombstone(t.catalog, TYPE_HIGHESTID, typ);
    var k :| 0 <= k < |t.catalog| && t.catalog[k] == e;
    assert tt[k] == e;
    TombstoneKeepsMemValid(t.catalog, t.mapPtr, TYPE_HIGHESTID, typ);
    TombstoneInOrder(t, TYPE_HIGHESTID, typ);
    AllocKeepsMemValid(t.insertion, tt, t.mapPtr, TYPE_HIGHESTID, typ, |data|);
    BeforeMapCovers(t, TYPE_HIGHESTID, typ, data);
    BeforeMapInOrder(t, TYPE_HIGHESTID, typ, data);
    NewMapKeeps(s1, e);
  }

  /** Writing the marker of a type keeps that type's entries and adds
      none. */
  lemma MarkerWriteKeepsType(t: Store, typ: nat, data: seq<byte>, failAt: nat)
    requires InOrder(t) && MemValid(t.catalog, t.mapPtr) && |data| > 0 && failAt >= 8
    requires typ != TYPE_PURGE && typ != TYPE_MAP && typ != TYPE_HIGHESTID
    ensures var w := Write(t, TYPE_HIGHESTID, typ, data, failAt);
            w.Done? && forall e: Desc :: e.typ == typ ==> (e in w.store.catalog <==> e in t.catalog)
  {
    var s1 := BeforeMap(t, TYPE_HIGHESTID, typ, data);
    var a := WriteAlloc(t, TYPE_HIGHESTID, typ, |data|);
    var w := Write(t, TYPE_HIGHESTID, typ, data, failAt);
    WriteCompletes(t, TYPE_HIGHESTID, typ, data, failAt);
    TypeIntoNewMap(t, typ, data);
    assert w.store.catalog == PlanMap(s1).value.newMap;
    WriteEntries(t, TYPE_HIGHESTID, typ, data, failAt);
    TypeFromTombstoned(w.store.catalog, a.catalog[a.index], t.catalog, typ);
  }

  /** A completed delete of the highest id keeps the type's other entries
      and adds none: the catalog's entries of the type are those the
      tombstone left. */
  lemma DeleteKeepsType(s: Store, typ: nat, id: nat, failAt: nat)
    requires InOrder(s) && Valid(s) && failAt >= 8
    requires typ != TYPE_PURGE && typ != TYPE_MAP && typ != TYPE_HIGHESTID
    requires ObjectInMap(s.catalog, typ, id).Some? && IsHighest(Tombstone(s.catalog, typ, id), typ, id)
    ensures var r := Delete(s, typ, id, failAt);
            r.Done? && forall e: Desc :: e.typ == typ ==> (e in r.store.catalog <==> e in Tombstone(s.catalog, typ, id))
  {
    var t := s.(catalog := Tombstone(s.catalog, typ, id));
    TombstoneKeepsValid(s, typ, id);
    TombstoneInOrder(s, typ, id);
    MarkerWriteKeepsType(t, typ, EncodeU32(s.order, id), failAt);
    DeleteHighestWrites(s, typ, id, failAt);
  }

  /** The loop of bile_next_id stops at `id` over a catalog whose entries of
      the type are all below `id` and include `id - 1` unless `id` is 1. */
  lemma FloorAt(cat: Catalog, typ: nat, id: nat)
    requires 1 <= id < U32_LIMIT
    requires forall i :: 0 <= i < |cat| && cat[i].typ == typ ==> cat[i].id < id
    requires id == 1 || exists i :: 0 <= i < |cat| && cat[i].typ == typ && cat[i].id == id - 1
    ensures IdFloor(cat, typ) == id
  {
  }

  /** A catalog holding the same entries of the type as the tombstoned one,
      where `id` was the highest id and `id - 1` was present unless `id` is
      1, makes the loop of bile_next_id stop at `id`. */
  lemma FloorAfterTombstone(cat0: Catalog, cat: Catalog, typ: nat, id: nat)
    requires typ != TYPE_PURGE && 1 <= id < U32_LIMIT && AtMostOne(cat0, typ, id)
    requires IsHighest(Tombstone(cat0, typ, id), typ, id)
    requires id == 1 || ObjectInMap(cat0, typ, id - 1).Some?
    requires forall e: Desc :: e.typ == typ ==> (e in cat <==> e in Tombstone(cat0, typ, id))
    ensures IdFloor(cat, typ) == id
  {
    var t := Tombstone(cat0, typ, id);
    TombstoneClears(cat0, typ, id);
    forall i | 0 <= i < |cat| && cat[i].typ == typ
      ensures cat[i].id < id
    {
      var k :| 0 <= k < |t| && t[k] == cat[i];
    }
    if id > 1 {
      var j := ObjectInMap(cat0, typ, id - 1).value;
      assert t[j] == cat0[j];
      var i :| 0 <= i < |cat| && cat[i] == t[j];
    }
    FloorAt(cat, typ, id);
  }

  /** As written, bile_next_id hands out the id a delete has just marked
      when the remaining ids of the type end right below it: `id - 1` is
      still there (ids 1, 2 and 3, deleting 3), or `id` is 1. The loop then
      gives `id` and the marker is not strictly larger. */
  lemma DeleteThenNextIdReissues(s: Store, typ: nat, id: nat, failAt: nat)
    requires InOrder(s) && Valid(s) && failAt >= 8
    requires typ != TYPE_PURGE && typ != TYPE_MAP && typ != TYPE_HIGHESTID
    requires typ < U32_LIMIT && 1 <= id < U32_LIMIT
    requires AtMostOne(s.catalog, TYPE_HIGHESTID, typ) && AtMostOne(s.catalog, typ, id)
    requires ObjectInMap(s.catalog, typ, id).Some? && IsHighest(Tombstone(s.catalog, typ, id), typ, id)
    requires id == 1 || ObjectInMap(s.catalog, typ, id - 1).Some?
    ensures var r := Delete(s, typ, id, failAt);
            r.Done? && FromMarker(IdFloor(r.store.catalog, typ), Marker(r.store, typ)) == id
  {
    var r := Delete(s, typ, id, failAt);
    assert Marker(r.store, typ) == Some(id) by {
      DeleteStoresMarker(s, typ, id, failAt);
    }
    assert IdFloor(r.store.catalog, typ) == id by {
      DeleteKeepsType(s, typ, id, failAt);
      FloorAfterTombstone(s.catalog, r.store.catalog, typ, id);
    }
  }

  /** With the corrected comparison the id after a completed delete of the
      highest id is above the deleted one. */
  lemma DeleteThenNextIdFresh(s: Store, typ: nat, id: nat, failAt: nat)
    requires InOrder(s) && Valid(s) && failAt >= 8
    requires typ < U32_LIMIT && id < U32_LIMIT - 1 && AtMostOne(s.catalog, TYPE_HIGHESTID, typ)
    requires ObjectInMap(s.catalog, typ, id).Some? && IsHighest(Tombstone(s.catalog, typ, id), typ, id)
    ensures var r := Delete(s, typ, id, failAt);
            r.Done? && FromMarkerCorrected(IdFloor(r.store.catalog, typ), Marker(r.store, typ)) > id
  {
    var r := Delete(s, typ, id, failAt);
    assert Marker(r.store, typ) == Some(id) by {
      DeleteStoresMarker(s, typ, id, failAt);
    }
  }
}

=== FILE: bile_insertion.dfy ===
/**
 What bile_alloc's insertion as written does to a whole store. With one
 catalog entry and room in front of it, the new entry is appended after
 the old one instead of before it; the map rewrite that follows then
 allocates the new map over the object bile_write has just written, and
 the object no longer reads back. The corrected insertion keeps the
 catalog in file order and puts the map after both entries.
 */
module BileInsertion {
  import opened Bytes
  import opened Options
  import opened BileFormat
  import opened BileCatalog
  import opened BileStore
  import opened BileSafety

  /** The map object a store is left with after writing a 32-byte object of
      type PURGE into a new file: bile_write_map drops the PURGE entry, so
      the catalog holds the map alone, at 304, with room in front of it.
      The corrected store reaches the same state. */
  lemma PurgeWriteLeavesOneMap(order: ByteOrder, ins: Insertion, data: seq<byte>)
    requires |data| == 32
    ensures var w := Write(Create(order, ins), TYPE_PURGE, 1, data, 8);
            w.Done? && w.ret == 32 && w.store.insertion == ins &&
            w.store.catalog == [Desc(304, 16, TYPE_MAP, 1)] &&
            w.store.mapPtr.pos == 304 && w.store.mapPtr.id == 1
    ensures ins == AsWritten ==> !InOrder(Write(Create(order, ins), TYPE_PURGE, 1, data, 8).store)
  {
    var s0 := Create(order, ins);
    var s1 := BeforeMap(s0, TYPE_PURGE, 1, data);
    FirstAlloc(order, ins, data);
    FirstMapPlan(s1);
    WriteInFull(s0, TYPE_PURGE, 1, data);
    assert Write(s0, TYPE_PURGE, 1, data, 8).store == AfterMapSteps(s1, PlanMap(s1).value, 6);
  }

  /** The first object of a new file goes right after the header, and the
      catalog handed to the map rewrite holds it alone. */
  lemma FirstAlloc(order: ByteOrder, ins: Insertion, data: seq<byte>)
    requires |data| == 32
    ensures var s1 := BeforeMap(Create(order, ins), TYPE_PURGE, 1, data);
            s1.catalog == [Desc(HEADER_LEN, 32, TYPE_PURGE, 1)] && s1.mapPtr.pos == 0 && s1.insertion == ins
  {
    var s0 := Create(order, ins);
    var obj := Desc(HEADER_LEN, 32, TYPE_PURGE, 1);
    assert Tombstone(s0.catalog, TYPE_PURGE, 1) == [];
    assert AllocPos([], 32) == HEADER_LEN;
    var a := WriteAlloc(s0, TYPE_PURGE, 1, |data|);
    assert a.catalog == [obj] && a.index == 0;
  }

  /** When no host call fails, bile_write's store is the one the whole map
      rewrite leaves and its result is the length. */
  lemma WriteInFull(s: Store, typ: nat, id: nat, data: seq<byte>)
    requires |data| > 0 && PlanMap(BeforeMap(s, typ, id, data)).Some?
    ensures var s1 := BeforeMap(s, typ, id, data);
            Write(s, typ, id, data, 8) == Done(AfterMapSteps(s1, PlanMap(s1).value, 6), |data|, false)
  {
  }

  /** bile_write_map on a store whose catalog holds one PURGE entry and no
      map yet: one slot is copied, the map itself. */
  lemma FirstMapPlan(t: Store)
    requires t.catalog == [Desc(HEADER_LEN, 32, TYPE_PURGE, 1)] && t.mapPtr.pos == 0
    ensures PlanMap(t).Some? && PlanMap(t).value.newMap == [Desc(304, 16, TYPE_MAP, 1)]
    ensures PlanMap(t).value.obj == Desc(304, 16, TYPE_MAP, 1)
  {
    var obj := t.catalog[0];
    var m := Desc(304, 32, TYPE_MAP, 1);
    assert AllocPos([obj], 32) == 304 by {
      assert SizeSub(obj.pos, HEADER_LEN) == 0;
      assert ScanFrom([obj], 1, End(obj), 32) == 304;
    }
    var b := AllocBy(t.insertion, [obj], TYPE_MAP, 1, 32);
    assert b.catalog == [obj, m] && b.index == 1;
    assert Kept(b.catalog, 0) == [m] by {
      assert b.catalog[1..] == [m];
      assert Kept([m], 0) == [m];
    }
  }

  /** The next 32-byte write into that store: the object goes to 256, in
      front of the map. With the insertion as written the map rewrite's
      header lands on the object's header at 256; with the corrected one it
      goes to 336, after both. */
  lemma OneEntryMapPosition(s: Store, typ: nat, data: seq<byte>)
    requires s.catalog == [Desc(304, 16, TYPE_MAP, 1)] && s.mapPtr.pos == 304 && s.mapPtr.id == 1
    requires |data| == 32 && typ != TYPE_MAP && typ != TYPE_PURGE
    ensures WriteSteps(s, typ, 1, data).Some?
    ensures WriteSteps(s, typ, 1, data).value[0] == Put(HEADER_LEN, EncodeDesc(s.order, Desc(HEADER_LEN, 32, typ, 1)))
    ensures var st := WriteSteps(s, typ, 1, data).value[2];
            st.Put? && st.pos == (if s.insertion == AsWritten then HEADER_LEN else 336)
  {
    var m := Desc(304, 16, TYPE_MAP, 1);
    var o := Desc(HEADER_LEN, 32, typ, 1);
    assert Tombstone(s.catalog, typ, 1) == s.catalog;
    assert AllocPos([m], 32) == HEADER_LEN by {
      assert SizeSub(m.pos, HEADER_LEN) == 48;
    }
    var a := WriteAlloc(s, typ, 1, |data|);
    assert a.catalog[a.index] == o;
    var s1 := BeforeMap(s, typ, 1, data);
    if s.insertion == AsWritten {
      assert s1.catalog == [m, o];
    } else {
      assert s1.catalog == [o, m];
    }
    SecondMapPlan(s1, typ);
  }

  /** bile_write_map on the two-entry catalog the second write leaves. */
  lemma SecondMapPlan(t: Store, typ: nat)
    requires t.mapPtr.pos == 304 && t.mapPtr.id == 1 && typ != TYPE_MAP && typ != TYPE_PURGE
    requires var m, o := Desc(304, 16, TYPE_MAP, 1), Desc(HEADER_LEN, 32, typ, 1);
             t.catalog == (if t.insertion == AsWritten then [m, o] else [o, m])
    ensures PlanMap(t).Some?
    ensures PlanMap(t).value.obj.pos == (if t.insertion == AsWritten then HEADER_LEN else 336)
  {
    if t.insertion == AsWritten {
      SecondPlanAsWritten(t, typ);
    } else {
      SecondPlanCorrected(t, typ);
    }
  }

  /** Appended after the map, the object leaves the gap in front of the map
      free, and the new map is allocated there: at 256. */
  lemma SecondPlanAsWritten(t: Store, typ: nat)
    requires t.mapPtr.pos == 304 && t.mapPtr.id == 1 && typ != TYPE_MAP && typ != TYPE_PURGE
    requires t.insertion == AsWritten
    requires t.catalog == [Desc(304, 16, TYPE_MAP, 1), Desc(HEADER_LEN, 32, typ, 1)]
    ensures PlanMap(t).Some? && PlanMap(t).value.obj == Desc(HEADER_LEN, 32, TYPE_MAP, 2)
    ensures PlanMap(t).value.newMap == [Desc(HEADER_LEN, 32, TYPE_MAP, 2), Desc(HEADER_LEN, 32, typ, 1)]
  {
    var m, o := t.catalog[0], t.catalog[1];
    assert AllocPos([m, o], 32) == HEADER_LEN by {
      assert SizeSub(m.pos, HEADER_LEN) == 48;
    }
    var b := AllocBy(t.insertion, [m, o], TYPE_MAP, 2, 32);
    var nm := Desc(HEADER_LEN, 32, TYPE_MAP, 2);
    assert b.catalog == [nm, m, o];
    assert Kept(b.catalog, 304) == [nm, o] by {
      assert b.catalog[1..] == [m, o] && b.catalog[2..] == [o];
      assert Kept([o], 304) == [o];
    }
    assert LastMapAt([nm, o], HEADER_LEN, 2) == Some(0);
  }

  /** In file order the two entries fill 256 to 336, and the new map goes
      after them. */
  lemma SecondPlanCorrected(t: Store, typ: nat)
    requires t.mapPtr.pos == 304 && t.mapPtr.id == 1 && typ != TYPE_MAP && typ != TYPE_PURGE
    requires t.insertion == Corrected
    requires t.catalog == [Desc(HEADER_LEN, 32, typ, 1), Desc(304, 16, TYPE_MAP, 1)]
    ensures PlanMap(t).Some? && PlanMap(t).value.obj.pos == 336
  {
    var o, m := t.catalog[0], t.catalog[1];
    assert AllocPos([o, m], 32) == 336 by {
      assert SizeSub(o.pos, HEADER_LEN) == 0;
      assert SizeSub(m.pos, End(o)) == 0;
      assert ScanFrom([o, m], 1, End(o), 32) == ScanFrom([o, m], 2, End(m), 32) == 336;
    }
    var b := AllocBy(t.insertion, [o, m], TYPE_MAP, 2, 32);
    var nm := Desc(336, 32, TYPE_MAP, 2);
    assert InsertLoop([o, m], 336, 0) == InsertLoop([o, m], 336, 1) == 2;
    assert b.catalog == [o, m, nm];
    assert Kept(b.catalog, 304) == [o, nm] by {
      assert b.catalog[1..] == [m, nm] && b.catalog[2..] == [nm];
      assert Kept([nm], 304) == [nm];
    }
    assert LastMapAt([o, nm], 336, 2) == Some(1);
  }

  /** With the insertion as written the second write reports the full
      length and leaves the object in the catalog, but the map's header has
      replaced the object's header at 256, so reading the object fails. */
  lemma AsWrittenLosesObject(s: Store, typ: nat, data: seq<byte>)
    requires s.insertion == AsWritten
    requires s.catalog == [Desc(304, 16, TYPE_MAP, 1)] && s.mapPtr.pos == 304 && s.mapPtr.id == 1
    requires |data| == 32 && typ != TYPE_MAP && typ != TYPE_PURGE
    ensures var r := Write(s, typ, 1, data, 8);
            var o := Desc(HEADER_LEN, 32, typ, 1);
            r.Done? && r.ret == 32 && o in r.store.catalog &&
            ReadObject(r.store, o, 32) == ReadResult(0, [], ERR_BOGUS_OBJECT)
  {
    var m := Desc(304, 16, TYPE_MAP, 1);
    var o := Desc(HEADER_LEN, 32, typ, 1);
    var s1 := BeforeMap(s, typ, 1, data);
    assert s1.catalog == [m, o] by {
      assert Tombstone(s.catalog, typ, 1) == s.catalog;
      assert AllocPos([m], 32) == HEADER_LEN by {
        assert SizeSub(m.pos, HEADER_LEN) == 48;
      }
    }
    SecondPlanAsWritten(s1, typ);
    WriteInFull(s, typ, 1, data);
    MapOverObject(s1, PlanMap(s1).value, o);
  }

  /** A map rewrite whose new map sits at 256 leaves the map's descriptor
      in the header bytes there, which no other object at 256 matches. */
  lemma MapOverObject(s1: Store, p: MapPlan, o: Desc)
    requires p.obj == Desc(HEADER_LEN, 32, TYPE_MAP, 2)
    requires o.pos == HEADER_LEN && o.typ != TYPE_MAP
    ensures ReadObject(AfterMapSteps(s1, p, 6), o, 32) == ReadResult(0, [], ERR_BOGUS_OBJECT)
  {
    var ms := MapSteps(s1, p);
    var st := AfterMapSteps(s1, p, 6);
    assert ms[..6] == ms;
    assert st.file == Run(s1.file, ms);
    RunWrittenRange(s1.file, ms, 0);
    HeaderReads(st, p.obj);
  }

  /** Under the corrected insertion the second write's object reads back:
      the general write-then-read theorem applies to this store. */
  lemma CorrectedKeepsObject(s: Store, typ: nat, data: seq<byte>)
    requires s.insertion == Corrected && Valid(s)
    requires s.catalog == [Desc(304, 16, TYPE_MAP, 1)]
    requires |data| == 32 && typ != TYPE_MAP && typ != TYPE_PURGE && typ < U32_LIMIT
    ensures var r := Write(s, typ, 1, data, 8);
            var o := Desc(HEADER_LEN, 32, typ, 1);
            r.Done? && r.ret == 32 && o in r.store.catalog &&
            ReadObject(r.store, o, 32) == ReadResult(32, data, 0)
  {
    var m := Desc(304, 16, TYPE_MAP, 1);
    assert Tombstone(s.catalog, typ, 1) == s.catalog;
    assert AllocPos([m], 32) == HEADER_LEN by {
      assert SizeSub(m.pos, HEADER_LEN) == 48;
    }
    WriteThenRead(s, typ, 1, data, 8);
  }

  /** The whole scenario from a new file: a 32-byte PURGE object, then a
      32-byte object of another type. Both writes report success; the
      object reads back only under the corrected insertion. */
  lemma OneEntryInsertion(order: ByteOrder, ins: Insertion, typ: nat, first: seq<byte>, data: seq<byte>)
    requires |first| == 32 && |data| == 32
    requires typ != TYPE_MAP && typ != TYPE_PURGE && typ < U32_LIMIT
    ensures var w := Write(Create(order, ins), TYPE_PURGE, 1, first, 8);
            w.Done? && w.ret == 32
    ensures var s := Write(Create(order, ins), TYPE_PURGE, 1, first, 8).store;
            var r := Write(s, typ, 1, data, 8);
            var o := Desc(HEADER_LEN, 32, typ, 1);
            r.Done? && r.ret == 32 && o in r.store.catalog &&
            ReadObject(r.store, o, 32) ==
              (if ins == AsWritten then ReadResult(0, [], ERR_BOGUS_OBJECT) else ReadResult(32, data, 0))
  {
    PurgeWriteLeavesOneMap(order, ins, first);
    var s := Write(Create(order, ins), TYPE_PURGE, 1, first, 8).store;
    if ins == AsWritten {
      AsWrittenLosesObject(s, typ, data);
    } else {
      CreateValid(order, ins);
      WriteKeepsValid(Create(order, ins), TYPE_PURGE, 1, first, 8);
      CorrectedKeepsObject(s, typ, data);
    }
  }
}

=== FILE: bile_safety.dfy ===
/**
 Why a BILE file survives an interrupted write: the store invariant, the
 buffer bound of bile_write_map, and the theorem that nothing the on-disk
 map describes is overwritten before the header's map pointer is.
 */
module BileSafety {
  import opened Bytes
  import opened Options
  import opened BileFormat
  import opened BileCatalog
  import opened BileStore

  // ---------------------------------------------------------------------
  // The invariant

  /** Two descriptors cover the same bytes. */
  predicate SameExtent(d: Desc, e: Desc) {
    d.pos == e.pos && d.size == e.size
  }

  /** Some catalog entry covers exactly the bytes of `e`. */
  ghost predicate CoveredBy(cat: Catalog, e: Desc) {
    exists d :: d in cat && SameExtent(d, e)
  }

  /** The map object the header points at is still in the catalog, as a
      map or as a tombstone. */
  ghost predicate HoldsMapEntry(cat: Catalog, ptr: Desc) {
    exists d :: d in cat && SameExtent(d, ptr) && (d.typ == TYPE_MAP || d.typ == TYPE_PURGE)
  }

  /** The in-memory part of the invariant: the catalog is in file order
      past the header, and holds the current map object whenever one was
      written. */
  ghost predicate MemValid(cat: Catalog, ptr: Desc) {
    Ordered(cat) && AfterHeader(cat) && (ptr.pos == 0 ==> ptr.size == 0) &&
    (ptr.pos != 0 ==> HoldsMapEntry(cat, ptr))
  }

  /** The map object's contents in the file are the encoded persisted
      catalog. */
  ghost predicate MapOnDisk(s: Store) {
    End(s.mapPtr) <= |s.file| && s.mapPtr.size == OBJECT_SIZE * |s.persisted| &&
    s.file[s.mapPtr.pos + OBJECT_SIZE..End(s.mapPtr)] == EncodeCatalog(s.order, s.persisted)
  }

  ghost predicate Valid(s: Store) {
    MemValid(s.catalog, s.mapPtr) && HEADER_LEN <= |s.file| &&
    (forall e :: e in s.persisted ==> CoveredBy(s.catalog, e)) &&
    (s.mapPtr.pos != 0 ==> MapOnDisk(s))
  }

  /** The bytes a reader of the file depends on: the header, the map object,
      and every object the map lists. */
  ghost predicate Protected(s: Store, i: nat) {
    i < HEADER_LEN ||
    (s.mapPtr.pos != 0 && s.mapPtr.pos <= i < End(s.mapPtr)) ||
    (exists e :: e in s.persisted && e.pos <= i < End(e))
  }

  // ---------------------------------------------------------------------
  // Host steps

  predicate Touches(st: Step, i: nat) {
    st.Put? && st.pos <= i < st.pos + |st.bytes|
  }

  /** A byte no step writes keeps its value. */
  lemma {:induction false} RunFrame(file: seq<byte>, steps: seq<Step>, i: nat)
    requires i < |file|
    requires forall k :: 0 <= k < |steps| ==> !Touches(steps[k], i)
    ensures Run(file, steps)[i] == file[i]
    decreases |steps|
  {
    if steps != [] {
      var init := steps[..|steps| - 1];
      assert forall k :: 0 <= k < |init| ==> init[k] == steps[k];
      RunFrame(file, init, i);
    }
  }

  /** A byte holds what the last step writing it wrote. */
  lemma {:induction false} RunWritten(file: seq<byte>, steps: seq<Step>, k: nat, i: nat)
    requires k < |steps| && Touches(steps[k], i)
    requires forall m :: k < m < |steps| ==> !Touches(steps[m], i)
    ensures i < |Run(file, steps)| && Run(file, steps)[i] == steps[k].bytes[i - steps[k].pos]
    decreases |steps|
  {
    var init := steps[..|steps| - 1];
    if k < |steps| - 1 {
      assert forall m :: 0 <= m < |init| ==> init[m] == steps[m];
      RunWritten(file, init, k, i);
    }
  }

  /** Running two step lists is running their concatenation. */
  lemma {:induction false} RunAppend(file: seq<byte>, a: seq<Step>, b: seq<Step>)
    ensures Run(file, a + b) == Run(Run(file, a), b)
    decreases |b|
  {
    if b == [] {
      assert a + b == a;
    } else {
      assert (a + b)[..|a + b| - 1] == a + b[..|b| - 1];
      RunAppend(file, a, b[..|b| - 1]);
    }
  }

  /** A write step is clear of an entry. */
  predicate Avoids(st: Step, d: Desc) {
    st.Put? ==> st.pos + |st.bytes| <= d.pos || End(d) <= st.pos
  }

  /** A write step lies past the header and clear of every entry. */
  predicate Clear(st: Step, cat: Catalog) {
    (st.Put? ==> st.pos >= HEADER_LEN) && forall d :: d in cat ==> Avoids(st, d)
  }

  /** A step clear of the catalog leaves the protected bytes alone. */
  lemma ClearStepKeeps(s: Store, st: Step, i: nat)
    requires Valid(s) && Protected(s, i) && Clear(st, s.catalog)
    ensures !Touches(st, i)
  {
    if st.Put? && i >= HEADER_LEN {
      if s.mapPtr.pos != 0 && s.mapPtr.pos <= i < End(s.mapPtr) {
        var d :| d in s.catalog && SameExtent(d, s.mapPtr) && (d.typ == TYPE_MAP || d.typ == TYPE_PURGE);
        assert Avoids(st, d);
      } else {
        var e :| e in s.persisted && e.pos <= i < End(e);
        assert CoveredBy(s.catalog, e);
        var d :| d in s.catalog && SameExtent(d, e);
        assert Avoids(st, d);
      }
    }
  }

  // ---------------------------------------------------------------------
  // Catalog facts

  /** In an ordered catalog no two entries start at the same position. */
  lemma PosUnique(cat: Catalog, i: nat, k: nat)
    requires Ordered(cat) && i < |cat| && k < |cat| && cat[i].pos == cat[k].pos
    ensures i == k
  {
  }

  /** Shrinking an entry in place keeps the catalog ordered. */
  lemma ShrinkKeepsOrder(cat: Catalog, j: nat, d: Desc)
    requires Ordered(cat) && AfterHeader(cat) && j < |cat|
    requires d.pos == cat[j].pos && d.size <= cat[j].size
    ensures Ordered(cat[j := d]) && AfterHeader(cat[j := d])
  {
    var r := cat[j := d];
    forall a, b | 0 <= a < b < |r|
      ensures End(r[a]) <= r[b].pos
    {
      assert End(cat[a]) <= cat[b].pos;
    }
  }

  /** The tail of an ordered catalog is ordered. */
  lemma OrderedTail(cat: Catalog)
    requires cat != [] && Ordered(cat)
    ensures Ordered(cat[1..])
  {
    var tail := cat[1..];
    forall a, b | 0 <= a < b < |tail|
      ensures End(tail[a]) <= tail[b].pos
    {
      assert tail[a] == cat[a + 1] && tail[b] == cat[b + 1];
    }
  }

  /** An entry placed before an ordered list all of whose entries start
      past its end gives an ordered list. */
  lemma ConsOrdered(d: Desc, rest: Catalog)
    requires Ordered(rest) && forall e :: e in rest ==> End(d) <= e.pos
    ensures Ordered([d] + rest)
  {
    var r := [d] + rest;
    forall a, b | 0 <= a < b < |r|
      ensures End(r[a]) <= r[b].pos
    {
      assert r[b] == rest[b - 1];
      if a > 0 {
        assert r[a] == rest[a - 1];
      }
    }
  }

  /** The copy of bile_write_map keeps the catalog order. */
  lemma {:induction false} KeptOrdered(cat: Catalog, mapPos: nat)
    requires Ordered(cat) && AfterHeader(cat)
    ensures Ordered(Kept(cat, mapPos)) && AfterHeader(Kept(cat, mapPos))
  {
    if cat != [] {
      var tail := cat[1..];
      OrderedTail(cat);
      KeptOrdered(tail, mapPos);
      var rest := Kept(tail, mapPos);
      forall e | e in rest
        ensures End(cat[0]) <= e.pos
      {
        var b :| 0 <= b < |tail| && tail[b] == e;
        assert cat[b + 1] == e;
      }
      if KeptEntry(cat[0], mapPos) {
        ConsOrdered(cat[0], rest);
      }
    }
  }

  /** Dropping an entry that is not kept shortens the copy. */
  lemma {:induction false} KeptDrops(cat: Catalog, mapPos: nat, d: Desc)
    requires d in cat && !KeptEntry(d, mapPos)
    ensures |Kept(cat, mapPos)| < |cat|
  {
    if cat[0] != d {
      assert d in cat[1..];
      KeptDrops(cat[1..], mapPos, d);
    }
  }

  /** Tombstoning keeps every extent, so it keeps the order. */
  lemma TombstoneKeepsOrder(cat: Catalog, typ: nat, id: nat)
    requires Ordered(cat) && AfterHeader(cat)
    ensures Ordered(Tombstone(cat, typ, id)) && AfterHeader(Tombstone(cat, typ, id))
    ensures forall d :: d in cat ==> CoveredBy(Tombstone(cat, typ, id), d)
  {
    var t := Tombstone(cat, typ, id);
    forall a, b | 0 <= a < b < |t|
      ensures End(t[a]) <= t[b].pos
    {
      assert End(cat[a]) <= cat[b].pos;
    }
    forall d | d in cat
      ensures CoveredBy(t, d)
    {
      var i :| 0 <= i < |cat| && cat[i] == d;
      assert t[i] in t && SameExtent(t[i], d);
    }
  }

  /** The map entry stays a map or becomes a tombstone. */
  lemma TombstoneKeepsMemValid(cat: Catalog, ptr: Desc, typ: nat, id: nat)
    requires MemValid(cat, ptr)
    ensures MemValid(Tombstone(cat, typ, id), ptr)
  {
    TombstoneKeepsOrder(cat, typ, id);
    var t := Tombstone(cat, typ, id);
    if ptr.pos != 0 {
      var d :| d in cat && SameExtent(d, ptr) && (d.typ == TYPE_MAP || d.typ == TYPE_PURGE);
      var i :| 0 <= i < |cat| && cat[i] == d;
      MapEntryStays(cat, t, typ, id, i, ptr);
    }
  }

  lemma MapEntryStays(cat: Catalog, t: Catalog, typ: nat, id: nat, i: nat, ptr: Desc)
    requires t == Tombstone(cat, typ, id) && i < |cat|
    requires SameExtent(cat[i], ptr) && (cat[i].typ == TYPE_MAP || cat[i].typ == TYPE_PURGE)
    ensures HoldsMapEntry(t, ptr)
  {
    assert t[i].typ == TYPE_MAP || t[i].typ == TYPE_PURGE;
    assert t[i] in t && SameExtent(t[i], ptr);
  }

  /** Allocation keeps every entry and the in-memory invariant; the new
      extent lies past the header, clear of every old entry. */
  lemma AllocKeepsMemValid(ins: Insertion, cat: Catalog, ptr: Desc, typ: nat, id: nat, size: nat)
    requires MemValid(cat, ptr) && (ins == Corrected || InsertsInOrder(cat))
    ensures AllocBy(ins, cat, typ, id, size) == Alloc(cat, typ, id, size)
    ensures MemValid(Alloc(cat, typ, id, size).catalog, ptr)
    ensures forall d :: d in cat ==> d in Alloc(cat, typ, id, size).catalog
    ensures AllocPos(cat, size) >= HEADER_LEN
    ensures forall d :: d in cat ==> Disjoint(Desc(AllocPos(cat, size), size, 0, 0), d)
  {
    AllocByAgrees(ins, cat, typ, id, size);
    AllocKeepsOrder(cat, typ, id, size);
    AllocPosIsFree(cat, size);
    var a := Alloc(cat, typ, id, size);
    assert a.catalog == a.catalog[..a.index] + [a.catalog[a.index]] + a.catalog[a.index + 1..];
    forall d | d in cat
      ensures d in a.catalog
    {
      assert d in cat[..a.index] || d in cat[a.index..];
    }
  }

  // ---------------------------------------------------------------------
  // The buffer bound

  /** The allocation bile_write_map makes for the new map. */
  function MapAlloc(s: Store): Allocation {
    AllocBy(s.insertion, s.catalog, TYPE_MAP, NewMapId(s), OBJECT_SIZE * NewCount(s))
  }

  /** The new map object is copied, and the copy fits the slots: the old
      map object (when there is one) is the entry left behind. */
  lemma MapCopyFits(s: Store)
    requires InOrder(s)
    requires MemValid(s.catalog, s.mapPtr)
    ensures NewCount(s) > 0
    ensures MapAlloc(s).catalog[MapAlloc(s).index] in Kept(MapAlloc(s).catalog, s.mapPtr.pos)
    ensures |Kept(MapAlloc(s).catalog, s.mapPtr.pos)| <= NewCount(s)
  {
    var n := NewCount(s);
    var a := MapAlloc(s);
    AllocKeepsMemValid(s.insertion, s.catalog, s.mapPtr, TYPE_MAP, NewMapId(s), OBJECT_SIZE * n);
    var x := a.catalog[a.index];
    if s.mapPtr.pos != 0 {
      var d :| d in s.catalog && SameExtent(d, s.mapPtr) && (d.typ == TYPE_MAP || d.typ == TYPE_PURGE);
      assert Disjoint(Desc(x.pos, OBJECT_SIZE * n, 0, 0), d);
      assert KeptEntry(x, s.mapPtr.pos);
      assert d in a.catalog;
      KeptDrops(a.catalog, s.mapPtr.pos, d);
    } else {
      assert KeptEntry(x, s.mapPtr.pos);
    }
  }

  /** In an ordered catalog an entry is determined by its position. */
  lemma SamePosSameEntry(cat: Catalog, d: Desc, k: nat)
    requires Ordered(cat) && d in cat && k < |cat| && d.pos == cat[k].pos
    ensures d == cat[k]
  {
    var i :| 0 <= i < |cat| && cat[i] == d;
    PosUnique(cat, i, k);
  }

  /** PlanMap on a valid catalog, spelled out. */
  lemma PlanMapValue(s: Store)
    requires InOrder(s)
    requires MemValid(s.catalog, s.mapPtr)
    ensures PlanMap(s).Some?
    ensures var a := MapAlloc(s);
            var kept := Kept(a.catalog, s.mapPtr.pos);
            var obj := a.catalog[a.index].(size := OBJECT_SIZE * |kept|);
            exists j :: 0 <= j < |kept| && kept[j] == a.catalog[a.index] &&
              PlanMap(s).value == MapPlan(a.catalog[a.index := obj], obj, kept[j := obj])
  {
    var a := MapAlloc(s);
    MapCopyFits(s);
    var kept := Kept(a.catalog, s.mapPtr.pos);
    var x := a.catalog[a.index];
    var xi :| 0 <= xi < |kept| && kept[xi] == x;
    assert LastMapAt(kept, x.pos, |kept|).Some?;
    var j := LastMapAt(kept, x.pos, |kept|).value;
    assert kept[j] == x by {
      AllocKeepsMemValid(s.insertion, s.catalog, s.mapPtr, TYPE_MAP, NewMapId(s), OBJECT_SIZE * NewCount(s));
      SamePosSameEntry(a.catalog, kept[j], a.index);
    }
    var obj := x.(size := OBJECT_SIZE * |kept|);
    assert PlanMap(s) == Some(MapPlan(a.catalog[a.index := obj], obj, kept[j := obj]));
  }

  /** The new map contents are ordered and hold the new map object. */
  lemma PlanMapNewMap(s: Store)
    requires InOrder(s)
    requires MemValid(s.catalog, s.mapPtr)
    ensures PlanMap(s).Some?
    ensures Ordered(PlanMap(s).value.newMap) && AfterHeader(PlanMap(s).value.newMap)
    ensures PlanMap(s).value.obj in PlanMap(s).value.newMap
  {
    var a := MapAlloc(s);
    PlanMapValue(s);
    AllocKeepsMemValid(s.insertion, s.catalog, s.mapPtr, TYPE_MAP, NewMapId(s), OBJECT_SIZE * NewCount(s));
    var kept := Kept(a.catalog, s.mapPtr.pos);
    var x := a.catalog[a.index];
    var obj := x.(size := OBJECT_SIZE * |kept|);
    var j :| 0 <= j < |kept| && kept[j] == x && PlanMap(s).value == MapPlan(a.catalog[a.index := obj], obj, kept[j := obj]);
    MapCopyFits(s);
    KeptOrdered(a.catalog, s.mapPtr.pos);
    ShrinkKeepsOrder(kept, j, obj);
    assert PlanMap(s).value.newMap[j] == obj;
  }

  /** The in-memory catalog after the allocation keeps every entry and the
      invariant, and holds the new map object, which lies past the header
      clear of every old entry and within the slots allocated. */
  lemma PlanMapCatalog(s: Store)
    requires InOrder(s)
    requires MemValid(s.catalog, s.mapPtr)
    ensures PlanMap(s).Some?
    ensures NewCount(s) > 0
    ensures PlanMap(s).value.obj.pos == AllocPos(s.catalog, OBJECT_SIZE * NewCount(s))
    ensures PlanMap(s).value.obj.size <= OBJECT_SIZE * NewCount(s)
    ensures MemValid(PlanMap(s).value.catalog, s.mapPtr)
    ensures forall d :: d in s.catalog ==> d in PlanMap(s).value.catalog
    ensures PlanMap(s).value.obj in PlanMap(s).value.catalog
  {
    var n := NewCount(s);
    var a := MapAlloc(s);
    MapCopyFits(s);
    PlanMapValue(s);
    AllocKeepsMemValid(s.insertion, s.catalog, s.mapPtr, TYPE_MAP, NewMapId(s), OBJECT_SIZE * n);
    var kept := Kept(a.catalog, s.mapPtr.pos);
    var x := a.catalog[a.index];
    var obj := x.(size := OBJECT_SIZE * |kept|);
    var p := PlanMap(s).value;
    assert p.catalog == a.catalog[a.index := obj] && p.obj == obj;
    forall d | d in s.catalog
      ensures d in a.catalog && d.pos != a.catalog[a.index].pos
    {
      assert Disjoint(Desc(x.pos, OBJECT_SIZE * n, 0, 0), d);
    }
    ShrunkCatalog(s.catalog, s.mapPtr, a.catalog, a.index, obj);
  }

  /** Shrinking the new map's entry in place keeps the invariant and every
      old entry, which all lie at other positions. */
  lemma ShrunkCatalog(olds: Catalog, ptr: Desc, cat: Catalog, k: nat, obj: Desc)
    requires MemValid(olds, ptr) && MemValid(cat, ptr) && k < |cat|
    requires obj.pos == cat[k].pos && obj.size <= cat[k].size
    requires forall d :: d in olds ==> d in cat && d.pos != cat[k].pos
    ensures MemValid(cat[k := obj], ptr)
    ensures forall d :: d in olds ==> d in cat[k := obj]
    ensures obj in cat[k := obj]
  {
    ShrinkKeepsOrder(cat, k, obj);
    assert cat[k := obj][k] == obj;
    UpdateKeeps(cat, k, obj, olds);
    if ptr.pos != 0 {
      var d :| d in olds && SameExtent(d, ptr) && (d.typ == TYPE_MAP || d.typ == TYPE_PURGE);
      assert d in cat[k := obj];
    }
  }

  /** Replacing one entry keeps every entry at another position. */
  lemma UpdateKeeps(cat: Catalog, k: nat, v: Desc, olds: Catalog)
    requires k < |cat|
    requires forall d :: d in olds ==> d in cat && d.pos != cat[k].pos
    ensures forall d :: d in olds ==> d in cat[k := v]
  {
    forall d | d in olds
      ensures d in cat[k := v]
    {
      var i :| 0 <= i < |cat| && cat[i] == d;
      assert cat[k := v][i] == d;
    }
  }

  /** The buffer bound: on a valid store bile_write_map copies no more
      entries than the slots it allocated. */
  lemma WriteMapCopyFits(s: Store)
    requires InOrder(s)
    requires MemValid(s.catalog, s.mapPtr)
    ensures |Kept(AllocBy(s.insertion, s.catalog, TYPE_MAP, NewMapId(s), OBJECT_SIZE * NewCount(s)).catalog, s.mapPtr.pos)| <= NewCount(s)
    ensures WriteMap(s, 0).Done?
  {
    PlanMapCatalog(s);
    MapCopyFits(s);
  }

  // ---------------------------------------------------------------------
  // Nothing on disk is overwritten before the pointer

  /** A step writes inside the extent of an object of `size` at `q`. */
  predicate Within(st: Step, q: nat, size: nat) {
    st.Put? ==> q <= st.pos && st.pos + |st.bytes| <= q + OBJECT_SIZE + size
  }

  /** Writing inside a free extent past the header is clear of the
      catalog. */
  lemma WithinFreeIsClear(st: Step, q: nat, size: nat, cat: Catalog)
    requires Within(st, q, size) && q >= HEADER_LEN
    requires forall d :: d in cat ==> Disjoint(Desc(q, size, 0, 0), d)
    ensures Clear(st, cat)
  {
  }

  /** A step clear of a catalog is clear of every extent it covers. */
  lemma ClearCovered(st: Step, cat: Catalog, olds: Catalog)
    requires Clear(st, cat)
    requires forall d :: d in olds ==> CoveredBy(cat, d)
    ensures Clear(st, olds)
  {
    forall d | d in olds
      ensures Avoids(st, d)
    {
      var c :| c in cat && SameExtent(c, d);
      assert Avoids(st, c);
    }
  }

  /** Tombstoning keeps the entry count and positions, so the allocation
      of bile_write inserts as the corrected one does when the store's
      next allocation would. */
  lemma TombstoneInOrder(s: Store, typ: nat, id: nat)
    requires InOrder(s)
    ensures s.insertion == Corrected || InsertsInOrder(Tombstone(s.catalog, typ, id))
  {
    if |s.catalog| == 1 {
      assert Tombstone(s.catalog, typ, id)[0].pos == s.catalog[0].pos;
    }
  }

  /** The catalog bile_write hands to bile_write_map has one entry more;
      when it has just one, that is the new object, placed right after the
      header. */
  lemma BeforeMapInOrder(s: Store, typ: nat, id: nat, data: seq<byte>)
    requires InOrder(s)
    ensures InOrder(BeforeMap(s, typ, id, data))
  {
    if s.catalog == [] {
      var t := Tombstone(s.catalog, typ, id);
      assert t == [];
      assert AllocPos(t, |data|) == HEADER_LEN;
    }
  }

  /** The object's two writes land in space free after the tombstone. */
  lemma ObjectStepsClear(s: Store, typ: nat, id: nat, data: seq<byte>)
    requires InOrder(s)
    requires MemValid(s.catalog, s.mapPtr)
    ensures var a := WriteAlloc(s, typ, id, |data|);
            var steps := ObjectSteps(s, a.catalog[a.index], data);
            Clear(steps[0], s.catalog) && Clear(steps[1], s.catalog)
  {
    var t := Tombstone(s.catalog, typ, id);
    assert MemValid(t, s.mapPtr) && forall d :: d in s.catalog ==> CoveredBy(t, d) by {
      TombstoneKeepsMemValid(s.catalog, s.mapPtr, typ, id);
      TombstoneKeepsOrder(s.catalog, typ, id);
    }
    var q := AllocPos(t, |data|);
    assert q >= HEADER_LEN && forall d :: d in t ==> Disjoint(Desc(q, |data|, 0, 0), d) by {
      AllocKeepsMemValid(s.insertion, t, s.mapPtr, typ, id, |data|);
    }
    var a := WriteAlloc(s, typ, id, |data|);
    var obj := a.catalog[a.index];
    assert obj.pos == q && obj.size == |data|;
    var steps := ObjectSteps(s, obj, data);
    assert Within(steps[0], q, |data|) && Within(steps[1], q, |data|);
    WithinFreeIsClear(steps[0], q, |data|, t);
    WithinFreeIsClear(steps[1], q, |data|, t);
    ClearCovered(steps[0], t, s.catalog);
    ClearCovered(steps[1], t, s.catalog);
  }

  /** The new map's header and contents land in space free after its
      allocation. */
  lemma MapStepsClear(s: Store)
    requires InOrder(s)
    requires MemValid(s.catalog, s.mapPtr)
    ensures PlanMap(s).Some?
    ensures var steps := MapSteps(s, PlanMap(s).value);
            Clear(steps[0], s.catalog) && Clear(steps[1], s.catalog)
  {
    var n := NewCount(s);
    var q := AllocPos(s.catalog, OBJECT_SIZE * n);
    assert PlanMap(s).Some? && PlanMap(s).value.obj.pos == q && PlanMap(s).value.obj.size <= OBJECT_SIZE * n &&
           PlanMap(s).value.obj.size == OBJECT_SIZE * |PlanMap(s).value.newMap| by {
      PlanMapCatalog(s);
    }
    assert q >= HEADER_LEN && forall d :: d in s.catalog ==> Disjoint(Desc(q, OBJECT_SIZE * n, 0, 0), d) by {
      AllocKeepsMemValid(s.insertion, s.catalog, s.mapPtr, TYPE_MAP, NewMapId(s), OBJECT_SIZE * n);
    }
    MapWritesClear(s, PlanMap(s).value, q, OBJECT_SIZE * n);
  }

  lemma MapWritesClear(s: Store, p: MapPlan, q: nat, size: nat)
    requires p.obj.pos == q && p.obj.size <= size && p.obj.size == OBJECT_SIZE * |p.newMap|
    requires q >= HEADER_LEN && forall d :: d in s.catalog ==> Disjoint(Desc(q, size, 0, 0), d)
    ensures var steps := MapSteps(s, p);
            Clear(steps[0], s.catalog) && Clear(steps[1], s.catalog)
  {
    var steps := MapSteps(s, p);
    assert Within(steps[0], q, size) && Within(steps[1], q, size);
    WithinFreeIsClear(steps[0], q, size, s.catalog);
    WithinFreeIsClear(steps[1], q, size, s.catalog);
  }

  /** The catalog bile_write hands to bile_write_map keeps the invariant
      and covers every old extent. */
  lemma BeforeMapCovers(s: Store, typ: nat, id: nat, data: seq<byte>)
    requires InOrder(s)
    requires MemValid(s.catalog, s.mapPtr)
    ensures MemValid(BeforeMap(s, typ, id, data).catalog, s.mapPtr)
    ensures forall d :: d in s.catalog ==> CoveredBy(BeforeMap(s, typ, id, data).catalog, d)
  {
    var t := Tombstone(s.catalog, typ, id);
    TombstoneKeepsMemValid(s.catalog, s.mapPtr, typ, id);
    TombstoneKeepsOrder(s.catalog, typ, id);
    AllocKeepsMemValid(s.insertion, t, s.mapPtr, typ, id, |data|);
    var c := BeforeMap(s, typ, id, data).catalog;
    forall d | d in s.catalog
      ensures CoveredBy(c, d)
    {
      var e :| e in t && SameExtent(e, d);
      assert e in c;
    }
  }

  /** The first five host calls of bile_write (the object, the new map and
      the first flush) write past the header and clear of every entry of
      the catalog. */
  lemma WriteStepsClear(s: Store, typ: nat, id: nat, data: seq<byte>)
    requires InOrder(s)
    requires MemValid(s.catalog, s.mapPtr)
    ensures WriteSteps(s, typ, id, data).Some?
    ensures forall m :: 0 <= m < 5 ==> Clear(WriteSteps(s, typ, id, data).value[m], s.catalog)
  {
    var a := WriteAlloc(s, typ, id, |data|);
    var s1 := BeforeMap(s, typ, id, data);
    BeforeMapCovers(s, typ, id, data);
    ObjectStepsClear(s, typ, id, data);
    MapStepsClear(s1);
    var os := ObjectSteps(s, a.catalog[a.index], data);
    var ms := MapSteps(s1, PlanMap(s1).value);
    assert WriteSteps(s, typ, id, data).value == os + ms;
    ConcatClear(os, ms, s1.catalog, s.catalog);
  }

  lemma ConcatClear(os: seq<Step>, ms: seq<Step>, mid: Catalog, cat: Catalog)
    requires |os| == 2 && |ms| == 6 && ms[2] == Flush
    requires Clear(os[0], cat) && Clear(os[1], cat)
    requires Clear(ms[0], mid) && Clear(ms[1], mid)
    requires forall d :: d in cat ==> CoveredBy(mid, d)
    ensures forall m :: 0 <= m < 5 ==> Clear((os + ms)[m], cat)
  {
    ClearCovered(ms[0], mid, cat);
    ClearCovered(ms[1], mid, cat);
    forall m | 0 <= m < 5
      ensures Clear((os + ms)[m], cat)
    {
      if m < 2 {
        assert (os + ms)[m] == os[m];
      } else {
        assert (os + ms)[m] == ms[m - 2];
      }
    }
  }

  /** Steps clear of the catalog leave the protected bytes alone. */
  lemma ClearStepsKeep(s: Store, steps: seq<Step>, i: nat)
    requires Valid(s) && Protected(s, i) && i < |s.file|
    requires forall m :: 0 <= m < |steps| ==> Clear(steps[m], s.catalog)
    ensures Run(s.file, steps)[i] == s.file[i]
  {
    forall m | 0 <= m < |steps|
      ensures !Touches(steps[m], i)
    {
      ClearStepKeeps(s, steps[m], i);
    }
    RunFrame(s.file, steps, i);
  }

  /** The crash-safety property of bile_write. Until bile_write rewrites
      the map pointer at offset 5 (its sixth host call), every byte a
      reader of the file depends on keeps its value: the header, the
      current map object, and every object the current map lists. A crash
      at any point before that leaves the previous state readable. */
  lemma WriteKeepsOnDiskState(s: Store, typ: nat, id: nat, data: seq<byte>, k: nat, i: nat)
    requires InOrder(s)
    requires Valid(s) && k <= 5 && i < |s.file| && Protected(s, i)
    ensures WriteSteps(s, typ, id, data).Some?
    ensures Run(s.file, WriteSteps(s, typ, id, data).value[..k])[i] == s.file[i]
  {
    WriteStepsClear(s, typ, id, data);
    PrefixClearKeeps(s, WriteSteps(s, typ, id, data).value, 5, k, i);
  }

  lemma PrefixClearKeeps(s: Store, steps: seq<Step>, n: nat, k: nat, i: nat)
    requires Valid(s) && Protected(s, i) && i < |s.file|
    requires k <= n <= |steps| && forall m :: 0 <= m < n ==> Clear(steps[m], s.catalog)
    ensures Run(s.file, steps[..k])[i] == s.file[i]
  {
    assert forall m :: 0 <= m < k ==> steps[..k][m] == steps[m];
    ClearStepsKeep(s, steps[..k], i);
  }

  // ---------------------------------------------------------------------
  // The invariant survives every operation, wherever a host call fails

  /** Coverage is transitive. */
  lemma CoveredTrans(olds: Catalog, mid: Catalog, cat: Catalog)
    requires forall d :: d in olds ==> CoveredBy(mid, d)
    requires forall d :: d in mid ==> CoveredBy(cat, d)
    ensures forall d :: d in olds ==> CoveredBy(cat, d)
  {
    forall d | d in olds
      ensures CoveredBy(cat, d)
    {
      var m :| m in mid && SameExtent(m, d);
      var c :| c in cat && SameExtent(c, m);
      assert SameExtent(c, d);
    }
  }

  /** Agreement at every index of a range is agreement of the slices. */
  lemma SliceAgrees(a: seq<byte>, b: seq<byte>, lo: nat, hi: nat)
    requires lo <= hi <= |a| && hi <= |b|
    requires forall i :: lo <= i < hi ==> a[i] == b[i]
    ensures a[lo..hi] == b[lo..hi]
  {
  }

  /** Steps clear of the catalog, with the catalog replaced by one that
      still covers it, keep the invariant. */
  lemma ClearStepsKeepValid(s: Store, steps: seq<Step>, cat: Catalog)
    requires Valid(s)
    requires forall m :: 0 <= m < |steps| ==> Clear(steps[m], s.catalog)
    requires MemValid(cat, s.mapPtr)
    requires forall d :: d in s.catalog ==> CoveredBy(cat, d)
    ensures Valid(s.(file := Run(s.file, steps), catalog := cat))
  {
    var r := s.(file := Run(s.file, steps), catalog := cat);
    CoveredTrans(s.persisted, s.catalog, cat);
    if s.mapPtr.pos != 0 {
      ClearStepsKeepMap(s, steps);
      MapOnDiskMoves(s, r);
    }
  }

  /** Steps clear of the catalog leave the map object's contents alone. */
  lemma ClearStepsKeepMap(s: Store, steps: seq<Step>)
    requires Valid(s) && s.mapPtr.pos != 0
    requires forall m :: 0 <= m < |steps| ==> Clear(steps[m], s.catalog)
    ensures End(s.mapPtr) <= |s.file|
    ensures Run(s.file, steps)[s.mapPtr.pos + OBJECT_SIZE..End(s.mapPtr)] == s.file[s.mapPtr.pos + OBJECT_SIZE..End(s.mapPtr)]
  {
    var file := Run(s.file, steps);
    var lo, hi := s.mapPtr.pos + OBJECT_SIZE, End(s.mapPtr);
    forall i | lo <= i < hi
      ensures file[i] == s.file[i]
    {
      assert Protected(s, i);
      ClearStepsKeep(s, steps, i);
    }
    SliceAgrees(file, s.file, lo, hi);
  }

  /** The map object is still on disk in a file that kept its bytes. */
  lemma MapOnDiskMoves(s: Store, r: Store)
    requires MapOnDisk(s)
    requires r.mapPtr == s.mapPtr && r.persisted == s.persisted && r.order == s.order
    requires End(s.mapPtr) <= |r.file|
    requires r.file[s.mapPtr.pos + OBJECT_SIZE..End(s.mapPtr)] == s.file[s.mapPtr.pos + OBJECT_SIZE..End(s.mapPtr)]
    ensures MapOnDisk(r)
  {
  }

  /** A step list that writes `bytes` at `pos` and then leaves that range
      alone holds those bytes there afterwards. */
  lemma RunWrittenRange(file: seq<byte>, steps: seq<Step>, k: nat)
    requires k < |steps| && steps[k].Put?
    requires forall m, i :: k < m < |steps| && steps[k].pos <= i < steps[k].pos + |steps[k].bytes| ==> !Touches(steps[m], i)
    ensures steps[k].pos + |steps[k].bytes| <= |Run(file, steps)|
    ensures Run(file, steps)[steps[k].pos..steps[k].pos + |steps[k].bytes|] == steps[k].bytes
  {
    var p, b := steps[k].pos, steps[k].bytes;
    var r := Run(file, steps);
    forall i | p <= i < p + |b|
      ensures i < |r| && r[i] == b[i - p]
    {
      RunWritten(file, steps, k, i);
    }
    if |b| > 0 {
      RunWritten(file, steps, k, p + |b| - 1);
    } else {
      RunFloor(file, steps, k);
    }
  }

  /** The file after a Put is at least as long as the write's end. */
  lemma {:induction false} RunFloor(file: seq<byte>, steps: seq<Step>, k: nat)
    requires k < |steps| && steps[k].Put?
    ensures steps[k].pos + |steps[k].bytes| <= |Run(file, steps)|
    decreases |steps|
  {
    var init := steps[..|steps| - 1];
    if k < |steps| - 1 {
      assert init[k] == steps[k];
      RunFloor(file, init, k);
    }
  }

  /** The first `k` of some steps are clear when the first `n` are. */
  lemma ClearPrefix(steps: seq<Step>, n: nat, k: nat, cat: Catalog)
    requires k <= n <= |steps| && forall m :: 0 <= m < n ==> Clear(steps[m], cat)
    ensures forall m :: 0 <= m < k ==> Clear(steps[..k][m], cat)
  {
    assert forall m :: 0 <= m < k ==> steps[..k][m] == steps[m];
  }

  /** bile_write_map on a valid store does not fault and leaves a valid
      store whichever host call fails: before the first flush succeeds the
      old map stays in charge, afterwards the new one. */
  lemma WriteMapKeepsValid(s: Store, failAt: nat)
    requires InOrder(s)
    requires Valid(s)
    ensures WriteMap(s, failAt).Done?
    ensures Valid(WriteMap(s, failAt).store)
  {
    PlanMapCatalog(s);
    PlanMapNewMap(s);
    MapStepsClear(s);
    var p := PlanMap(s).value;
    var done := Min(failAt, 6);
    assert WriteMap(s, failAt).store == AfterMapSteps(s, p, done);
    if done < 3 {
      OldMapValid(s, p, done);
    } else {
      NewMapValid(s, p, done);
    }
  }

  /** Before the switch-over the store is valid with the old map. */
  lemma OldMapValid(s: Store, p: MapPlan, done: nat)
    requires Valid(s) && done < 3
    requires Clear(MapSteps(s, p)[0], s.catalog) && Clear(MapSteps(s, p)[1], s.catalog)
    requires MemValid(p.catalog, s.mapPtr) && forall d :: d in s.catalog ==> d in p.catalog
    ensures Valid(AfterMapSteps(s, p, done))
  {
    var steps := MapSteps(s, p);
    assert Clear(steps[2], s.catalog);
    ClearPrefix(steps, 3, done, s.catalog);
    forall d | d in s.catalog
      ensures CoveredBy(p.catalog, d)
    {
      assert SameExtent(d, d);
    }
    ClearStepsKeepValid(s, steps[..done], p.catalog);
  }

  /** The contents write lands, and the later header writes stay inside
      the header. */
  lemma ContentsLand(file: seq<byte>, steps: seq<Step>, q: nat, bytes: seq<byte>)
    requires |steps| >= 2 && steps[1] == Put(q, bytes) && q >= HEADER_LEN
    requires forall m :: 2 <= m < |steps| && steps[m].Put? ==> steps[m].pos + |steps[m].bytes| <= HEADER_LEN
    ensures q + |bytes| <= |Run(file, steps)| && Run(file, steps)[q..q + |bytes|] == bytes
  {
    RunWrittenRange(file, steps, 1);
  }

  /** A prefix of the map steps past the contents write keeps that write
      and the header-only writes after it. */
  lemma MapStepsPrefix(s: Store, p: MapPlan, done: nat)
    requires 2 <= done <= 6
    ensures var steps := MapSteps(s, p)[..done];
            steps[1] == Put(p.obj.pos + OBJECT_SIZE, EncodeCatalog(s.order, p.newMap)) &&
            forall m :: 2 <= m < |steps| && steps[m].Put? ==> steps[m].pos + |steps[m].bytes| <= HEADER_LEN
  {
    var all := MapSteps(s, p);
    assert forall m :: 0 <= m < done ==> all[..done][m] == all[m];
  }

  /** After the switch-over the store is valid with the new map. */
  lemma NewMapValid(s: Store, p: MapPlan, done: nat)
    requires Valid(s) && 3 <= done <= 6
    requires p.obj.pos >= HEADER_LEN && p.obj.typ == TYPE_MAP && p.obj in p.newMap
    requires p.obj.size == OBJECT_SIZE * |p.newMap|
    requires Ordered(p.newMap) && AfterHeader(p.newMap)
    ensures Valid(AfterMapSteps(s, p, done))
  {
    var r := AfterMapSteps(s, p, done);
    MapStepsPrefix(s, p, done);
    SwitchedValid(s.file, MapSteps(s, p)[..done], p, r);
  }

  lemma SwitchedValid(file: seq<byte>, steps: seq<Step>, p: MapPlan, r: Store)
    requires |file| >= HEADER_LEN && r.file == Run(file, steps)
    requires |steps| >= 2 && steps[1] == Put(p.obj.pos + OBJECT_SIZE, EncodeCatalog(r.order, p.newMap))
    requires forall m :: 2 <= m < |steps| && steps[m].Put? ==> steps[m].pos + |steps[m].bytes| <= HEADER_LEN
    requires r.catalog == p.newMap && r.persisted == p.newMap
    requires r.mapPtr.pos == p.obj.pos && r.mapPtr.size == p.obj.size
    requires p.obj.pos >= HEADER_LEN && p.obj.typ == TYPE_MAP && p.obj in p.newMap
    requires p.obj.size == OBJECT_SIZE * |p.newMap|
    requires Ordered(p.newMap) && AfterHeader(p.newMap)
    ensures Valid(r)
  {
    assert SameExtent(p.obj, r.mapPtr);
    assert HoldsMapEntry(r.catalog, r.mapPtr);
    forall e | e in r.persisted
      ensures CoveredBy(r.catalog, e)
    {
      assert SameExtent(e, e);
    }
    ContentsLand(file, steps, p.obj.pos + OBJECT_SIZE, EncodeCatalog(r.order, p.newMap));
    assert MapOnDisk(r);
  }

  /** bile_write on a valid store does not fault and leaves a valid store
      whichever host call fails. */
  lemma WriteKeepsValid(s: Store, typ: nat, id: nat, data: seq<byte>, failAt: nat)
    requires InOrder(s)
    requires Valid(s) && |data| > 0
    ensures WriteCore(s, typ, id, data, failAt).Wrote?
    ensures Valid(WriteCore(s, typ, id, data, failAt).store)
  {
    if failAt < 2 {
      ObjectStepsKeepValid(s, typ, id, data, failAt);
    } else {
      var s1 := BeforeMap(s, typ, id, data);
      assert Valid(s1) && InOrder(s1) by {
        ObjectStepsKeepValid(s, typ, id, data, 2);
        BeforeMapInOrder(s, typ, id, data);
      }
      WriteMapKeepsValid(s1, failAt - 2);
      WriteCoreLate(s, typ, id, data, failAt);
    }
  }

  /** Past the object's two writes, bile_write's store is bile_write_map's. */
  lemma WriteCoreLate(s: Store, typ: nat, id: nat, data: seq<byte>, failAt: nat)
    requires |data| > 0 && failAt >= 2
    requires WriteMap(BeforeMap(s, typ, id, data), failAt - 2).Done?
    ensures WriteCore(s, typ, id, data, failAt).Wrote?
    ensures WriteCore(s, typ, id, data, failAt).store == WriteMap(BeforeMap(s, typ, id, data), failAt - 2).store
  {
  }

  /** The object's header and payload writes, all or the first `k`, keep
      the invariant; all of them give the store bile_write_map starts
      from. */
  lemma ObjectStepsKeepValid(s: Store, typ: nat, id: nat, data: seq<byte>, k: nat)
    requires InOrder(s)
    requires Valid(s) && |data| > 0 && k <= 2
    ensures var a := WriteAlloc(s, typ, id, |data|);
            Valid(s.(file := Run(s.file, ObjectSteps(s, a.catalog[a.index], data)[..k]), catalog := a.catalog))
    ensures k == 2 ==> Valid(BeforeMap(s, typ, id, data))
  {
    var a := WriteAlloc(s, typ, id, |data|);
    var os := ObjectSteps(s, a.catalog[a.index], data);
    assert Valid(s.(file := Run(s.file, os[..k]), catalog := a.catalog)) by {
      ObjectStepsClear(s, typ, id, data);
      BeforeMapCovers(s, typ, id, data);
      ClearPrefix(os, 2, k, s.catalog);
      ClearStepsKeepValid(s, os[..k], a.catalog);
    }
    if k == 2 {
      assert os[..2] == os;
    }
  }

  /** Tombstoning an entry keeps the invariant. */
  lemma TombstoneKeepsValid(s: Store, typ: nat, id: nat)
    requires Valid(s)
    ensures Valid(s.(catalog := Tombstone(s.catalog, typ, id)))
  {
    TombstoneKeepsMemValid(s.catalog, s.mapPtr, typ, id);
    TombstoneKeepsOrder(s.catalog, typ, id);
    CoveredTrans(s.persisted, s.catalog, Tombstone(s.catalog, typ, id));
  }

  /** bile_delete on a valid store does not fault and leaves a valid store
      whichever host call fails. */
  lemma DeleteKeepsValid(s: Store, typ: nat, id: nat, failAt: nat)
    requires InOrder(s)
    requires Valid(s)
    ensures Delete(s, typ, id, failAt).Done?
    ensures Valid(Delete(s, typ, id, failAt).store)
  {
    if ObjectInMap(s.catalog, typ, id).Some? {
      var s1 := s.(catalog := Tombstone(s.catalog, typ, id));
      TombstoneKeepsValid(s, typ, id);
      TombstoneInOrder(s, typ, id);
      if IsHighest(s1.catalog, typ, id) {
        WriteKeepsValid(s1, TYPE_HIGHESTID, typ, EncodeU32(s.order, id), failAt);
      } else {
        WriteMapKeepsValid(s1, failAt);
      }
    }
  }

  /** A new file is a valid store. */
  lemma CreateValid(order: ByteOrder, ins: Insertion)
    ensures Valid(Create(order, ins))
  {
  }

  // ---------------------------------------------------------------------
  // Reading back what was written

  /** Bytes no step touches keep their values, as a slice. */
  lemma RangeUntouched(file: seq<byte>, steps: seq<Step>, lo: nat, hi: nat)
    requires lo <= hi <= |file|
    requires forall m, i :: 0 <= m < |steps| && lo <= i < hi ==> !Touches(steps[m], i)
    ensures Run(file, steps)[lo..hi] == file[lo..hi]
  {
    forall i | lo <= i < hi
      ensures Run(file, steps)[i] == file[i]
    {
      RunFrame(file, steps, i);
    }
    SliceAgrees(Run(file, steps), file, lo, hi);
  }

  /** After bile_write's first two host calls the new object's header and
      payload are in the file, and the object is in the catalog handed to
      bile_write_map. */
  lemma ObjectLands(s: Store, typ: nat, id: nat, data: seq<byte>)
    requires MemValid(s.catalog, s.mapPtr) && |data| > 0
    ensures var a := WriteAlloc(s, typ, id, |data|);
            var obj := a.catalog[a.index];
            var s1 := BeforeMap(s, typ, id, data);
            obj in s1.catalog && End(obj) <= |s1.file| &&
            s1.file[obj.pos..obj.pos + OBJECT_SIZE] == EncodeDesc(s.order, obj) &&
            s1.file[obj.pos + OBJECT_SIZE..End(obj)] == data
  {
    var a := WriteAlloc(s, typ, id, |data|);
    var obj := a.catalog[a.index];
    var os := ObjectSteps(s, obj, data);
    assert BeforeMap(s, typ, id, data).file == Run(s.file, os);
    HeaderThenPayload(s.file, os, obj.pos, EncodeDesc(s.order, obj), data);
  }

  /** A header write followed by the payload write right after it leaves
      both in the file. */
  lemma HeaderThenPayload(file: seq<byte>, os: seq<Step>, pos: nat, hdr: seq<byte>, data: seq<byte>)
    requires |hdr| == OBJECT_SIZE && os == [Put(pos, hdr), Put(pos + OBJECT_SIZE, data)]
    ensures pos + OBJECT_SIZE + |data| <= |Run(file, os)|
    ensures Run(file, os)[pos..pos + OBJECT_SIZE] == hdr
    ensures Run(file, os)[pos + OBJECT_SIZE..pos + OBJECT_SIZE + |data|] == data
  {
    RunWrittenRange(file, os, 0);
    RunWrittenRange(file, os, 1);
  }

  /** The new object is not the map the header points at, so the map
      rewrite copies it. */
  lemma ObjectIsKept(s: Store, typ: nat, id: nat, data: seq<byte>)
    requires InOrder(s)
    requires MemValid(s.catalog, s.mapPtr) && |data| > 0 && typ != TYPE_PURGE
    ensures var a := WriteAlloc(s, typ, id, |data|);
            KeptEntry(a.catalog[a.index], s.mapPtr.pos)
  {
    var t := Tombstone(s.catalog, typ, id);
    var q := AllocPos(t, |data|);
    assert MemValid(t, s.mapPtr) by {
      TombstoneKeepsMemValid(s.catalog, s.mapPtr, typ, id);
    }
    assert q >= HEADER_LEN && forall d :: d in t ==> Disjoint(Desc(q, |data|, 0, 0), d) by {
      AllocKeepsMemValid(s.insertion, t, s.mapPtr, typ, id, |data|);
    }
    if s.mapPtr.pos != 0 {
      var d :| d in t && SameExtent(d, s.mapPtr) && (d.typ == TYPE_MAP || d.typ == TYPE_PURGE);
      assert Disjoint(Desc(q, |data|, 0, 0), d);
      assert q != s.mapPtr.pos;
    }
    var a := WriteAlloc(s, typ, id, |data|);
    assert a.catalog[a.index] == Desc(q, |data|, typ, id);
  }

  /** bile_write_map writes nothing over an entry of its catalog. */
  lemma MapStepsSpare(s: Store, d: Desc)
    requires InOrder(s)
    requires MemValid(s.catalog, s.mapPtr) && d in s.catalog
    ensures PlanMap(s).Some?
    ensures forall m, i :: 0 <= m < 6 && d.pos <= i < End(d) ==> !Touches(MapSteps(s, PlanMap(s).value)[m], i)
  {
    MapStepsClear(s);
    assert d.pos >= HEADER_LEN;
    StepsSpare(MapSteps(s, PlanMap(s).value), d, s.catalog);
  }

  /** Two writes clear of the catalog followed by header writes leave
      every catalog entry alone. */
  lemma StepsSpare(steps: seq<Step>, d: Desc, cat: Catalog)
    requires |steps| == 6 && Clear(steps[0], cat) && Clear(steps[1], cat)
    requires forall m :: 2 <= m < 6 && steps[m].Put? ==> steps[m].pos + |steps[m].bytes| <= HEADER_LEN
    requires d in cat && d.pos >= HEADER_LEN
    ensures forall m, i :: 0 <= m < 6 && d.pos <= i < End(d) ==> !Touches(steps[m], i)
  {
    forall m, i | 0 <= m < 6 && d.pos <= i < End(d)
      ensures !Touches(steps[m], i)
    {
      if m < 2 {
        assert Avoids(steps[m], d);
      }
    }
  }

  /** bile_write_map copies every kept entry of its catalog into the new
      map. */
  lemma NewMapKeeps(s: Store, d: Desc)
    requires InOrder(s)
    requires MemValid(s.catalog, s.mapPtr) && d in s.catalog && KeptEntry(d, s.mapPtr.pos)
    ensures PlanMap(s).Some? && d in PlanMap(s).value.newMap
  {
    var a := MapAlloc(s);
    var n := NewCount(s);
    var q := AllocPos(s.catalog, OBJECT_SIZE * n);
    assert n > 0 by {
      MapCopyFits(s);
    }
    assert d in a.catalog && Disjoint(Desc(q, OBJECT_SIZE * n, 0, 0), d) by {
      AllocKeepsMemValid(s.insertion, s.catalog, s.mapPtr, TYPE_MAP, NewMapId(s), OBJECT_SIZE * n);
    }
    var kept := Kept(a.catalog, s.mapPtr.pos);
    var x := a.catalog[a.index];
    assert x.pos == q;
    var obj := x.(size := OBJECT_SIZE * |kept|);
    PlanMapValue(s);
    var j :| 0 <= j < |kept| && kept[j] == x && PlanMap(s).value == MapPlan(a.catalog[a.index := obj], obj, kept[j := obj]);
    assert d in kept && d in [d];
    UpdateKeeps(kept, j, obj, [d]);
    assert d in kept[j := obj];
  }

  /** An object whose header and payload are in the file reads back. */
  lemma ReadsBack(st: Store, d: Desc, data: seq<byte>)
    requires |data| > 0 && d.size == |data| && End(d) <= |st.file|
    requires d.typ < U32_LIMIT && d.id < U32_LIMIT && d.size < U32_LIMIT
    requires st.file[d.pos..End(d)] == EncodeDesc(st.order, d) + data
    ensures ReadObject(st, d, |data|) == ReadResult(|data|, data, 0)
  {
    var x := st.file[d.pos..End(d)];
    var hdr := EncodeDesc(st.order, d);
    assert |hdr| == OBJECT_SIZE && End(d) == d.pos + OBJECT_SIZE + |data|;
    assert x[..OBJECT_SIZE] == hdr;
    assert HeaderMatches(st, d) by {
      SubSlice(st.file, d.pos, End(d), 0, OBJECT_SIZE);
      assert x[..OBJECT_SIZE] == x[0..OBJECT_SIZE];
      HeaderReads(st, d);
    }
    SubSlice(st.file, d.pos, End(d), OBJECT_SIZE, End(d) - d.pos);
    assert st.file[d.pos + OBJECT_SIZE..End(d)] == x[OBJECT_SIZE..];
  }

  /** bile_verify passes every entry of a catalog in file order, past the
      header, whose objects are in the file with their headers intact and
      non-empty payloads: Verify then returns 0. */
  lemma IntactVerifies(s: Store)
    requires Ordered(s.catalog) && AfterHeader(s.catalog)
    requires forall i :: 0 <= i < |s.catalog| ==>
      End(s.catalog[i]) <= |s.file| && s.catalog[i].size > 0 && HeaderMatches(s, s.catalog[i])
    ensures forall n :: 0 <= n < |s.catalog| ==> EntryVerifies(s, n)
  {
  }

  /** Conversely, a catalog bile_verify passes lists objects in ascending
      order: each starts past the previous one's position plus payload. */
  lemma {:induction false} VerifiedAscending(s: Store, i: nat, j: nat)
    requires forall n :: 0 <= n < |s.catalog| ==> EntryVerifies(s, n)
    requires i < j < |s.catalog|
    ensures s.catalog[i].pos + s.catalog[i].size < s.catalog[j].pos
    decreases j - i
  {
    assert EntryVerifies(s, j);
    if i + 1 < j {
      VerifiedAscending(s, i, j - 1);
      assert EntryVerifies(s, j - 1);
    }
  }

  lemma HeaderReads(st: Store, d: Desc)
    requires d.pos + OBJECT_SIZE <= |st.file|
    requires d.typ < U32_LIMIT && d.id < U32_LIMIT && d.size < U32_LIMIT
    requires st.file[d.pos..d.pos + OBJECT_SIZE] == EncodeDesc(st.order, d)
    ensures HeaderMatches(st, d)
  {
    var o := st.order;
    var a, b, c, e := EncodeU32(o, d.pos), EncodeU32(o, d.size), EncodeU32(o, d.typ), EncodeU32(o, d.id);
    assert st.file[d.pos..d.pos + OBJECT_SIZE] == a + b + c + e;
    DecodeFields(o, a, b, c, e);
    assert DecodeU32(o, b) == d.size by { U32RoundTripExact(o, d.size); }
    assert DecodeU32(o, c) == d.typ by { U32RoundTripExact(o, d.typ); }
    assert DecodeU32(o, e) == d.id by { U32RoundTripExact(o, d.id); }
  }

  /** When every host call succeeds, bile_write's store is bile_write_map's
      complete rewrite of the catalog it allocated in. */
  lemma WriteCompletes(s: Store, typ: nat, id: nat, data: seq<byte>, failAt: nat)
    requires InOrder(s)
    requires MemValid(s.catalog, s.mapPtr) && |data| > 0 && failAt >= 8
    ensures PlanMap(BeforeMap(s, typ, id, data)).Some?
    ensures var s1 := BeforeMap(s, typ, id, data);
            Write(s, typ, id, data, failAt) == Done(AfterMapSteps(s1, PlanMap(s1).value, 6), |data|, false)
  {
    var s1 := BeforeMap(s, typ, id, data);
    BeforeMapCovers(s, typ, id, data);
    BeforeMapInOrder(s, typ, id, data);
    PlanMapCatalog(s1);
    var p := PlanMap(s1).value;
    assert Min(failAt - 2, 6) == 6;
    assert WriteMap(s1, failAt - 2) == Done(AfterMapSteps(s1, p, 6), 0, false);
    assert WriteCore(s, typ, id, data, failAt) == Wrote(AfterMapSteps(s1, p, 6), |data|, |data|);
  }

  /** The masked flush: when the flush after the new map's contents fails
      (the fourth host call of bile_write), bile_write_map returns -1
      without setting `last_error`, so bile_write as written reports the
      full length although the header still points at the previous map and
      nothing on disk refers to the new object. The corrected Write
      reports 0. */
  lemma WriteMaskedFlush(s: Store, typ: nat, id: nat, data: seq<byte>)
    requires InOrder(s)
    requires MemValid(s.catalog, s.mapPtr) && |data| > 0
    ensures var w := WriteAsWritten(s, typ, id, data, 4);
            var c := Write(s, typ, id, data, 4);
            w.Done? && c.Done? && w.store == c.store &&
            w.ret == |data| && c.ret == 0 &&
            w.store.mapPtr == s.mapPtr && w.store.persisted == s.persisted
  {
    BeforeMapCovers(s, typ, id, data);
    FirstFlushMasked(BeforeMap(s, typ, id, data));
  }

  /** bile_write_map whose first flush fails: -1, `last_error` clear, and
      the header's map pointer as before. */
  lemma FirstFlushMasked(t: Store)
    requires InOrder(t)
    requires MemValid(t.catalog, t.mapPtr)
    ensures var r := WriteMap(t, 2);
            r.Done? && r.ret == -1 && !r.lastError && r.store.mapPtr == t.mapPtr && r.store.persisted == t.persisted
  {
    PlanMapCatalog(t);
    var p := PlanMap(t).value;
    assert MapSteps(t, p)[2] == Flush;
  }

  /** Read after write: when every host call of bile_write succeeds it
      returns the length, the new object is in the catalog, and reading it
      back returns the data. The type, id and length must fit the 32-bit
      fields of the on-disk header for its check to pass. */
  lemma WriteThenRead(s: Store, typ: nat, id: nat, data: seq<byte>, failAt: nat)
    requires InOrder(s)
    requires Valid(s) && |data| > 0 && failAt >= 8 && typ != TYPE_PURGE
    requires typ < U32_LIMIT && id < U32_LIMIT && |data| < U32_LIMIT
    ensures var r := Write(s, typ, id, data, failAt);
            var a := WriteAlloc(s, typ, id, |data|);
            r.Done? && r.ret == |data| && a.catalog[a.index] in r.store.catalog &&
            ReadObject(r.store, a.catalog[a.index], |data|) == ReadResult(|data|, data, 0)
  {
    var a := WriteAlloc(s, typ, id, |data|);
    var obj := a.catalog[a.index];
    var s1 := BeforeMap(s, typ, id, data);
    assert MemValid(s1.catalog, s1.mapPtr) by {
      BeforeMapCovers(s, typ, id, data);
    }
    WriteCompletes(s, typ, id, data, failAt);
    BeforeMapInOrder(s, typ, id, data);
    ObjectLands(s, typ, id, data);
    ObjectIsKept(s, typ, id, data);
    MapWriteKeepsObject(s1, obj, data);
  }

  /** A complete bile_write_map keeps an object that landed on disk in the
      catalog and readable. */
  lemma MapWriteKeepsObject(s1: Store, obj: Desc, data: seq<byte>)
    requires InOrder(s1)
    requires MemValid(s1.catalog, s1.mapPtr) && obj in s1.catalog && KeptEntry(obj, s1.mapPtr.pos)
    requires |data| > 0 && obj.size == |data| && End(obj) <= |s1.file|
    requires obj.typ < U32_LIMIT && obj.id < U32_LIMIT && obj.size < U32_LIMIT
    requires s1.file[obj.pos..obj.pos + OBJECT_SIZE] == EncodeDesc(s1.order, obj)
    requires s1.file[obj.pos + OBJECT_SIZE..End(obj)] == data
    ensures PlanMap(s1).Some?
    ensures var s2 := AfterMapSteps(s1, PlanMap(s1).value, 6);
            obj in s2.catalog && ReadObject(s2, obj, |data|) == ReadResult(|data|, data, 0)
  {
    NewMapKeeps(s1, obj);
    MapWriteKeepsBytes(s1, obj, data);
  }

  lemma MapWriteKeepsBytes(s1: Store, obj: Desc, data: seq<byte>)
    requires InOrder(s1)
    requires MemValid(s1.catalog, s1.mapPtr) && obj in s1.catalog
    requires |data| > 0 && obj.size == |data| && End(obj) <= |s1.file|
    requires obj.typ < U32_LIMIT && obj.id < U32_LIMIT && obj.size < U32_LIMIT
    requires s1.file[obj.pos..obj.pos + OBJECT_SIZE] == EncodeDesc(s1.order, obj)
    requires s1.file[obj.pos + OBJECT_SIZE..End(obj)] == data
    ensures PlanMap(s1).Some?
    ensures ReadObject(AfterMapSteps(s1, PlanMap(s1).value, 6), obj, |data|) == ReadResult(|data|, data, 0)
  {
    MapStepsSpare(s1, obj);
    var p := PlanMap(s1).value;
    var steps := MapSteps(s1, p);
    var s2 := AfterMapSteps(s1, p, 6);
    assert s2.file == Run(s1.file, steps) by {
      assert steps[..6] == steps;
    }
    LandedStays(s1, steps, s2, obj, data);
  }

  /** An object whose bytes the later steps leave alone still reads back. */
  lemma LandedStays(s1: Store, steps: seq<Step>, s2: Store, obj: Desc, data: seq<byte>)
    requires s2.file == Run(s1.file, steps) && s2.order == s1.order
    requires |data| > 0 && obj.size == |data| && End(obj) <= |s1.file|
    requires obj.typ < U32_LIMIT && obj.id < U32_LIMIT && obj.size < U32_LIMIT
    requires s1.file[obj.pos..obj.pos + OBJECT_SIZE] == EncodeDesc(s1.order, obj)
    requires s1.file[obj.pos + OBJECT_SIZE..End(obj)] == data
    requires forall m, i :: 0 <= m < |steps| && obj.pos <= i < End(obj) ==> !Touches(steps[m], i)
    ensures ReadObject(s2, obj, |data|) == ReadResult(|data|, data, 0)
  {
    RangeUntouched(s1.file, steps, obj.pos, End(obj));
    assert s1.file[obj.pos..End(obj)] == EncodeDesc(s1.order, obj) + data by {
      SplitSlice(s1.file, obj.pos, obj.pos + OBJECT_SIZE, End(obj));
    }
    ReadsBack(s2, obj, data);
  }

  lemma SplitSlice(s: seq<byte>, lo: nat, mid: nat, hi: nat)
    requires lo <= mid <= hi <= |s|
    ensures s[lo..hi] == s[lo..mid] + s[mid..hi]
  {
  }

  // ---------------------------------------------------------------------
  // Crash and reopen

  lemma SubSlice(s: seq<byte>, lo: nat, hi: nat, a: nat, b: nat)
    requires lo <= hi <= |s| && a <= b <= hi - lo
    ensures s[lo..hi][a..b] == s[lo + a..lo + b]
  {
    var x := s[lo..hi][a..b];
    assert |x| == b - a;
    assert forall i :: 0 <= i < b - a ==> x[i] == s[lo + a + i];
  }

  /** When bile_read_map succeeds, its checks held and it decoded the
      map's contents. */
  lemma ReadMapOk(order: ByteOrder, file: seq<byte>, ptr: Desc)
    requires ReadMap(order, file, ptr).MapOk?
    ensures End(ptr) <= |file| && ptr.size % OBJECT_SIZE == 0
    ensures var h := DecodeDesc(order, file[ptr.pos..ptr.pos + OBJECT_SIZE]); h.pos == ptr.pos && h.size == ptr.size
    ensures ReadMap(order, file, ptr) == MapOk(DecodeCatalog(order, file[ptr.pos + OBJECT_SIZE..End(ptr)]))
  {
  }

  /** When bile_read_map's checks hold it decodes the map's contents. */
  lemma ReadMapChecks(order: ByteOrder, file: seq<byte>, ptr: Desc)
    requires End(ptr) <= |file| && ptr.size % OBJECT_SIZE == 0
    requires var h := DecodeDesc(order, file[ptr.pos..ptr.pos + OBJECT_SIZE]); h.pos == ptr.pos && h.size == ptr.size
    ensures ReadMap(order, file, ptr) == MapOk(DecodeCatalog(order, file[ptr.pos + OBJECT_SIZE..End(ptr)]))
  {
  }

  /** bile_read_map reads only the map object. */
  lemma ReadMapFrame(order: ByteOrder, f: seq<byte>, g: seq<byte>, ptr: Desc)
    requires ReadMap(order, f, ptr).MapOk? && |f| <= |g| && End(ptr) <= |f|
    requires f[ptr.pos..End(ptr)] == g[ptr.pos..End(ptr)]
    ensures ReadMap(order, g, ptr) == ReadMap(order, f, ptr)
  {
    var lo, mid, hi := ptr.pos, ptr.pos + OBJECT_SIZE, End(ptr);
    ReadMapOk(order, f, ptr);
    assert f[lo..mid] == g[lo..mid] by {
      SubSlice(f, lo, hi, 0, OBJECT_SIZE);
      SubSlice(g, lo, hi, 0, OBJECT_SIZE);
    }
    assert f[mid..hi] == g[mid..hi] by {
      SubSlice(f, lo, hi, OBJECT_SIZE, hi - lo);
      SubSlice(g, lo, hi, OBJECT_SIZE, hi - lo);
    }
    ReadMapChecks(order, g, ptr);
  }

  /** Files that agree on a prefix agree on every slice inside it. */
  lemma PrefixSlice(f: seq<byte>, g: seq<byte>, n: nat, lo: nat, hi: nat)
    requires n <= |f| && n <= |g| && f[..n] == g[..n] && lo <= hi <= n
    ensures f[lo..hi] == g[lo..hi]
  {
    forall i | lo <= i < hi
      ensures f[i] == g[i]
    {
      assert f[..n][i] == g[..n][i];
    }
    SliceAgrees(f, g, lo, hi);
  }

  /** bile_open reads only the magic, the two map pointers and the map
      object: a file at least as long that agrees on those opens to the
      same store. */
  lemma OpenFrame(order: ByteOrder, ins: Insertion, f: seq<byte>, g: seq<byte>)
    requires Open(order, ins, f, false).Opened? && |f| <= |g|
    requires f[..OLD_MAP_PTR_OFFSET + OBJECT_SIZE] == g[..OLD_MAP_PTR_OFFSET + OBJECT_SIZE]
    requires var p := Open(order, ins, f, false).store.mapPtr;
             p.size != 0 ==> f[p.pos..End(p)] == g[p.pos..End(p)]
    ensures Open(order, ins, g, false) == Opened(Open(order, ins, f, false).store.(file := g))
  {
    var n := OLD_MAP_PTR_OFFSET + OBJECT_SIZE;
    PrefixSlice(f, g, n, 0, MAGIC_LEN);
    assert f[..MAGIC_LEN] == g[..MAGIC_LEN] by {
      assert f[..MAGIC_LEN] == f[0..MAGIC_LEN] && g[..MAGIC_LEN] == g[0..MAGIC_LEN];
    }
    PrefixSlice(f, g, n, MAP_PTR_OFFSET, MAP_PTR_OFFSET + OBJECT_SIZE);
    PrefixSlice(f, g, n, OLD_MAP_PTR_OFFSET, n);
    var p := Open(order, ins, f, false).store.mapPtr;
    if p.size != 0 {
      ReadMapFrame(order, f, g, p);
    }
  }

  /** Steps clear of the catalog leave what bile_open reads in place. */
  lemma ClearStepsKeepOpen(s: Store, steps: seq<Step>, k: nat)
    requires Valid(s) && k <= |steps|
    requires forall m :: 0 <= m < k ==> Clear(steps[m], s.catalog)
    requires Open(s.order, s.insertion, s.file, false).Opened? && Open(s.order, s.insertion, s.file, false).store.mapPtr == s.mapPtr
    ensures var g := Run(s.file, steps[..k]);
            Open(s.order, s.insertion, g, false) == Opened(Open(s.order, s.insertion, s.file, false).store.(file := g))
  {
    var g := Run(s.file, steps[..k]);
    forall i | 0 <= i < |s.file| && Protected(s, i)
      ensures g[i] == s.file[i]
    {
      PrefixClearKeeps(s, steps, k, k, i);
    }
    var hi := OLD_MAP_PTR_OFFSET + OBJECT_SIZE;
    SliceAgrees(s.file, g, 0, hi);
    assert s.file[..hi] == s.file[0..hi] && g[..hi] == g[0..hi];
    var p := s.mapPtr;
    if p.size != 0 {
      assert p.pos != 0;
      SliceAgrees(s.file, g, p.pos, End(p));
    }
    OpenFrame(s.order, s.insertion, s.file, g);
  }

  /** Crash safety as reopening sees it: if the host stops after any of the
      first five host calls of bile_write (everything before the new map
      pointer is written), opening the file gives the same map pointer and
      catalog as opening it before the write. */
  lemma CrashKeepsOpen(s: Store, typ: nat, id: nat, data: seq<byte>, k: nat)
    requires InOrder(s)
    requires Valid(s) && k <= 5
    requires Open(s.order, s.insertion, s.file, false).Opened? && Open(s.order, s.insertion, s.file, false).store.mapPtr == s.mapPtr
    ensures WriteSteps(s, typ, id, data).Some?
    ensures var g := Run(s.file, WriteSteps(s, typ, id, data).value[..k]);
            Open(s.order, s.insertion, g, false) == Opened(Open(s.order, s.insertion, s.file, false).store.(file := g))
  {
    WriteStepsClear(s, typ, id, data);
    ClearStepsKeepOpen(s, WriteSteps(s, typ, id, data).value, k);
  }
}

=== FILE: bile_store.dfy ===
/**
 A BILE store (struct bile): the file, the two header pointers, and the
 in-memory catalog, with the operations of bile.c over them.

 The file is an immutable byte sequence and its size is its length (the
 program re-reads the end-of-file mark after every write). Host calls are
 steps: `Put(pos, bytes)` is bile_xwriteat, `Flush` is bile_flush. Any host
 call may fail; an operation takes `failAt`, the number of its host calls
 that succeed before one fails (a value past the last call means none
 fails). A failed call has no effect, and the operation returns the way
 the program does at that point.
 */
module BileStore {
  import opened Bytes
  import opened Options
  import opened BileFormat
  import opened BileCatalog

  // ---------------------------------------------------------------------
  // Host steps

  /** bile_xwriteat's growth rule: the smallest multiple of ALLOCATE_SIZE
      strictly above `end`. */
  function GrowTo(end: nat): (t: nat)
    ensures t % ALLOCATE_SIZE == 0
    ensures end < t && t - ALLOCATE_SIZE <= end
  {
    end + ALLOCATE_SIZE - end % ALLOCATE_SIZE
  }

  /** bile_xwriteat: grow the file when the write reaches past its end (the
      new space reads as zeros), then overwrite `|data|` bytes at `pos`. */
  function XWriteAt(file: seq<byte>, pos: nat, data: seq<byte>): (r: seq<byte>)
    ensures pos + |data| <= |file| ==> |r| == |file|
    ensures pos + |data| > |file| ==> |r| == GrowTo(pos + |data|)
    ensures pos + |data| <= |r| && r[pos..pos + |data|] == data
    ensures forall i :: 0 <= i < |file| && !(pos <= i < pos + |data|) ==> r[i] == file[i]
    ensures forall i :: |file| <= i < |r| && !(pos <= i < pos + |data|) ==> r[i] == 0
  {
    var grown := if pos + |data| > |file| then file + Zeros(GrowTo(pos + |data|) - |file|) else file;
    grown[..pos] + data + grown[pos + |data|..]
  }

  datatype Step = Put(pos: nat, bytes: seq<byte>) | Flush

  function Apply(file: seq<byte>, step: Step): seq<byte> {
    match step
    case Put(pos, bytes) => XWriteAt(file, pos, bytes)
    case Flush => file
  }

  /** The file after the steps, in order. Files never shrink. */
  function Run(file: seq<byte>, steps: seq<Step>): (r: seq<byte>)
    ensures |file| <= |r|
    decreases |steps|
  {
    if steps == [] then file else Apply(Run(file, steps[..|steps| - 1]), steps[|steps| - 1])
  }

  // ---------------------------------------------------------------------
  // The store

  /** struct bile. `persisted` is the catalog the map object at `mapPtr`
      was written from (or read into at open): the program keeps no copy
      of it, it is the model's record of what the on-disk map says.
      `insertion` says whether bile_alloc inserts as the program does or
      with its one-entry case corrected. */
  datatype Store = Store(order: ByteOrder, insertion: Insertion, file: seq<byte>, mapPtr: Desc,
                         oldMapPtr: Desc, catalog: Catalog, persisted: Catalog)

  /** The stores on which the next allocation inserts where the corrected
      bile_alloc would: every store with the corrected insertion, and every
      catalog but a single entry with room in front of it. */
  predicate InOrder(s: Store) {
    s.insertion == Corrected || InsertsInOrder(s.catalog)
  }

  /** The outcome of an operation that writes: `Fault` where the program
      would write past a buffer or dereference NULL; otherwise the store,
      the return value and whether `last_error` is set on return. */
  datatype Outcome = Fault | Done(store: Store, ret: int, lastError: bool)

  // ---------------------------------------------------------------------
  // Reads

  /** The descriptor written in front of an object's payload. */
  function HeaderAt(s: Store, pos: nat): Desc
    requires pos + OBJECT_SIZE <= |s.file|
  {
    DecodeDesc(s.order, s.file[pos..pos + OBJECT_SIZE])
  }

  /** The on-disk header agrees with the descriptor on id, type and size
      (the position is not compared). */
  predicate HeaderMatches(s: Store, d: Desc)
    requires d.pos + OBJECT_SIZE <= |s.file|
  {
    var h := HeaderAt(s, d.pos);
    h.id == d.id && h.typ == d.typ && h.size == d.size
  }

  /** A read: bytes returned, the payload read, and the error left in
      `last_error`. */
  datatype ReadResult = ReadResult(count: nat, data: seq<byte>, error: int)

  /** bile_read_object. A zero `len` panics. A short payload read cannot
      happen here: the first check keeps the whole object inside the file. */
  function ReadObject(s: Store, d: Desc, len: nat): (r: ReadResult)
    requires len > 0
    ensures r.error == 0 || (r.error == ERR_BOGUS_OBJECT && r.count == 0 && r.data == [])
    ensures r.error == 0 <==> End(d) <= |s.file| && HeaderMatches(s, d)
    ensures r.error == 0 ==> r.count == Min(len, d.size) && |r.data| == r.count
    ensures r.error == 0 ==> r.data == s.file[d.pos + OBJECT_SIZE..d.pos + OBJECT_SIZE + r.count]
  {
    if End(d) > |s.file| then ReadResult(0, [], ERR_BOGUS_OBJECT)
    else if !HeaderMatches(s, d) then ReadResult(0, [], ERR_BOGUS_OBJECT)
    else
      var want := Min(len, d.size);
      ReadResult(want, s.file[d.pos + OBJECT_SIZE..d.pos + OBJECT_SIZE + want], 0)
  }

  /** bile_read: -1 when the catalog has no such object. */
  function Read(s: Store, typ: nat, id: nat, len: nat): (r: ReadResult)
    requires ObjectInMap(s.catalog, typ, id).Some? ==> len > 0
    ensures ObjectInMap(s.catalog, typ, id).None? ==> r == ReadResult(0, [], -1)
    ensures ObjectInMap(s.catalog, typ, id).Some? ==>
      r == ReadObject(s, s.catalog[ObjectInMap(s.catalog, typ, id).value], len)
  {
    match ObjectInMap(s.catalog, typ, id)
    case None => ReadResult(0, [], -1)
    case Some(i) => ReadObject(s, s.catalog[i], len)
  }

  /** bile_read_alloc: reads the whole object. Allocating zero bytes panics,
      so an empty object must not be asked for. */
  function ReadAlloc(s: Store, typ: nat, id: nat): (r: ReadResult)
    requires ObjectInMap(s.catalog, typ, id).Some? ==> s.catalog[ObjectInMap(s.catalog, typ, id).value].size > 0
    ensures ObjectInMap(s.catalog, typ, id).None? ==> r == ReadResult(0, [], -1)
    ensures ObjectInMap(s.catalog, typ, id).Some? ==>
      var d := s.catalog[ObjectInMap(s.catalog, typ, id).value];
      r == ReadObject(s, d, d.size) && (r.error == 0 ==> r.data == s.file[d.pos + OBJECT_SIZE..End(d)])
  {
    match ObjectInMap(s.catalog, typ, id)
    case None => ReadResult(0, [], -1)
    case Some(i) => ReadObject(s, s.catalog[i], s.catalog[i].size)
  }

  // ---------------------------------------------------------------------
  // The catalog rewrite

  /** What bile_write_map copies into the new map: every entry except
      tombstones and the map object the header points at, in order. */
  predicate KeptEntry(e: Desc, mapPos: nat) {
    e.typ != TYPE_PURGE && !(e.typ == TYPE_MAP && e.pos == mapPos)
  }

  function Kept(cat: Catalog, mapPos: nat): (r: Catalog)
    ensures |r| <= |cat|
    ensures forall e :: e in r <==> e in cat && KeptEntry(e, mapPos)
  {
    if cat == [] then []
    else (if KeptEntry(cat[0], mapPos) then [cat[0]] else []) + Kept(cat[1..], mapPos)
  }

  /** The index of the last map descriptor at `pos`: where
      `new_map_obj_in_new_map` ends up pointing. */
  function LastMapAt(ds: Catalog, pos: nat, n: nat): (r: Option<nat>)
    requires n <= |ds|
    ensures r.Some? ==> r.value < n && ds[r.value].typ == TYPE_MAP && ds[r.value].pos == pos
    ensures r.None? <==> forall j :: 0 <= j < n ==> !(ds[j].typ == TYPE_MAP && ds[j].pos == pos)
  {
    if n == 0 then None
    else if ds[n - 1].typ == TYPE_MAP && ds[n - 1].pos == pos then Some(n - 1)
    else LastMapAt(ds, pos, n - 1)
  }

  /** The number of map slots bile_write_map allocates: one more than the
      catalog when no map was ever written. */
  function NewCount(s: Store): nat {
    if s.mapPtr.pos != 0 then |s.catalog| else |s.catalog| + 1
  }

  /** The id of the new map object. */
  function NewMapId(s: Store): nat {
    if s.mapPtr.pos != 0 then s.mapPtr.id + 1 else 1
  }

  /** What bile_write_map builds in memory before any I/O: the catalog with
      the new map object allocated in it, that object's descriptor, and the
      new map contents, both descriptors shrunk to the copied count. */
  datatype MapPlan = MapPlan(catalog: Catalog, obj: Desc, newMap: Catalog)

  /** None where the program faults: allocating zero slots panics, copying
      more entries than slots overruns the buffer, and a new map that does
      not hold its own descriptor leaves a NULL pointer to write through. */
  function PlanMap(s: Store): (r: Option<MapPlan>)
    ensures r.Some? ==> |r.value.catalog| == |s.catalog| + 1
    ensures r.Some? ==> r.value.obj.typ == TYPE_MAP && r.value.obj.id == NewMapId(s)
    ensures r.Some? ==> r.value.obj.size == OBJECT_SIZE * |r.value.newMap|
    ensures r.Some? ==> |r.value.newMap| <= NewCount(s)
  {
    var n := NewCount(s);
    if n == 0 then None
    else
      var a := AllocBy(s.insertion, s.catalog, TYPE_MAP, NewMapId(s), OBJECT_SIZE * n);
      var kept := Kept(a.catalog, s.mapPtr.pos);
      if |kept| > n then None
      else
        match LastMapAt(kept, a.catalog[a.index].pos, |kept|)
        case None => None
        case Some(j) =>
          var obj := a.catalog[a.index].(size := OBJECT_SIZE * |kept|);
          Some(MapPlan(a.catalog[a.index := obj], obj, kept[j := kept[j].(size := obj.size)]))
  }

  /** The header pointers after the switch-over: the map pointer takes the
      new object's position, size and id; the old pointer takes the
      previous map pointer's. Their type fields are kept. */
  function NewMapPtr(s: Store, obj: Desc): Desc {
    s.mapPtr.(pos := obj.pos, size := obj.size, id := obj.id)
  }

  function NewOldMapPtr(s: Store): Desc {
    s.oldMapPtr.(pos := s.mapPtr.pos, size := s.mapPtr.size, id := s.mapPtr.id)
  }

  /** The six host calls of bile_write_map, in order: the new map's header,
      its contents, a flush, the map pointer at offset 5, the old map
      pointer at offset 21, a flush. */
  function MapSteps(s: Store, p: MapPlan): (r: seq<Step>)
    ensures |r| == 6 && r[2] == Flush && r[5] == Flush
    ensures r[0] == Put(p.obj.pos, EncodeDesc(s.order, p.obj))
    ensures r[1] == Put(p.obj.pos + OBJECT_SIZE, EncodeCatalog(s.order, p.newMap))
    ensures r[3].Put? && r[3].pos == MAP_PTR_OFFSET && r[4].Put? && r[4].pos == OLD_MAP_PTR_OFFSET
    ensures forall m :: 2 <= m < 6 && r[m].Put? ==> r[m].pos + |r[m].bytes| <= HEADER_LEN
  {
    [Put(p.obj.pos, EncodeDesc(s.order, p.obj)),
     Put(p.obj.pos + OBJECT_SIZE, EncodeCatalog(s.order, p.newMap)),
     Flush,
     Put(MAP_PTR_OFFSET, EncodeDesc(s.order, NewMapPtr(s, p.obj))),
     Put(OLD_MAP_PTR_OFFSET, EncodeDesc(s.order, NewOldMapPtr(s))),
     Flush]
  }

  /** The host call at `done` failed; `last_error` is set only when it was
      a write (bile_flush's result is not stored there). */
  predicate FailedOnPut(steps: seq<Step>, done: nat) {
    done < |steps| && steps[done].Put?
  }

  /** The store after `done` of the map steps succeeded: the memory is
      switched over once the first flush has succeeded. The new pointer
      takes the map descriptor's values; bile_write_map reads them after
      freeing the array that holds it, which this does not model. */
  function AfterMapSteps(s: Store, p: MapPlan, done: nat): (r: Store)
    requires done <= 6
    ensures r.file == Run(s.file, MapSteps(s, p)[..done])
    ensures done < 3 ==> r.catalog == p.catalog && r.mapPtr == s.mapPtr && r.persisted == s.persisted
    ensures done >= 3 ==> r.catalog == p.newMap && r.persisted == p.newMap
    ensures done >= 3 ==> r.mapPtr.pos == p.obj.pos && r.mapPtr.size == p.obj.size && r.mapPtr.id == p.obj.id
    ensures done >= 3 ==> r.oldMapPtr.pos == s.mapPtr.pos && r.oldMapPtr.size == s.mapPtr.size && r.oldMapPtr.id == s.mapPtr.id
  {
    var file := Run(s.file, MapSteps(s, p)[..done]);
    if done < 3 then s.(file := file, catalog := p.catalog)
    else s.(file := file, mapPtr := NewMapPtr(s, p.obj), oldMapPtr := NewOldMapPtr(s),
            catalog := p.newMap, persisted := p.newMap)
  }

  /** bile_write_map: 0 when all six host calls succeed, -1 otherwise. */
  function WriteMap(s: Store, failAt: nat): (r: Outcome)
    ensures r.Fault? <==> PlanMap(s).None?
    ensures r.Done? ==> (r.ret == 0 <==> failAt >= 6) && (r.ret == 0 || r.ret == -1)
    ensures r.Done? ==> r.lastError == FailedOnPut(MapSteps(s, PlanMap(s).value), failAt)
    ensures r.Done? ==> r.store.file == Run(s.file, MapSteps(s, PlanMap(s).value)[..Min(failAt, 6)])
  {
    match PlanMap(s)
    case None => Fault
    case Some(p) =>
      var done := Min(failAt, 6);
      Done(AfterMapSteps(s, p, done), if done == 6 then 0 else -1, FailedOnPut(MapSteps(s, p), done))
  }

  // ---------------------------------------------------------------------
  // Writes

  /** The tombstoning in bile_write and bile_delete: the newest entry with
      this type and id becomes PURGE; nothing else changes. */
  function Tombstone(cat: Catalog, typ: nat, id: nat): (r: Catalog)
    ensures |r| == |cat|
    ensures forall i :: 0 <= i < |cat| ==> r[i].pos == cat[i].pos && r[i].size == cat[i].size && r[i].id == cat[i].id
    ensures forall i :: 0 <= i < |cat| && ObjectInMap(cat, typ, id) != Some(i) ==> r[i] == cat[i]
    ensures ObjectInMap(cat, typ, id).Some? ==> r[ObjectInMap(cat, typ, id).value].typ == TYPE_PURGE
  {
    match ObjectInMap(cat, typ, id)
    case None => cat
    case Some(i) => cat[i := cat[i].(typ := TYPE_PURGE)]
  }

  /** The part of bile_write before its first host call: the tombstone and
      the allocation of the new object. */
  function WriteAlloc(s: Store, typ: nat, id: nat, len: nat): Allocation {
    AllocBy(s.insertion, Tombstone(s.catalog, typ, id), typ, id, len)
  }

  /** The store bile_write hands to bile_write_map. */
  function BeforeMap(s: Store, typ: nat, id: nat, data: seq<byte>): (r: Store)
    ensures r.catalog == WriteAlloc(s, typ, id, |data|).catalog
    ensures r.mapPtr == s.mapPtr && r.oldMapPtr == s.oldMapPtr && r.persisted == s.persisted && r.order == s.order
  {
    var a := WriteAlloc(s, typ, id, |data|);
    var obj := a.catalog[a.index];
    s.(file := Run(s.file, ObjectSteps(s, obj, data)), catalog := a.catalog)
  }

  /** The object's header and payload writes. */
  function ObjectSteps(s: Store, obj: Desc, data: seq<byte>): (r: seq<Step>)
    ensures |r| == 2 && r[0] == Put(obj.pos, EncodeDesc(s.order, obj))
    ensures r[1] == Put(obj.pos + OBJECT_SIZE, data)
  {
    [Put(obj.pos, EncodeDesc(s.order, obj)), Put(obj.pos + OBJECT_SIZE, data)]
  }

  /** Every host call bile_write makes when none fails: two for the object,
      six for the map. The map pointer is written by step 5. */
  function WriteSteps(s: Store, typ: nat, id: nat, data: seq<byte>): (r: Option<seq<Step>>)
    ensures r.Some? <==> PlanMap(BeforeMap(s, typ, id, data)).Some?
    ensures r.Some? ==> |r.value| == 8 && r.value[5].Put? && r.value[5].pos == MAP_PTR_OFFSET
  {
    var a := WriteAlloc(s, typ, id, |data|);
    var s1 := BeforeMap(s, typ, id, data);
    match PlanMap(s1)
    case None => None
    case Some(p) => Some(ObjectSteps(s, a.catalog[a.index], data) + MapSteps(s1, p))
  }

  /** bile_write's effect on the store, with the two return values: the
      one the program computes and the one its callers are promised. */
  datatype WriteOutcome = WriteFault | Wrote(store: Store, asWritten: int, promised: int)

  function WriteCore(s: Store, typ: nat, id: nat, data: seq<byte>, failAt: nat): (r: WriteOutcome)
    requires |data| > 0
  {
    var a := WriteAlloc(s, typ, id, |data|);
    var obj := a.catalog[a.index];
    if failAt < 2 then
      Wrote(s.(file := Run(s.file, ObjectSteps(s, obj, data)[..failAt]), catalog := a.catalog), 0, 0)
    else
      match WriteMap(BeforeMap(s, typ, id, data), failAt - 2)
      case Fault => WriteFault
      case Done(s2, ret, lastError) =>
        Wrote(s2, if lastError then 0 else |data|, if ret == 0 then |data| else 0)
  }

  /** bile_write as written: after bile_write_map it tests `last_error`,
      which a failed flush does not set, so it reports the full length
      although the header still points at the previous map. */
  function WriteAsWritten(s: Store, typ: nat, id: nat, data: seq<byte>, failAt: nat): (r: Outcome)
    requires |data| > 0
    ensures r.Fault? <==> WriteSteps(s, typ, id, data).None? && failAt >= 2
    ensures r.Done? ==> r.ret == 0 || r.ret == |data|
    ensures r.Done? && failAt >= 8 ==> r.ret == |data|
  {
    match WriteCore(s, typ, id, data, failAt)
    case WriteFault => Fault
    case Wrote(s2, ret, _) => Done(s2, ret, ret == 0)
  }

  /** bile_write with the result the header comment promises: the length
      only when the header, the payload and the whole map rewrite reached
      the file, 0 otherwise. Zero-length data panics. */
  function Write(s: Store, typ: nat, id: nat, data: seq<byte>, failAt: nat): (r: Outcome)
    requires |data| > 0
    ensures r.Fault? <==> WriteSteps(s, typ, id, data).None? && failAt >= 2
    ensures r.Done? ==> (r.ret == |data| <==> failAt >= 8) && (r.ret == 0 || r.ret == |data|)
  {
    match WriteCore(s, typ, id, data, failAt)
    case WriteFault => Fault
    case Wrote(s2, _, ret) => Done(s2, ret, ret == 0)
  }

  // ---------------------------------------------------------------------
  // Ids and deletion

  /** Every id of the type lies below 0xFFFFFFFF, so adding one to it does
      not wrap. */
  predicate IdsBelowMax(cat: Catalog, typ: nat) {
    forall i :: 0 <= i < |cat| && cat[i].typ == typ ==> cat[i].id < U32_LIMIT - 1
  }

  /** The first loop of bile_next_id: starting from 1, an entry of the type
      whose id is at least the value so far moves it to that id plus one,
      in 32 bits. Without wrap-around this is one more than the largest id
      of the type, at least 1. */
  function IdFloor(cat: Catalog, typ: nat): (b: nat)
    ensures b < U32_LIMIT
    ensures b == 1 || exists i :: 0 <= i < |cat| && cat[i].typ == typ && b == (cat[i].id + 1) % U32_LIMIT
    ensures IdsBelowMax(cat, typ) ==> b >= 1 && forall i :: 0 <= i < |cat| && cat[i].typ == typ ==> cat[i].id < b
    ensures IdsBelowMax(cat, typ) && b > 1 ==> exists i :: 0 <= i < |cat| && cat[i].typ == typ && cat[i].id == b - 1
  {
    if cat == [] then 1
    else
      var b := IdFloor(cat[..|cat| - 1], typ);
      var last := cat[|cat| - 1];
      if last.typ == typ && last.id >= b then (last.id + 1) % U32_LIMIT else b
  }

  /** The value of the type's HIGHESTID marker, when reading it yields the
      four bytes of an unsigned long. */
  function Marker(s: Store, typ: nat): (r: Option<nat>)
    ensures r.Some? ==> Read(s, TYPE_HIGHESTID, typ, 4).count == 4 && r.value < U32_LIMIT
    ensures r.None? <==> Read(s, TYPE_HIGHESTID, typ, 4).count != 4 || Read(s, TYPE_HIGHESTID, typ, 4).error != 0
  {
    var rd := Read(s, TYPE_HIGHESTID, typ, 4);
    if rd.count == 4 && rd.error == 0 then Some(DecodeU32(s.order, rd.data)) else None
  }

  /** The last step of bile_next_id: a marker strictly above the loop's
      value replaces it with the marker plus one, in 32 bits. Without
      wrap-around the result is at least the floor and at least the marker,
      but it equals the marker when the floor does. */
  function FromMarker(floor: nat, marker: Option<nat>): (id: nat)
    requires floor < U32_LIMIT
    ensures id < U32_LIMIT
    ensures id == floor || (marker.Some? && marker.value > floor && id == (marker.value + 1) % U32_LIMIT)
    ensures marker.Some? && marker.value < U32_LIMIT - 1 ==> floor <= id && marker.value <= id
    ensures marker.Some? && marker.value < U32_LIMIT - 1 && marker.value != floor ==> marker.value < id
  {
    match marker
    case Some(m) => if m > floor then (m + 1) % U32_LIMIT else floor
    case None => floor
  }

  /** bile_next_id: the loop's value over the catalog, then the marker
      step. When no id of the type and no marker is 0xFFFFFFFF, the id is
      at least 1, above every id of the type in the catalog, and not below
      the marker. */
  method NextId(s: Store, typ: nat) returns (id: nat)
    ensures id == FromMarker(IdFloor(s.catalog, typ), Marker(s, typ))
    ensures IdsBelowMax(s.catalog, typ) && (Marker(s, typ).Some? ==> Marker(s, typ).value < U32_LIMIT - 1) ==>
      id >= 1 && (forall i :: 0 <= i < |s.catalog| && s.catalog[i].typ == typ ==> s.catalog[i].id < id) &&
      (Marker(s, typ).Some? ==> Marker(s, typ).value <= id)
  {
    var floor := IdScan(s.catalog, typ);
    var marker := Marker(s, typ);
    id := FromMarker(floor, marker);
    NextIdBounds(s.catalog, typ, marker);
  }

  /** The loop of bile_next_id over the catalog. */
  method IdScan(cat: Catalog, typ: nat) returns (id: nat)
    ensures id == IdFloor(cat, typ)
  {
    id := 1;
    var n := 0;
    while n < |cat|
      invariant n <= |cat|
      invariant id == IdFloor(cat[..n], typ)
    {
      IdFloorStep(cat, n, typ);
      if cat[n].typ == typ && cat[n].id >= id {
        id := (cat[n].id + 1) % U32_LIMIT;
      }
      n := n + 1;
    }
    assert cat[..n] == cat;
  }

  /** One more entry of the catalog takes the loop of bile_next_id one
      step further. */
  lemma IdFloorStep(cat: Catalog, n: nat, typ: nat)
    requires n < |cat|
    ensures var b := IdFloor(cat[..n], typ);
            IdFloor(cat[..n + 1], typ) == if cat[n].typ == typ && cat[n].id >= b then (cat[n].id + 1) % U32_LIMIT else b
  {
    assert cat[..n + 1][..n] == cat[..n];
  }

  /** Away from 2^32, the marker step keeps the loop's bounds. */
  lemma NextIdBounds(cat: Catalog, typ: nat, marker: Option<nat>)
    ensures var id := FromMarker(IdFloor(cat, typ), marker);
            IdsBelowMax(cat, typ) && (marker.Some? ==> marker.value < U32_LIMIT - 1) ==>
              id >= 1 && (forall i :: 0 <= i < |cat| && cat[i].typ == typ ==> cat[i].id < id) &&
              (marker.Some? ==> marker.value <= id)
  {
    var b := IdFloor(cat, typ);
    var id := FromMarker(b, marker);
    if IdsBelowMax(cat, typ) && (marker.Some? ==> marker.value < U32_LIMIT - 1) {
      assert b >= 1 && b <= id;
    }
  }

  /** No other entry of the type carries an id above `id`: the test that
      decides whether bile_delete stores a marker. */
  predicate IsHighest(cat: Catalog, typ: nat, id: nat) {
    forall i :: 0 <= i < |cat| && cat[i].typ == typ ==> cat[i].id <= id
  }

  /** bile_delete, as to the catalog and the header: -1 when there is no
      such object; otherwise the entry is tombstoned and either a HIGHESTID
      marker holding `id` is written (when no entry of the type has a
      larger id; the result is then 0 whatever bile_write did) or the map
      is rewritten (-1 only when a host write failed). The zero-fill of the
      old extent is not modelled. */
  function Delete(s: Store, typ: nat, id: nat, failAt: nat): (r: Outcome)
    ensures ObjectInMap(s.catalog, typ, id).None? ==> r == Done(s, -1, true)
    ensures r.Done? && ObjectInMap(s.catalog, typ, id).Some? ==> r.ret == 0 || r.ret == -1
    ensures r.Done? && ObjectInMap(s.catalog, typ, id).Some? && IsHighest(s.catalog, typ, id) ==> r.ret == 0
    ensures ObjectInMap(s.catalog, typ, id).Some? ==>
      var t := s.(catalog := Tombstone(s.catalog, typ, id));
      if IsHighest(t.catalog, typ, id) then
        var w := WriteAsWritten(t, TYPE_HIGHESTID, typ, EncodeU32(s.order, id), failAt);
        (r.Fault? <==> w.Fault?) && (r.Done? ==> r.ret == 0 && r.store == w.store && r.lastError == w.lastError)
      else
        var w := WriteMap(t, failAt);
        (r.Fault? <==> w.Fault?) && (r.Done? ==> r.store == w.store && r.lastError == w.lastError && (r.ret == -1 <==> r.lastError))
  {
    match ObjectInMap(s.catalog, typ, id)
    case None => Done(s, -1, true)
    case Some(i) =>
      var s1 := s.(catalog := Tombstone(s.catalog, typ, id));
      if IsHighest(s1.catalog, typ, id) then
        match WriteAsWritten(s1, TYPE_HIGHESTID, typ, EncodeU32(s.order, id), failAt)
        case Fault => Fault
        case Done(s2, _, lastError) => Done(s2, 0, lastError)
      else
        match WriteMap(s1, failAt)
        case Fault => Fault
        case Done(s2, _, lastError) => Done(s2, if lastError then -1 else 0, lastError)
  }

  // ---------------------------------------------------------------------
  // Create and open

  /** bile_create: a 256-byte header with an empty map pointer of type
      MAPPTR; nothing else. */
  function Create(order: ByteOrder, insertion: Insertion): (s: Store)
    ensures |s.file| == HEADER_LEN && s.file[..MAGIC_LEN] == MAGIC
    ensures s.catalog == [] && s.mapPtr == Desc(0, 0, TYPE_MAPPTR, 0) && s.oldMapPtr == ZERO_DESC
  {
    Store(order, insertion, CreateHeader(order), Desc(0, 0, TYPE_MAPPTR, 0), ZERO_DESC, [], [])
  }

  /** Why bile_open returned NULL. */
  datatype OpenError =
    | NeedUpgrade   // a BILE1 magic
    | BadMagic      // any other magic
    | ShortRead     // the host read hit the end of the file
    | NoOldMap      // recovery asked for, but no previous map
    | BadMap        // the map pointer fails bile_read_map's checks

  /** What bile_error() reports after the failure; None for a host read
      error, whose code comes from the host. */
  function ErrorCode(e: OpenError): Option<int> {
    match e
    case NeedUpgrade => Some(ERR_NEED_UPGRADE_1)
    case BadMagic => Some(-1)
    case ShortRead => None
    case NoOldMap => Some(0)
    case BadMap => Some(0)
  }

  datatype OpenResult = OpenFailed(error: OpenError) | Opened(store: Store)

  /** bile_read_map: the pointed-to object must lie within the file
      (counting its payload only), have a size that is a multiple of 16,
      and carry a header with the same position and size. */
  function ReadMap(order: ByteOrder, file: seq<byte>, ptr: Desc): (r: MapRead)
    ensures r.MapOk? ==> ptr.pos + OBJECT_SIZE + ptr.size <= |file| && ptr.size % OBJECT_SIZE == 0
    ensures r.MapOk? ==> |r.value| == ptr.size / OBJECT_SIZE
    ensures r.MapOk? ==> EncodeCatalog(order, r.value) == file[ptr.pos + OBJECT_SIZE..ptr.pos + OBJECT_SIZE + ptr.size]
    ensures ptr.pos + ptr.size > |file| || ptr.size % OBJECT_SIZE != 0 ==> r == MapFailed(BadMap)
  {
    if ptr.pos + ptr.size > |file| then MapFailed(BadMap)
    else if ptr.size % OBJECT_SIZE != 0 then MapFailed(BadMap)
    else if ptr.pos + OBJECT_SIZE > |file| then MapFailed(ShortRead)
    else
      var h := DecodeDesc(order, file[ptr.pos..ptr.pos + OBJECT_SIZE]);
      if h.pos != ptr.pos || h.size != ptr.size then MapFailed(BadMap)
      else if ptr.pos + OBJECT_SIZE + ptr.size > |file| then MapFailed(ShortRead)
      else
        var bytes := file[ptr.pos + OBJECT_SIZE..ptr.pos + OBJECT_SIZE + ptr.size];
        EncodeDecodeCatalog(order, bytes);
        MapOk(DecodeCatalog(order, bytes))
  }

  datatype MapRead = MapOk(value: Catalog) | MapFailed(error: OpenError)

  /** bile_open (`recover` false) and the open inside bile_open_recover_map
      (`recover` true, which reads the map the old pointer names). */
  function Open(order: ByteOrder, insertion: Insertion, file: seq<byte>, recover: bool): (r: OpenResult)
    ensures |file| >= MAGIC_LEN && file[..MAGIC_LEN] != MAGIC ==>
      r == OpenFailed(if file[..MAGIC_LEN] == LEGACY_MAGIC then NeedUpgrade else BadMagic)
    ensures r.Opened? ==> |file| >= OLD_MAP_PTR_OFFSET + OBJECT_SIZE && file[..MAGIC_LEN] == MAGIC && r.store.file == file
    ensures r.Opened? ==> r.store.catalog == r.store.persisted && r.store.order == order && r.store.insertion == insertion
    ensures r.Opened? && r.store.mapPtr.size != 0 ==> |r.store.catalog| == r.store.mapPtr.size / OBJECT_SIZE
    ensures r.Opened? && r.store.mapPtr.size == 0 ==> r.store.catalog == []
  {
    if |file| < MAGIC_LEN then OpenFailed(ShortRead)
    else if file[..MAGIC_LEN] != MAGIC then
      OpenFailed(if file[..MAGIC_LEN] == LEGACY_MAGIC then NeedUpgrade else BadMagic)
    else if |file| < OLD_MAP_PTR_OFFSET + OBJECT_SIZE then OpenFailed(ShortRead)
    else
      var ptr := DecodeDesc(order, file[MAP_PTR_OFFSET..MAP_PTR_OFFSET + OBJECT_SIZE]);
      var prev := DecodeDesc(order, file[OLD_MAP_PTR_OFFSET..OLD_MAP_PTR_OFFSET + OBJECT_SIZE]);
      if recover && prev.size == 0 then OpenFailed(NoOldMap)
      else
        var ptr := if recover then prev else ptr;
        if ptr.size == 0 then Opened(Store(order, insertion, file, ptr, prev, [], []))
        else
          match ReadMap(order, file, ptr)
          case MapFailed(e) => OpenFailed(e)
          case MapOk(cat) => Opened(Store(order, insertion, file, ptr, prev, cat, cat))
  }

  datatype RecoverResult = RecoverFailed(error: OpenError) | Recovered(outcome: Outcome)

  /** bile_open_recover_map: open on the old map pointer, then rewrite the
      map from it. The store is returned whatever the rewrite reports. */
  function OpenRecover(order: ByteOrder, insertion: Insertion, file: seq<byte>, failAt: nat): (r: RecoverResult)
    ensures Open(order, insertion, file, true).OpenFailed? <==> r.RecoverFailed?
    ensures r.Recovered? ==> r.outcome == WriteMap(Open(order, insertion, file, true).store, failAt)
    ensures r.Recovered? ==> Open(order, insertion, file, true).store.mapPtr == Open(order, insertion, file, true).store.oldMapPtr
  {
    match Open(order, insertion, file, true)
    case OpenFailed(e) => RecoverFailed(e)
    case Opened(s) => Recovered(WriteMap(s.(mapPtr := s.oldMapPtr), failAt))
  }

  // ---------------------------------------------------------------------
  // bile_verify

  /** The end bile_verify's position check uses: position plus payload,
      the 16 header bytes not counted. */
  function VerifyFloor(cat: Catalog, n: nat): nat
    requires n <= |cat|
  {
    if n == 0 then 0 else cat[n - 1].pos + cat[n - 1].size
  }

  /** Entry `n` passes bile_verify: its header checks out, its payload is
      not empty, and it starts past the previous entry's floor. */
  predicate EntryVerifies(s: Store, n: nat)
    requires n < |s.catalog|
  {
    ReadObject(s, s.catalog[n], 1).error == 0 && s.catalog[n].size > 0 && s.catalog[n].pos > VerifyFloor(s.catalog, n)
  }

  /** bile_verify: 0 when every entry verifies; otherwise the read error
      of the first entry whose header does not check out, or -1. */
  method Verify(s: Store) returns (r: int)
    ensures r == 0 <==> forall n :: 0 <= n < |s.catalog| ==> EntryVerifies(s, n)
    ensures r == 0 || r == -1 || r == ERR_BOGUS_OBJECT
  {
    var pos := 0;
    var n := 0;
    while n < |s.catalog|
      invariant n <= |s.catalog| && pos == VerifyFloor(s.catalog, n)
      invariant forall k :: 0 <= k < n ==> EntryVerifies(s, k)
    {
      var rd := ReadObject(s, s.catalog[n], 1);
      if rd.error != 0 {
        assert !EntryVerifies(s, n);
        return rd.error;
      } else if rd.count == 0 {
        assert !EntryVerifies(s, n);
        return -1;
      }
      if s.catalog[n].pos <= pos {
        assert !EntryVerifies(s, n);
        return -1;
      }
      pos := s.catalog[n].pos + s.catalog[n].size;
      n := n + 1;
    }
    return 0;
  }
}

=== FILE: bytes.dfy ===
/**
 Bytes, fixed-width unsigned integers and their encodings.

 The C program runs on a 16-bit host whose C compiler has a 16-bit
 `word`, a 32-bit `long` and a 32-bit `size_t`. Integers here are unbounded;
 the widths are carried by the `U16`/`U32` subset types and every place the
 program wraps or truncates says so explicitly.
 */
module Bytes {

  type byte = x: int | 0 <= x < 256

  const U16_LIMIT: int := 0x1_0000
  const U32_LIMIT: int := 0x1_0000_0000
  /** SIZE_MAX of the host (util.h defines it as ULONG_MAX, 32 bits). */
  const SIZE_MAX: int := U32_LIMIT - 1

  type U16 = x: int | 0 <= x < U16_LIMIT
  type U32 = x: int | 0 <= x < U32_LIMIT

  function Min(a: nat, b: nat): nat {
    if a <= b then a else b
  }

  /** The order in which the host lays out the bytes of a raw `unsigned long`. */
  datatype ByteOrder = BigEndian | LittleEndian

  /** The ASCII bytes of a string literal. */
  function Ascii(s: string): (r: seq<byte>)
    requires forall i :: 0 <= i < |s| ==> s[i] as int < 256
    ensures |r| == |s|
    ensures forall i :: 0 <= i < |r| ==> r[i] == s[i] as int
  {
    seq(|s|, i requires 0 <= i < |s| => s[i] as int)
  }

  /** `n` zero bytes. */
  function Zeros(n: nat): (r: seq<byte>)
    ensures |r| == n
    ensures forall i :: 0 <= i < n ==> r[i] == 0
  {
    seq(n, i => 0)
  }

  /** Big-endian two-byte encoding, as `(v >> 8) & 0xff, v & 0xff`. */
  function Be16(v: int): (r: seq<byte>)
    ensures |r| == 2
  {
    [(v / 256) % 256, v % 256]
  }

  /** `(data[0] << 8) | data[1]` */
  function ReadBe16(bs: seq<byte>): (v: U16)
    requires |bs| >= 2
  {
    (bs[0] as int) * 256 + bs[1] as int
  }

  /** Big-endian four-byte encoding, as `(v >> 24) & 0xff, ... , v & 0xff`. */
  function Be32(v: int): (r: seq<byte>)
    ensures |r| == 4
  {
    [(v / 0x100_0000) % 256, (v / 0x1_0000) % 256, (v / 256) % 256, v % 256]
  }

  /** `(data[0] << 24) | (data[1] << 16) | (data[2] << 8) | data[3]` */
  function ReadBe32(bs: seq<byte>): (v: U32)
    requires |bs| >= 4
  {
    (bs[0] as int) * 0x100_0000 + (bs[1] as int) * 0x1_0000 + (bs[2] as int) * 256 + bs[3] as int
  }

  lemma Be16RoundTrip(v: U16)
    ensures ReadBe16(Be16(v)) == v
  {
  }

  lemma Be32RoundTrip(v: U32)
    ensures ReadBe32(Be32(v)) == v
  {
    var b0, b1, b2, b3 := v / 0x100_0000, (v / 0x1_0000) % 256, (v / 256) % 256, v % 256;
    assert v / 0x1_0000 == b0 * 256 + b1;
    assert v / 256 == (v / 0x1_0000) * 256 + b2;
    assert v == (v / 256) * 256 + b3;
  }

  /** A raw `unsigned long` in the host's byte order; the value is truncated
      to 32 bits, as storing it in the C field does. */
  function EncodeU32(order: ByteOrder, v: int): (r: seq<byte>)
    ensures |r| == 4
  {
    var be := Be32(v % U32_LIMIT);
    match order
    case BigEndian => be
    case LittleEndian => [be[3], be[2], be[1], be[0]]
  }

  function DecodeU32(order: ByteOrder, bs: seq<byte>): (v: U32)
    requires |bs| == 4
  {
    match order
    case BigEndian => ReadBe32(bs)
    case LittleEndian => ReadBe32([bs[3], bs[2], bs[1], bs[0]])
  }

  /** Decoding what was encoded gives back the value reduced to 32 bits. */
  lemma U32RoundTrip(order: ByteOrder, v: int)
    ensures DecodeU32(order, EncodeU32(order, v)) == v % U32_LIMIT
  {
    Be32RoundTrip(v % U32_LIMIT);
    var be := Be32(v % U32_LIMIT);
    if order == LittleEndian {
      assert [be[3], be[2], be[1], be[0]][3] == be[0];
      assert [[be[3], be[2], be[1], be[0]][3], [be[3], be[2], be[1], be[0]][2],
              [be[3], be[2], be[1], be[0]][1], [be[3], be[2], be[1], be[0]][0]] == be;
    }
  }

  /** A 32-bit value survives the round trip unchanged. */
  lemma U32RoundTripExact(order: ByteOrder, v: U32)
    ensures DecodeU32(order, EncodeU32(order, v)) == v
  {
    assert v % U32_LIMIT == v;
    U32RoundTrip(order, v);
  }

  lemma Be32Decoded(bs: seq<byte>)
    requires |bs| == 4
    ensures Be32(ReadBe32(bs)) == bs
  {
    var b0, b1, b2, b3 := bs[0] as int, bs[1] as int, bs[2] as int, bs[3] as int;
    var v := ReadBe32(bs);
    assert v == ((b0 * 256 + b1) * 256 + b2) * 256 + b3;
    assert v % 256 == b3 && v / 256 == (b0 * 256 + b1) * 256 + b2;
    assert (v / 256) % 256 == b2 && (v / 256) / 256 == b0 * 256 + b1;
    assert v / 0x1_0000 == (v / 256) / 256;
    assert v / 0x100_0000 == ((v / 256) / 256) / 256;
  }

  /** Every four bytes are the encoding of the value they decode to. */
  lemma U32Decoded(order: ByteOrder, bs: seq<byte>)
    requires |bs| == 4
    ensures EncodeU32(order, DecodeU32(order, bs)) == bs
  {
    var v := DecodeU32(order, bs);
    assert v % U32_LIMIT == v;
    match order
    case BigEndian =>
      Be32Decoded(bs);
    case LittleEndian =>
      var rev := [bs[3], bs[2], bs[1], bs[0]];
      Be32Decoded(rev);
      var be := Be32(v);
      assert be == rev;
      assert EncodeU32(order, v) == [be[3], be[2], be[1], be[0]];
  }

  /** Encoding is injective on 32-bit values, in either byte order. */
  lemma U32EncodeInjective(order: ByteOrder, v: U32, w: U32)
    requires EncodeU32(order, v) == EncodeU32(order, w)
    ensures v == w
  {
    U32RoundTripExact(order, v);
    U32RoundTripExact(order, w);
  }
}

=== FILE: ctype.dfy ===
/**
 C strings and the ASCII `<ctype.h>` classes the program relies on. A C
 string is modelled as the bytes before its terminating NUL; reading past
 the end yields the NUL, as reading the terminator would. `char` is taken to
 be unsigned, so bytes compare as 0..255.
 */
module CType {
  import opened Bytes

  const NUL: byte := 0
  const CR: byte := 13
  const SPACE: byte := 32
  const ZERO: byte := 48
  const NINE: byte := 57

  /** A C string holds no NUL of its own. */
  predicate NoNul(s: seq<byte>) {
    forall i :: 0 <= i < |s| ==> s[i] != NUL
  }

  /** The C string stored in a buffer: the bytes before its first NUL. */
  function UpToNul(s: seq<byte>): (r: seq<byte>)
    ensures |r| <= |s| && r == s[..|r|] && NoNul(r)
    ensures |r| < |s| ==> s[|r|] == NUL
  {
    if |s| == 0 || s[0] == NUL then [] else [s[0]] + UpToNul(s[1..])
  }

  /** A buffer without a NUL holds exactly its own bytes as a C string. */
  lemma {:induction false} UpToNulOfString(s: seq<byte>)
    requires NoNul(s)
    ensures UpToNul(s) == s
  {
    if |s| > 0 {
      UpToNulOfString(s[1..]);
    }
  }

  /** A string followed by its terminator reads back as itself, whatever
      lies after the terminator. */
  lemma {:induction false} UpToNulTerminated(p: seq<byte>, rest: seq<byte>)
    requires NoNul(p)
    ensures UpToNul(p + [NUL] + rest) == p
  {
    if p != [] {
      assert (p + [NUL] + rest)[1..] == p[1..] + [NUL] + rest;
      UpToNulTerminated(p[1..], rest);
    }
  }

  /** The string in a buffer ends at the first NUL, or at the buffer's end. */
  lemma UpToNulLength(s: seq<byte>, d: nat)
    requires d <= |s| && NoNul(s[..d]) && (d == |s| || s[d] == NUL)
    ensures |UpToNul(s)| == d
  {
    var r := UpToNul(s);
    assert forall i :: 0 <= i < d ==> s[..d][i] == s[i];
  }

  /** The bytes of the CR-terminated line at the front of `s`: up to the first
      carriage return, or all of them. */
  function LineOf(s: seq<byte>): (r: seq<byte>)
    ensures |r| <= |s| && r == s[..|r|] && CR !in r
    ensures |r| < |s| ==> s[|r|] == CR
  {
    if s == [] || s[0] == CR then [] else [s[0]] + LineOf(s[1..])
  }

  lemma LineOfAt(s: seq<byte>, i: nat)
    requires i <= |s| && CR !in s[..i] && (i == |s| || s[i] == CR)
    ensures LineOf(s) == s[..i]
  {
    var r := LineOf(s);
    assert forall k :: 0 <= k < i ==> s[..i][k] == s[k];
    assert forall k :: 0 <= k < |r| ==> r[k] == s[k];
  }

  /** A line followed by its carriage return reads back as itself, whatever
      comes after. */
  lemma {:induction false} LineOfTerminated(line: seq<byte>, rest: seq<byte>)
    requires CR !in line
    ensures LineOf(line + [CR] + rest) == line
  {
    if line != [] {
      assert (line + [CR] + rest)[1..] == line[1..] + [CR] + rest;
      LineOfTerminated(line[1..], rest);
    }
  }

  /** The byte at the front, the terminator once the string is used up. */
  function Head(s: seq<byte>): (c: byte)
    ensures c != NUL ==> |s| > 0 && c == s[0]
  {
    if |s| == 0 then NUL else s[0]
  }

  /** isdigit: '0' to '9'. */
  predicate IsDigit(c: byte) {
    ZERO <= c <= NINE
  }

  /** isspace: space, and tab to carriage return. */
  predicate IsSpace(c: byte) {
    c == SPACE || 9 <= c <= 13
  }

  predicate IsLower(c: byte) {
    97 <= c <= 122
  }

  /** toupper: lower-case letters to upper case, every other byte as is. */
  function ToUpper(c: byte): (u: byte)
    ensures IsLower(c) ==> u + 32 == c
    ensures !IsLower(c) ==> u == c
  {
    if IsLower(c) then c - 32 else c
  }

  /** toupper applied to every byte. */
  function UpperAll(s: seq<byte>): (r: seq<byte>)
    ensures |r| == |s|
    ensures forall i :: 0 <= i < |s| ==> r[i] == ToUpper(s[i])
  {
    if s == [] then [] else [ToUpper(s[0])] + UpperAll(s[1..])
  }

  /** Upper-casing keeps the classes the comparisons look at: the NUL, the
      digits and the white space are unchanged, nothing else becomes one of
      them, and a second pass changes nothing. */
  lemma ToUpperKeepsClasses(c: byte)
    ensures ToUpper(c) == NUL <==> c == NUL
    ensures IsDigit(ToUpper(c)) <==> IsDigit(c)
    ensures IsSpace(ToUpper(c)) <==> IsSpace(c)
    ensures IsDigit(c) || IsSpace(c) ==> ToUpper(c) == c
    ensures ToUpper(ToUpper(c)) == ToUpper(c)
  {
  }
}

=== FILE: diff_format.dfy ===
/**
 The line-range texts of diffreg.c's output: `range` for the normal and
 context formats and `uni_range` for the unified hunk header. Each is the
 text `diff_output` would receive, built from printf's `%ld`.
 */
module DiffFormat {
  import opened Options
  import opened Seqs

  function DigitChar(d: nat): (c: char)
    requires d < 10
    ensures '0' <= c <= '9'
  {
    ('0' as int + d) as char
  }

  predicate AllDigits(s: string) {
    forall i :: 0 <= i < |s| ==> '0' <= s[i] <= '9'
  }

  /** The decimal digits of `n`, most significant first, with no leading
      zero. */
  function Digits(n: nat): (r: string)
    ensures |r| >= 1 && AllDigits(r)
  {
    if n < 10 then [DigitChar(n)] else Digits(n / 10) + [DigitChar(n % 10)]
  }

  /** `%ld`: a minus sign before the digits of a negative value. */
  function Decimal(v: int): (r: string)
    ensures |r| >= 1 && r[0] != ','
    ensures forall i :: 0 <= i < |r| ==> r[i] == '-' || '0' <= r[i] <= '9'
  {
    if v < 0 then "-" + Digits(-v) else Digits(v)
  }

  // ---------------------------------------------------------------------
  // Reading numbers back

  /** The value of a string of decimal digits. */
  function DigitsValue(s: string): nat
    requires AllDigits(s)
  {
    if s == [] then 0
    else
      assert '0' <= s[|s| - 1] <= '9';
      DigitsValue(s[..|s| - 1]) * 10 + (s[|s| - 1] as int - '0' as int)
  }

  /** A signed decimal, as `%ld` in a scanf would read a whole field. */
  function ParseDecimal(s: string): Option<int> {
    if |s| > 1 && s[0] == '-' && AllDigits(s[1..]) then Some(-(DigitsValue(s[1..]) as int))
    else if |s| > 0 && AllDigits(s) then Some(DigitsValue(s))
    else None
  }

  lemma {:induction false} DigitsRoundTrip(n: nat)
    ensures DigitsValue(Digits(n)) == n
  {
    if n >= 10 {
      var d := Digits(n / 10) + [DigitChar(n % 10)];
      assert d[..|d| - 1] == Digits(n / 10);
      DigitsRoundTrip(n / 10);
    }
  }

  /** `%ld` reads back as the value it printed. */
  lemma DecimalRoundTrip(v: int)
    ensures ParseDecimal(Decimal(v)) == Some(v)
  {
    if v < 0 {
      var d := Digits(-v);
      assert Decimal(v) == "-" + d;
      ParseNegative(d);
      DigitsRoundTrip(-v);
    } else {
      var d := Digits(v);
      assert Decimal(v) == d;
      ParseNonNegative(d);
      DigitsRoundTrip(v);
    }
  }

  lemma ParseNegative(d: string)
    requires |d| >= 1 && AllDigits(d)
    ensures ParseDecimal("-" + d) == Some(-(DigitsValue(d) as int))
  {
    var s := "-" + d;
    assert s[0] == '-' && s[1..] == d;
  }

  lemma ParseNonNegative(d: string)
    requires |d| >= 1 && AllDigits(d)
    ensures ParseDecimal(d) == Some(DigitsValue(d))
  {
    assert d[0] != '-';
  }

  /** Two fields joined by a character that is not in the first split back
      into those fields. */
  lemma SplitAt(x: string, c: char, y: string)
    requires c !in x
    ensures var s := x + [c] + y; FirstIndex(s, c) == |x| && s[..|x|] == x && s[|x| + 1..] == y
  {
    var s := x + [c] + y;
    assert s[|x|] == c;
    assert forall i :: 0 <= i < |x| ==> s[i] == x[i];
  }

  /** Neither a separator nor a comma appears in a printed number. */
  lemma NotInDecimal(v: int, c: char)
    requires c != '-' && !('0' <= c <= '9')
    ensures c !in Decimal(v)
  {
  }

  // ---------------------------------------------------------------------
  // range and uni_range

  /** range: the smaller end, then the separator and `b` only when `a`
      lies before `b`. */
  function Range(a: int, b: int, separator: string): (r: string)
    ensures Decimal(if a > b then b else a) <= r
    ensures a >= b ==> r == Decimal(b)
    ensures a < b ==> |r| > |Decimal(a)| + |separator|
  {
    Decimal(if a > b then b else a) + (if a < b then separator + Decimal(b) else "")
  }

  /** uni_range: the unified header's start and line count, the count left
      out when it is one. */
  function UniRange(a: int, b: int): (r: string)
    ensures Decimal(if a > b then b else a) <= r
    ensures a == b ==> r == Decimal(b)
    ensures a != b ==> ',' in r
  {
    if a < b then Decimal(a) + "," + Decimal(b - a + 1)
    else if a == b then Decimal(b)
    else Decimal(b) + ",0"
  }

  /** One number, or two joined by `separator`. */
  function ReadFields(s: string, separator: char): Option<(int, Option<int>)> {
    var k := FirstIndex(s, separator);
    if k == |s| then
      match ParseDecimal(s)
      case None => None
      case Some(v) => Some((v, None))
    else
      match (ParseDecimal(s[..k]), ParseDecimal(s[k + 1..]))
      case (Some(x), Some(y)) => Some((x, Some(y)))
      case _ => None
  }

  /** A reader of the `range` text: a single number stands for a range of
      one line. */
  function ReadRange(s: string, separator: char): Option<(int, int)> {
    match ReadFields(s, separator)
    case None => None
    case Some((lo, None)) => Some((lo, lo))
    case Some((lo, Some(hi))) => Some((lo, hi))
  }

  /** A reader of the unified header's range: a start and a count that
      defaults to one. */
  function ReadUniRange(s: string): Option<(int, int)> {
    match ReadFields(s, ',')
    case None => None
    case Some((start, None)) => Some((start, 1))
    case Some((start, Some(count))) => Some((start, count))
  }

  lemma ReadOneField(v: int, separator: char)
    requires separator != '-' && !('0' <= separator <= '9')
    ensures ReadFields(Decimal(v), separator) == Some((v, None))
  {
    NotInDecimal(v, separator);
    DecimalRoundTrip(v);
  }

  lemma ReadTwoFields(v: int, separator: char, w: int)
    requires separator != '-' && !('0' <= separator <= '9')
    ensures ReadFields(Decimal(v) + [separator] + Decimal(w), separator) == Some((v, Some(w)))
  {
    NotInDecimal(v, separator);
    SplitAt(Decimal(v), separator, Decimal(w));
    DecimalRoundTrip(v);
    DecimalRoundTrip(w);
  }

  /** The `range` text names the lines from `a` to `b`: both ends when there
      are several, the one line otherwise. The separators the program uses
      (comma and space) are neither digits nor minus signs. */
  lemma RangeReadsBack(a: int, b: int, separator: char)
    requires separator != '-' && !('0' <= separator <= '9')
    ensures ReadRange(Range(a, b, [separator]), separator) == Some(if a < b then (a, b) else (b, b))
  {
    if a < b {
      assert Range(a, b, [separator]) == Decimal(a) + [separator] + Decimal(b);
      ReadTwoFields(a, separator, b);
    } else {
      assert Range(a, b, [separator]) == Decimal(b);
      ReadOneField(b, separator);
    }
  }

  /** The unified header reads back as the first line and the number of
      lines of the hunk: `b - a + 1` lines from `a`, or none, placed after
      line `b`, when the range is empty. */
  lemma UniRangeReadsBack(a: int, b: int)
    ensures ReadUniRange(UniRange(a, b)) == Some(if a <= b then (a, b - a + 1) else (b, 0))
  {
    if a < b {
      UniRangeSeveral(a, b);
    } else if a == b {
      UniRangeOne(b);
    } else {
      UniRangeEmpty(a, b);
    }
  }

  lemma UniRangeSeveral(a: int, b: int)
    requires a < b
    ensures ReadUniRange(UniRange(a, b)) == Some((a, b - a + 1))
  {
    var c := b - a + 1;
    var t := Decimal(a) + [','] + Decimal(c);
    assert UniRange(a, b) == t;
    TwoFieldsRead(a, c);
  }

  lemma UniRangeOne(b: int)
    ensures ReadUniRange(UniRange(b, b)) == Some((b, 1))
  {
    assert UniRange(b, b) == Decimal(b);
    ReadOneField(b, ',');
  }

  lemma UniRangeEmpty(a: int, b: int)
    requires a > b
    ensures ReadUniRange(UniRange(a, b)) == Some((b, 0))
  {
    ZeroPrintsZero();
    assert UniRange(a, b) == Decimal(b) + [','] + Decimal(0);
    TwoFieldsRead(b, 0);
  }

  /** A start and a count joined by a comma read back as both. */
  lemma TwoFieldsRead(v: int, w: int)
    ensures ReadUniRange(Decimal(v) + [','] + Decimal(w)) == Some((v, w))
  {
    ReadTwoFields(v, ',', w);
  }

  lemma ZeroPrintsZero()
    ensures Decimal(0) == "0"
  {
    assert Digits(0) == [DigitChar(0)];
  }
}

=== FILE: diff_hash.dfy ===
/**
 The line hash of diffreg.c (after Sedgewick, Algorithms in C, 3rd edition,
 p. 578). The stream is the bytes from the current position of the file to
 its end; running out of bytes is EOF. The sum is a 32-bit `long`, so each
 step wraps around as two's-complement arithmetic does.
 */
module DiffHash {
  import opened Bytes
  import opened CType

  const TAB: byte := 9
  const LF: byte := 10
  const VT: byte := 11
  const FF: byte := 12

  /** The three diff flags the hash looks at: D_FOLDBLANKS (0x010),
      D_IGNOREBLANKS (0x200) and D_IGNORECASE (0x040). */
  datatype HashFlags = HashFlags(foldBlanks: bool, ignoreBlanks: bool, ignoreCase: bool)

  /** The bytes the blank-insensitive modes skip: tab, newline, vertical tab,
      form feed and space (carriage return ends the line instead). */
  predicate Blank(c: byte) {
    c == TAB || c == LF || c == VT || c == FF || c == SPACE
  }

  // ---------------------------------------------------------------------
  // The translation tables

  /** clow2low: every byte maps to itself. */
  function Clow2Low(c: byte): byte {
    c
  }

  /** cup2low as the table is written: 0x40 to 0x5f map to 0x60 to 0x7f, so
      besides the letters it folds '@' to '`', '[' to '{', '\\' to '|',
      ']' to '}', '^' to '~' and '_' to DEL. */
  function Cup2LowAsWritten(c: byte): (r: byte)
    ensures 0x40 <= c <= 0x5f ==> r == c + 0x20
    ensures !(0x40 <= c <= 0x5f) ==> r == c
  {
    if 0x40 <= c <= 0x5f then c + 0x20 else c
  }

  /** cup2low as its comment means it: upper-case letters to lower case,
      every other byte to itself. */
  function Cup2Low(c: byte): (r: byte)
    ensures r == c || ('A' as int <= c <= 'Z' as int && r == c + 32)
    ensures !('A' as int <= r <= 'Z' as int)
  {
    if 'A' as int <= c <= 'Z' as int then c + 32 else c
  }

  /** Which cup2low the hash uses: the table diffreg.c has, or the one its
      comment describes. */
  datatype CaseTable = TableAsWritten | LettersOnly

  /** chrtran: the table diffreg selects from the flags. Without
      D_IGNORECASE no byte changes; with it every capital letter becomes its
      small letter, the other bytes stay as they are, and, with the table as
      written, 0x40 to 0x5f other than the letters move up by 32 as well. */
  function Chrtran(table: CaseTable, flags: HashFlags): (tr: byte -> byte)
    ensures !flags.ignoreCase ==> forall c: byte :: tr(c) == c
    ensures flags.ignoreCase ==> forall c: byte :: 'A' as int <= c <= 'Z' as int ==> tr(c) == c + 32
    ensures forall c: byte :: tr(c) == c || tr(c) as int == c as int + 32
    ensures table == LettersOnly ==> forall c: byte :: tr(c) != c ==> 'A' as int <= c <= 'Z' as int
    ensures table == TableAsWritten && flags.ignoreCase ==> forall c: byte :: 0x40 <= c <= 0x5f ==> tr(c) == c + 32
  {
    if !flags.ignoreCase then Clow2Low
    else if table == TableAsWritten then Cup2LowAsWritten
    else Cup2Low
  }

  // ---------------------------------------------------------------------
  // The hash as a function of the line

  const TWO_31: int := 0x8000_0000
  const TWO_32: int := 0x1_0000_0000

  /** A value of a 32-bit signed `long` after wrap-around. */
  function Wrap32(x: int): (r: int)
    ensures -TWO_31 <= r < TWO_31
    ensures (r - x) % TWO_32 == 0
  {
    (x + TWO_31) % TWO_32 - TWO_31
  }

  /** One step of the hash: `sum * 127 + t` in 32 bits. */
  function Mix(sum: int, t: byte): int {
    Wrap32(sum * 127 + t)
  }

  /** The sum after hashing `xs`, translated by `tr`, from the starting
      value 1. */
  function SumOf(tr: byte -> byte, xs: seq<byte>): int {
    if xs == [] then 1 else Mix(SumOf(tr, xs[..|xs| - 1]), tr(xs[|xs| - 1]))
  }

  lemma SumOfSnoc(tr: byte -> byte, xs: seq<byte>, t: byte)
    ensures SumOf(tr, xs + [t]) == Mix(SumOf(tr, xs), tr(t))
  {
    assert (xs + [t])[..|xs|] == xs;
  }

  /** The bytes of `xs` that are not blank, in order. */
  function NonBlank(xs: seq<byte>): (r: seq<byte>)
    ensures |r| <= |xs|
    ensures forall i :: 0 <= i < |r| ==> !Blank(r[i])
  {
    if xs == [] then []
    else NonBlank(xs[..|xs| - 1]) + (if Blank(xs[|xs| - 1]) then [] else [xs[|xs| - 1]])
  }

  lemma NonBlankSnoc(xs: seq<byte>, t: byte)
    ensures NonBlank(xs + [t]) == NonBlank(xs) + (if Blank(t) then [] else [t])
  {
    assert (xs + [t])[..|xs|] == xs;
  }

  /** Whether the flags select the blank-insensitive loop. */
  predicate BlankMode(flags: HashFlags) {
    flags.foldBlanks || flags.ignoreBlanks
  }

  /** The bytes of a line that enter the sum. */
  function Counted(flags: HashFlags, line: seq<byte>): seq<byte> {
    if BlankMode(flags) then NonBlank(line) else line
  }

  /** Zero marks EOF, so a sum of zero is reported as one. */
  function NonZero(sum: int): (h: int)
    ensures h != 0 && (sum != 0 ==> h == sum)
  {
    if sum == 0 then 1 else sum
  }

  // ---------------------------------------------------------------------
  // readhash

  /** readhash: the hash of the line at the front of `s` and the number of
      bytes read, the carriage return included. It is 0 exactly when EOF
      comes before any byte that counts; otherwise it is the wrapped sum of
      the counted bytes, never 0. With `TableAsWritten` this is the
      program's hash. */
  method ReadHash(s: seq<byte>, flags: HashFlags, table: CaseTable) returns (h: int, used: nat)
    ensures used == |LineOf(s)| + (if |LineOf(s)| < |s| then 1 else 0)
    ensures h == 0 <==> |LineOf(s)| == |s| && Counted(flags, LineOf(s)) == []
    ensures h != 0 ==> h == NonZero(SumOf(Chrtran(table, flags), Counted(flags, LineOf(s))))
  {
    var tr := Chrtran(table, flags);
    var sum, p;
    if !BlankMode(flags) {
      sum, p := PlainScan(s, tr);
      if p == |s| && p == 0 {
        return 0, 0;
      }
    } else {
      var i;
      sum, p, i := BlankScan(s, flags.ignoreBlanks, tr);
      if p == |s| && i == 0 {
        return 0, p;
      }
    }
    used := if p < |s| then p + 1 else p;
    h := NonZero(sum);
  }

  /** The loops of readhash without blank handling: every byte up to the
      carriage return enters the sum. */
  method PlainScan(s: seq<byte>, tr: byte -> byte) returns (sum: int, p: nat)
    ensures p <= |s|
    ensures LineOf(s) == s[..p]
    ensures sum == SumOf(tr, s[..p])
  {
    sum, p := 1, 0;
    while p < |s| && s[p] != CR
      invariant p <= |s| && CR !in s[..p]
      invariant sum == SumOf(tr, s[..p])
    {
      assert s[..p + 1] == s[..p] + [s[p]];
      SumOfSnoc(tr, s[..p], s[p]);
      sum := Mix(sum, tr(s[p]));
      p := p + 1;
    }
    LineOfAt(s, p);
  }

  /** The loop of readhash for D_FOLDBLANKS and D_IGNOREBLANKS: blank bytes
      are counted in `space` and skipped; `i` counts the bytes seen, and a
      run of blanks before a byte when blanks are only folded. */
  method BlankScan(s: seq<byte>, ignoreBlanks: bool, tr: byte -> byte) returns (sum: int, p: nat, i: nat)
    ensures p <= |s|
    ensures LineOf(s) == s[..p]
    ensures sum == SumOf(tr, NonBlank(s[..p]))
    ensures i == 0 <==> NonBlank(s[..p]) == []
  {
    sum, p, i := 1, 0, 0;
    var space := 0;
    ghost var seen: seq<byte> := [];
    while p < |s| && s[p] != CR
      invariant Scanned(s, p, seen)
      invariant sum == SumOf(tr, seen)
      invariant i == 0 <==> seen == []
    {
      var t := s[p];
      ScanStep(s, p, seen);
      if Blank(t) {
        space := space + 1;
      } else {
        if space != 0 && !ignoreBlanks {
          i := i + 1;
          space := 0;
        }
        SumOfSnoc(tr, seen, t);
        sum := Mix(sum, tr(t));
        i := i + 1;
        seen := seen + [t];
      }
      p := p + 1;
    }
    LineOfAt(s, p);
  }

  /** The blank-insensitive scan has read `p` bytes of the line, keeping
      `seen`. */
  predicate Scanned(s: seq<byte>, p: nat, seen: seq<byte>) {
    p <= |s| && CR !in s[..p] && seen == NonBlank(s[..p])
  }

  lemma ScanStep(s: seq<byte>, p: nat, seen: seq<byte>)
    requires Scanned(s, p, seen) && p < |s| && s[p] != CR
    ensures Scanned(s, p + 1, seen + if Blank(s[p]) then [] else [s[p]])
  {
    assert s[..p + 1] == s[..p] + [s[p]];
    NonBlankSnoc(s[..p], s[p]);
    if Blank(s[p]) {
      assert seen + [] == seen;
    }
  }

  // ---------------------------------------------------------------------
  // What the hash depends on

  /** Bytes that translate alike hash alike. */
  lemma {:induction false} SumOfTranslated(tr: byte -> byte, xs: seq<byte>, ys: seq<byte>)
    requires |xs| == |ys| && forall i :: 0 <= i < |xs| ==> tr(xs[i]) == tr(ys[i])
    ensures SumOf(tr, xs) == SumOf(tr, ys)
  {
    if xs != [] {
      SumOfTranslated(tr, xs[..|xs| - 1], ys[..|ys| - 1]);
    }
  }

  /** With D_IGNORECASE, lines that differ only in the case of their letters
      hash alike, under either table. */
  lemma IgnoreCaseMerges(flags: HashFlags, table: CaseTable, xs: seq<byte>, ys: seq<byte>)
    requires flags.ignoreCase && !BlankMode(flags)
    requires |xs| == |ys| && forall i :: 0 <= i < |xs| ==> Cup2Low(xs[i]) == Cup2Low(ys[i])
    ensures SumOf(Chrtran(table, flags), Counted(flags, xs)) == SumOf(Chrtran(table, flags), Counted(flags, ys))
  {
    var tr := Chrtran(table, flags);
    forall i | 0 <= i < |xs|
      ensures tr(xs[i]) == tr(ys[i])
    {
      assert Cup2Low(xs[i]) == Cup2Low(ys[i]);
    }
    SumOfTranslated(tr, xs, ys);
  }

  /** Two bytes are the same letter in different case. */
  predicate CaseVariants(x: byte, y: byte) {
    ('A' as int <= x <= 'Z' as int && y == x + 32) || ('A' as int <= y <= 'Z' as int && x == y + 32)
  }

  /** One-byte lines under D_IGNORECASE with the letters-only table hash
      alike exactly when they hold the same byte or the same letter. */
  lemma LettersOnlySeparates(flags: HashFlags, x: byte, y: byte)
    requires flags.ignoreCase
    ensures SumOf(Chrtran(LettersOnly, flags), [x]) == SumOf(Chrtran(LettersOnly, flags), [y]) <==>
            x == y || CaseVariants(x, y)
  {
    var tr := Chrtran(LettersOnly, flags);
    assert SumOf(tr, [x]) == Mix(1, tr(x)) == 127 + tr(x);
    assert SumOf(tr, [y]) == Mix(1, tr(y)) == 127 + tr(y);
  }

  /** Blank bytes are skipped entirely: inserting them anywhere in a line
      leaves the blank-insensitive hash as it was. */
  lemma {:induction false} NonBlankSkips(xs: seq<byte>, ys: seq<byte>)
    requires forall i :: 0 <= i < |ys| ==> Blank(ys[i])
    ensures NonBlank(xs + ys) == NonBlank(xs)
  {
    if ys == [] {
      assert xs + ys == xs;
    } else {
      var zs, last := ys[..|ys| - 1], ys[|ys| - 1];
      assert xs + ys == (xs + zs) + [last];
      assert Blank(last);
      NonBlankSnoc(xs + zs, last);
      NonBlankSkips(xs, zs);
    }
  }

  /** The table as written folds the punctuation after the capitals onto
      the punctuation after the small letters: under D_IGNORECASE the lines
      "[" and "{" hash alike although they are neither the same byte nor the
      same letter, which the letters-only table tells apart. */
  lemma Cup2LowFoldsBrackets(flags: HashFlags)
    requires flags.ignoreCase
    ensures var x, y := '[' as byte, '{' as byte;
            x != y && !CaseVariants(x, y) &&
            SumOf(Chrtran(TableAsWritten, flags), [x]) == SumOf(Chrtran(TableAsWritten, flags), [y])
  {
    var tr := Chrtran(TableAsWritten, flags);
    assert SumOf(tr, ['[' as byte]) == Mix(1, 123);
    assert SumOf(tr, ['{' as byte]) == Mix(1, 123);
  }
}

=== FILE: diff_isqrt.dfy ===
/**
 The integer square root diffreg.c uses to bound the candidate search: a
 Newton iteration from 1 that stops once two estimates are at most one
 apart. The result is the floor of the square root or one more.
 */
module DiffIsqrt {

  /** One Newton step towards the square root of `n`, in truncating integer
      arithmetic (both operands are positive, so truncation and Dafny's
      division agree). */
  function Step(n: nat, y: nat): nat
    requires y >= 1
  {
    (y + n / y) / 2
  }

  /** `x` is the floor of the square root of `n`, or one more. */
  predicate NearRoot(n: nat, x: nat) {
    (x - 1) * (x - 1) <= n < (x + 1) * (x + 1)
  }

  /** isqrt: 0 for 0; otherwise the estimate the iteration settles on. */
  method Isqrt(n: nat) returns (x: nat)
    ensures n == 0 ==> x == 0
    ensures n > 0 ==> x >= 1 && NearRoot(n, x)
  {
    if n == 0 {
      return 0;
    }
    var y: nat := 1;
    x := Step(n, y);
    StepAbove(n, y);
    while x - y > 1 || x - y < -1
      invariant y >= 1 && x == Step(n, y) && x >= 1
      invariant n < (x + 1) * (x + 1)
      decreases if -1 <= x - y <= 1 then 0 else x + 1
    {
      y := x;
      x := Step(n, y);
      StepAbove(n, y);
      if y * y > n {
        StepDown(n, y);
      } else {
        StepAtRoot(n, y);
      }
    }
    StepSettled(n, y);
  }

  /** A step never lands below the floor of the root, and never on 0. */
  lemma StepAbove(n: nat, y: nat)
    requires n >= 1 && y >= 1
    ensures Step(n, y) >= 1
    ensures n < (Step(n, y) + 1) * (Step(n, y) + 1)
  {
    var q := n / y;
    var x := Step(n, y);
    assert n < y * (q + 1) by {
      assert n == q * y + n % y && n % y < y;
    }
    MeanAboveRoot(n, y, q + 1, x + 1);
  }

  /** When the mean of `a` and `b` is at most `m`, `m * m` is at least
      `a * b` (the arithmetic-geometric mean inequality). */
  lemma MeanAboveRoot(n: int, a: nat, b: nat, m: nat)
    requires a + b <= 2 * m && n < a * b
    ensures n < m * m
  {
    MonotoneSquare(a + b, 2 * m);
    SquareOfSum(a, b);
    assert (2 * m) * (2 * m) == 4 * (m * m);
  }

  /** From above the root a step goes down. */
  lemma StepDown(n: nat, y: nat)
    requires y >= 1 && y * y > n
    ensures Step(n, y) < y
  {
    var q := n / y;
    ProductBelow(q, y, y);
  }

  /** From the floor of the root a step goes up by at most one. */
  lemma StepAtRoot(n: nat, y: nat)
    requires y >= 1 && y * y <= n < (y + 1) * (y + 1)
    ensures Step(n, y) <= y + 1
  {
    var q := n / y;
    assert (y + 1) * (y + 1) <= (y + 3) * y;
    ProductBelow(q, y + 3, y);
  }

  /** Once a step moves by at most one, it stands at most one above the
      root. */
  lemma StepSettled(n: nat, y: nat)
    requires n >= 1 && y >= 1 && -1 <= Step(n, y) - y <= 1
    ensures (Step(n, y) - 1) * (Step(n, y) - 1) <= n
  {
    var x := Step(n, y);
    var q := n / y;
    StepAbove(n, y);
    if y * y <= n {
      MonotoneSquare(x - 1, y);
    } else {
      StepDown(n, y);
      assert y >= 2 && x == y - 1 && q >= y - 2 && q * y <= n;
      SquareBelowProduct(n, q, y);
    }
  }

  lemma SquareBelowProduct(n: int, q: nat, y: nat)
    requires y >= 2 && q >= y - 2 && q * y <= n
    ensures (y - 2) * (y - 2) <= n
  {
    var p: nat := y - 2;
    MulAtMost(p, y, p);
    MulAtMost(p, q, y);
    assert y * p == p * y;
  }

  lemma MulAtMost(a: nat, b: nat, c: nat)
    requires a <= b
    ensures a * c <= b * c
  {
    assert b * c - a * c == (b - a) * c;
  }

  /** Dividing both sides of a strict inequality by a positive factor. */
  lemma ProductBelow(a: int, b: int, c: int)
    requires c >= 1 && a * c < b * c
    ensures a < b
  {
    assert (b - a) * c > 0;
  }

  lemma SquareOfSum(a: int, b: int)
    ensures (a + b) * (a + b) >= 4 * a * b
  {
    assert (a + b) * (a + b) - 4 * a * b == (a - b) * (a - b);
  }

  lemma MonotoneSquare(a: nat, b: nat)
    requires a <= b
    ensures a * a <= b * b
  {
    MulAtMost(a, b, a);
    MulAtMost(a, b, b);
    assert b * a == a * b;
  }
}

=== FILE: diff_kernels.dfy ===
/**
 The array kernels of Stone's longest-common-subsequence diff in
 diffreg.c: the candidate search, the pruning of the common prefix and
 suffix, the construction of the equivalence classes and the inverse of the
 sort permutation.

 The C arrays are 1-based; each sequence here says which C slots it holds.
 */
module DiffKernels {
  import opened DiffSort

  // ---------------------------------------------------------------------
  // search

  predicate Increasing(ys: seq<int>) {
    forall i, j :: 0 <= i < j < |ys| ==> ys[i] < ys[j]
  }

  /** How many of the thresholds lie below `y`. */
  function CountBelow(ys: seq<int>, y: int): (n: nat)
    ensures n <= |ys|
  {
    if ys == [] then 0 else (if ys[0] < y then 1 else 0) + CountBelow(ys[1..], y)
  }

  /** A sequence that is below `y` up to `l` and not below it after counts
      exactly `l` entries below `y`. */
  lemma {:induction false} CountBelowSplit(ys: seq<int>, y: int, l: nat)
    requires l <= |ys|
    requires forall i :: 0 <= i < l ==> ys[i] < y
    requires forall i :: l <= i < |ys| ==> y <= ys[i]
    ensures CountBelow(ys, y) == l
  {
    if ys != [] {
      CountBelowSplit(ys[1..], y, if l == 0 then 0 else l - 1);
    }
  }

  /** search: `ys[l]` is the `y` of candidate `c[l]`, for `l` in 0..k. The
      thresholds increase strictly and the first lies below `y`. The result
      is where `y` belongs: after every threshold below it, at the first
      one not below it, or `k + 1` when it exceeds them all. */
  method Search(ys: seq<int>, y: int) returns (l: nat)
    requires |ys| >= 1 && Increasing(ys) && ys[0] < y
    ensures 1 <= l <= |ys|
    ensures ys[l - 1] < y && (l < |ys| ==> y <= ys[l])
    ensures l == CountBelow(ys, y)
  {
    var k := |ys| - 1;
    if ys[k] < y {
      l := k + 1;
      CountBelowSplit(ys, y, l);
      return;
    }
    var i, j := 0, k + 1;
    while true
      invariant 0 <= i < j <= |ys|
      invariant ys[i] < y && (j < |ys| ==> y < ys[j])
      decreases j - i
    {
      l := (i + j) / 2;
      if l <= i {
        break;
      }
      var t := ys[l];
      if t > y {
        j := l;
      } else if t < y {
        i := l;
      } else {
        CountBelowSplit(ys, y, l);
        return;
      }
    }
    l := l + 1;
    CountBelowSplit(ys, y, l);
  }

  // ---------------------------------------------------------------------
  // prune

  /** The lines from `pref` to `pref + slen` carry the serials 0..slen; all
      other lines are as they were. */
  predicate Renumbered(f: seq<Line>, g: seq<Line>, pref: nat, slen: nat) {
    |g| == |f| &&
    forall i :: 0 <= i < |f| ==>
      g[i] == if pref <= i <= pref + slen then Line(i - pref, f[i].value) else f[i]
  }

  /** The hash `s` lines from the end of a file. */
  function Back(f: seq<Line>, s: nat): int
    requires s < |f|
  {
    f[|f| - 1 - s].value
  }

  /** prune: `f0` and `f1` hold the C slots 0..len of the two files. `pref`
      is the length of the longest common run of hashes at the front,
      `suff` that of the longest common run at the back of what remains, and
      the lines between them are numbered afresh from 0. */
  method Prune(f0: seq<Line>, f1: seq<Line>) returns (pref: nat, suff: nat, g0: seq<Line>, g1: seq<Line>)
    requires |f0| >= 1 && |f1| >= 1
    ensures pref < |f0| && pref < |f1|
    ensures forall i :: 1 <= i <= pref ==> f0[i].value == f1[i].value
    ensures pref + 1 < |f0| && pref + 1 < |f1| ==> f0[pref + 1].value != f1[pref + 1].value
    ensures pref + suff < |f0| && pref + suff < |f1|
    ensures forall s :: 0 <= s < suff ==> Back(f0, s) == Back(f1, s)
    ensures pref + suff + 1 < |f0| && pref + suff + 1 < |f1| ==> Back(f0, suff) != Back(f1, suff)
    ensures Renumbered(f0, g0, pref, |f0| - 1 - pref - suff)
    ensures Renumbered(f1, g1, pref, |f1| - 1 - pref - suff)
  {
    pref := CommonPrefix(f0, f1);
    suff := CommonSuffix(f0, f1, pref);
    g0 := Renumber(f0, pref, |f0| - 1 - pref - suff);
    g1 := Renumber(f1, pref, |f1| - 1 - pref - suff);
  }

  /** The first loop of prune. */
  method CommonPrefix(f0: seq<Line>, f1: seq<Line>) returns (pref: nat)
    requires |f0| >= 1 && |f1| >= 1
    ensures pref < |f0| && pref < |f1|
    ensures forall i :: 1 <= i <= pref ==> f0[i].value == f1[i].value
    ensures pref + 1 < |f0| && pref + 1 < |f1| ==> f0[pref + 1].value != f1[pref + 1].value
  {
    var len0, len1 := |f0| - 1, |f1| - 1;
    pref := 0;
    while pref < len0 && pref < len1 && f0[pref + 1].value == f1[pref + 1].value
      invariant pref <= len0 && pref <= len1
      invariant forall i :: 1 <= i <= pref ==> f0[i].value == f1[i].value
    {
      pref := pref + 1;
    }
  }

  /** The second loop of prune. */
  method CommonSuffix(f0: seq<Line>, f1: seq<Line>, pref: nat) returns (suff: nat)
    requires pref < |f0| && pref < |f1|
    ensures pref + suff < |f0| && pref + suff < |f1|
    ensures forall s :: 0 <= s < suff ==> Back(f0, s) == Back(f1, s)
    ensures pref + suff + 1 < |f0| && pref + suff + 1 < |f1| ==> Back(f0, suff) != Back(f1, suff)
  {
    var len0, len1 := |f0| - 1, |f1| - 1;
    suff := 0;
    while suff < len0 - pref && suff < len1 - pref && f0[len0 - suff].value == f1[len1 - suff].value
      invariant suff <= len0 - pref && suff <= len1 - pref
      invariant forall s :: 0 <= s < suff ==> Back(f0, s) == Back(f1, s)
    {
      suff := suff + 1;
    }
  }

  /** The renumbering loop of prune. */
  method Renumber(f: seq<Line>, pref: nat, slen: nat) returns (g: seq<Line>)
    requires pref + slen < |f|
    ensures Renumbered(f, g, pref, slen)
  {
    g := f;
    var i := 0;
    while i <= slen
      invariant i <= slen + 1 && |g| == |f|
      invariant forall k :: 0 <= k < |f| ==>
        g[k] == if pref <= k < pref + i then Line(k - pref, f[k].value) else f[k]
    {
      g := g[pref + i := Line(i, g[pref + i].value)];
      i := i + 1;
    }
  }

  // ---------------------------------------------------------------------
  // equiv

  predicate ValuesSorted(s: seq<Line>) {
    forall i, j :: 0 <= i < j < |s| ==> s[i].value <= s[j].value
  }

  /** The first line of `b` whose hash is `v`, or `|b|` when there is none. */
  function FirstWithValue(b: seq<Line>, v: int): (k: nat)
    ensures k <= |b| && (k < |b| ==> b[k].value == v)
    ensures forall j :: 0 <= j < k ==> b[j].value != v
  {
    if b == [] then 0 else if b[0].value == v then 0 else 1 + FirstWithValue(b[1..], v)
  }

  /** `b[j]` starts an equivalence class: it is first, or its hash differs
      from the line before it. */
  predicate Head(b: seq<Line>, j: nat)
    requires j < |b|
  {
    j == 0 || b[j - 1].value != b[j].value
  }

  /** The number equiv gives a line of hash `v`: the 1-based position in `b`
      of the head of the class with that hash, or 0 when `b` has no such
      line. */
  function ClassOf(b: seq<Line>, v: int): (r: nat)
    ensures r <= |b|
    ensures r == 0 <==> forall j :: 0 <= j < |b| ==> b[j].value != v
    ensures r > 0 ==> b[r - 1].value == v && Head(b, r - 1)
  {
    var k := FirstWithValue(b, v);
    if k < |b| then k + 1 else 0
  }

  /** The entry equiv stores in `member` for `b[j]`: the serial, negated at
      the head of a class. */
  function Member(b: seq<Line>, j: nat): int
    requires j < |b|
  {
    if Head(b, j) then -b[j].serial else b[j].serial
  }

  /** equiv: `a` holds the C slots 1..n of the first file and `b` the slots
      1..m of the second, both in hash order; the second file's hashes are
      never 0, which the slot after it relies on as a sentinel. Each line of
      `a` gets the class number of its hash, and `c` (the C slots 1..m+1 of
      `member`) lists the serials of `b` with each class head negated, ended
      by -1. */
  method Equiv(a: seq<Line>, b: seq<Line>) returns (a': seq<Line>, c: seq<int>)
    requires ValuesSorted(a) && ValuesSorted(b)
    requires forall j :: 0 <= j < |b| ==> b[j].value != 0
    ensures |a'| == |a|
    ensures forall i :: 0 <= i < |a| ==> a'[i] == Line(a[i].serial, ClassOf(b, a[i].value))
    ensures |c| == |b| + 1 && c[|b|] == -1
    ensures forall j :: 0 <= j < |b| ==> c[j] == Member(b, j)
  {
    a' := Classify(a, b);
    c := Members(b);
  }

  /** The merge loop of equiv. */
  method Classify(a: seq<Line>, b: seq<Line>) returns (a': seq<Line>)
    requires ValuesSorted(a) && ValuesSorted(b)
    ensures |a'| == |a|
    ensures forall i :: 0 <= i < |a| ==> a'[i] == Line(a[i].serial, ClassOf(b, a[i].value))
  {
    a' := a;
    var i, j := 0, 0;
    while i < |a| && j < |b|
      invariant i <= |a| && j <= |b| && |a'| == |a|
      invariant forall k :: 0 <= k < i ==> a'[k] == Line(a[k].serial, ClassOf(b, a[k].value))
      invariant i < |a| ==> forall k :: 0 <= k < j ==> b[k].value < a[i].value
    {
      if a[i].value < b[j].value {
        a' := a'[i := Line(a[i].serial, 0)];
        i := i + 1;
      } else if a[i].value == b[j].value {
        a' := a'[i := Line(a[i].serial, j + 1)];
        i := i + 1;
      } else {
        j := j + 1;
      }
    }
    while i < |a|
      invariant i <= |a| && |a'| == |a|
      invariant forall k :: 0 <= k < i ==> a'[k] == Line(a[k].serial, ClassOf(b, a[k].value))
      invariant i < |a| ==> j == |b| && forall k :: 0 <= k < j ==> b[k].value < a[i].value
    {
      a' := a'[i := Line(a[i].serial, 0)];
      i := i + 1;
    }
  }

  /** The hash equiv reads at 0-based position `j` of `b`: the sentinel 0
      one past the end. */
  function ValueAt(b: seq<Line>, j: nat): int {
    if j < |b| then b[j].value else 0
  }

  /** The class-listing loop of equiv. */
  method Members(b: seq<Line>) returns (c: seq<int>)
    requires forall j :: 0 <= j < |b| ==> b[j].value != 0
    ensures |c| == |b| + 1 && c[|b|] == -1
    ensures forall j :: 0 <= j < |b| ==> c[j] == Member(b, j)
  {
    c := [];
    var j := 0;
    while j < |b|
      invariant j <= |b| && |c| == j
      invariant forall k :: 0 <= k < j ==> c[k] == Member(b, k)
      invariant j < |b| ==> Head(b, j)
    {
      c := c + [-b[j].serial];
      while ValueAt(b, j + 1) == b[j].value
        invariant j < |b| && |c| == j + 1
        invariant forall k :: 0 <= k <= j ==> c[k] == Member(b, k)
        decreases |b| - j
      {
        j := j + 1;
        c := c + [b[j].serial];
      }
      j := j + 1;
    }
    c := c + [-1];
  }

  /** Every line of `b` with the hash of a class follows its head with no
      other head in between: walking `member` from the head to the next
      negative entry visits exactly the class. */
  lemma ClassMembers(b: seq<Line>, v: int, j: nat)
    requires ValuesSorted(b) && j < |b| && b[j].value == v
    ensures 0 < ClassOf(b, v) <= j + 1
    ensures forall t :: ClassOf(b, v) <= t <= j ==> !Head(b, t)
  {
  }

  // ---------------------------------------------------------------------
  // unsort

  /** The hash of the last line whose serial is `s`, or 0 when there is
      none. */
  function LastWithSerial(f: seq<Line>, s: int): int {
    if f == [] then 0
    else if f[|f| - 1].serial == s then f[|f| - 1].value
    else LastWithSerial(f[..|f| - 1], s)
  }

  /** unsort: `f` holds the C slots 1..l, with serials in 0..l; `b` (the C
      slots 1..l) gets, for each serial, the value of the line that carries
      it. */
  method Unsort(f: seq<Line>) returns (b: seq<int>)
    requires forall i :: 0 <= i < |f| ==> 0 <= f[i].serial <= |f|
    ensures |b| == |f|
    ensures forall i :: 0 <= i < |f| ==> b[i] == LastWithSerial(f, i + 1)
  {
    var a := seq(|f| + 1, _ => 0);
    var i := 0;
    while i < |f|
      invariant i <= |f| && |a| == |f| + 1
      invariant forall s :: 0 <= s <= |f| ==> a[s] == LastWithSerial(f[..i], s)
    {
      assert f[..i + 1][..i] == f[..i];
      a := a[f[i].serial := f[i].value];
      i := i + 1;
    }
    assert f[..|f|] == f;
    b := a[1..];
  }

  /** When every line of `f` with serial `s` has value `v`, and one does,
      that is the value found. */
  lemma {:induction false} LastWithSerialOf(f: seq<Line>, s: int, v: int, k: nat)
    requires k < |f| && f[k].serial == s
    requires forall i :: 0 <= i < |f| && f[i].serial == s ==> f[i].value == v
    ensures LastWithSerial(f, s) == v
  {
    if f[|f| - 1].serial != s {
      LastWithSerialOf(f[..|f| - 1], s, v, k);
    }
  }

  /** unsort inverts a reordering: lines numbered 1..l by position, then
      permuted (as sort does), come back with each value at its original
      position. */
  lemma UnsortInverts(g: seq<Line>, f: seq<Line>)
    requires forall i :: 0 <= i < |g| ==> g[i].serial == i + 1
    requires multiset(f) == multiset(g)
    ensures forall i :: 0 <= i < |g| ==> LastWithSerial(f, i + 1) == g[i].value
  {
    forall i | 0 <= i < |g|
      ensures LastWithSerial(f, i + 1) == g[i].value
    {
      assert g[i] in multiset(f);
      var k :| 0 <= k < |f| && f[k] == g[i];
      forall t | 0 <= t < |f| && f[t].serial == i + 1
        ensures f[t].value == g[i].value
      {
        assert f[t] in multiset(g);
      }
      LastWithSerialOf(f, i + 1, g[i].value, k);
    }
  }
}

=== FILE: diff_sort.dfy ===
/**
 The line records of diffreg.c and the shellsort (CACM algorithm 201) that
 orders them by hash value and then by serial number.

 The C arrays are 1-based (`a[1..n]`); here `a[1..n]` is a sequence of
 length `n` whose index `i` stands for the C index `i + 1`.
 */
module DiffSort {

  /** struct line: the line's serial number and the hash of its text. */
  datatype Line = Line(serial: int, value: int)

  /** The order the sort establishes: by value, then by serial. */
  predicate Le(x: Line, y: Line) {
    x.value < y.value || (x.value == y.value && x.serial <= y.serial)
  }

  /** The test that stops an insertion in sort: `x` belongs strictly after
      `y`. */
  predicate After(x: Line, y: Line) {
    x.value > y.value || (x.value == y.value && x.serial > y.serial)
  }

  predicate SortedBetween(s: seq<Line>, lo: nat, hi: nat)
    requires lo <= hi <= |s|
  {
    forall i, j :: lo <= i < j < hi ==> Le(s[i], s[j])
  }

  predicate Sorted(s: seq<Line>) {
    SortedBetween(s, 0, |s|)
  }

  function Swap(s: seq<Line>, i: nat, j: nat): (r: seq<Line>)
    requires i < |s| && j < |s|
    ensures |r| == |s| && multiset(r) == multiset(s)
  {
    s[i := s[j]][j := s[i]]
  }

  /** sort: a permutation of the lines in ascending (value, serial) order. */
  method Sort(a: seq<Line>) returns (r: seq<Line>)
    ensures multiset(r) == multiset(a)
    ensures Sorted(r)
  {
    r := a;
    var n := |a|;
    if n == 0 {
      return;
    }
    // The largest 2j - 1 with j a power of two not above n.
    var m: nat := 0;
    var j := 1;
    while j <= n
      invariant j >= 1 && (j == 1 || j % 2 == 0)
      invariant j > 1 ==> j / 2 <= n && m == j - 1
      decreases n + 1 - j
    {
      m := 2 * j - 1;
      j := j * 2;
    }
    m := m / 2;
    while m != 0
      invariant m < n && |r| == n && multiset(r) == multiset(a)
      invariant m == 0 ==> Sorted(r)
      decreases m
    {
      r := GapPass(r, m);
      m := m / 2;
    }
  }

  /** One pass of the shellsort with gap `m`: each line from `m` on is sunk
      along its chain of lines `m` apart. With a gap of one the pass is an
      insertion sort. */
  method GapPass(s: seq<Line>, m: nat) returns (r: seq<Line>)
    requires 1 <= m < |s|
    ensures |r| == |s| && multiset(r) == multiset(s)
    ensures m == 1 ==> Sorted(r)
  {
    r := s;
    var k := |s| - m;
    var j := 1;
    while j <= k
      invariant 1 <= j <= k + 1
      invariant |r| == |s| && multiset(r) == multiset(s)
      invariant m == 1 ==> SortedBetween(r, 0, j)
    {
      r := Sink(r, m, j - 1 + m);
      j := j + 1;
    }
  }

  /** The inner loop of sort: the line at `e` moves down its chain while the
      line `m` before it does not belong before it. */
  method Sink(s: seq<Line>, m: nat, e: nat) returns (r: seq<Line>)
    requires 1 <= m && e < |s|
    ensures |r| == |s| && multiset(r) == multiset(s)
    ensures m == 1 && SortedBetween(s, 0, e) ==> SortedBetween(r, 0, e + 1)
  {
    r := s;
    var p: nat := e;
    while p >= m
      invariant p <= e && |r| == |s| && multiset(r) == multiset(s)
      invariant m == 1 && SortedBetween(s, 0, e) ==> Sinking(r, p, e)
      decreases p
    {
      if After(r[p], r[p - m]) {
        break;
      }
      if m == 1 && SortedBetween(s, 0, e) {
        SinkStep(r, p, e);
      }
      r := Swap(r, p - m, p);
      p := p - m;
    }
  }

  /** Sinking one line to `p`: the lines before it and the lines from it up
      to `e` are each in order, and the line before it fits before the one
      after it. */
  predicate Sinking(r: seq<Line>, p: nat, e: nat)
    requires p <= e < |r|
  {
    SortedBetween(r, 0, p) && SortedBetween(r, p, e + 1) && (0 < p < e ==> Le(r[p - 1], r[p + 1]))
  }

  lemma SinkStep(r: seq<Line>, p: nat, e: nat)
    requires 1 <= p <= e < |r| && Sinking(r, p, e) && !After(r[p], r[p - 1])
    ensures Sinking(Swap(r, p - 1, p), p - 1, e)
  {
  }

}

=== FILE: focusable.dfy ===
/**
 The focus list of focusable.c: every window the program shows is a
 `struct focusable`, kept in an array whose entry 0 has the focus. Entries
 are pointers, so a focusable is named by its identity; its window and its
 modality never change once it exists, while its `visible` flag is part of
 the state. The window-manager calls (ShowWindow, SelectWindow, HideWindow,
 CloseWindow) have no effect on the list and are left out.
 */
module Focusables {
  import opened Options
  import opened Seqs

  /** A focusable: the pointer's identity, its window and whether it is
      modal. */
  datatype Focusable = Focusable(id: nat, win: nat, modal: bool)

  /** The array `focusables` in order, and the focusables that are visible. */
  datatype State = State(order: seq<Focusable>, visible: set<Focusable>)

  /** The array after a shift over the first occurrence of `x` and a drop
      of the count: without that occurrence, or without the last entry when
      `x` is not there. */
  function Removed(s: seq<Focusable>, x: Focusable): (r: seq<Focusable>)
    requires |s| > 0
  {
    var k := FirstIndex(s, x);
    if k < |s| then s[..k] + s[k + 1..] else s[..|s| - 1]
  }

  /** The array after `x` is brought to the front: the entries before its
      first occurrence move down by one, or, when it is not there, all of
      them do and the last falls off. */
  function Raised(s: seq<Focusable>, x: Focusable): (r: seq<Focusable>)
    requires |s| > 0
  {
    var k := FirstIndex(s, x);
    if k < |s| then [x] + s[..k] + s[k + 1..] else [x] + s[..|s| - 1]
  }

  /** focusable_find: the first focusable that owns the window. */
  method Find(st: State, win: nat) returns (r: Option<Focusable>)
    ensures r.None? <==> forall i :: 0 <= i < |st.order| ==> st.order[i].win != win
    ensures r.Some? ==> exists k :: (0 <= k < |st.order| && st.order[k] == r.value && r.value.win == win &&
      forall i :: 0 <= i < k ==> st.order[i].win != win)
  {
    var n := 0;
    while n < |st.order|
      invariant n <= |st.order|
      invariant forall i :: 0 <= i < n ==> st.order[i].win != win
    {
      if st.order[n].win == win {
        assert st.order[n].win == win && forall i :: 0 <= i < n ==> st.order[i].win != win;
        return Some(st.order[n]);
      }
      n := n + 1;
    }
    return None;
  }

  /** focusable_focused: the front focusable when it is visible. */
  function Focused(st: State): (r: Option<Focusable>)
    ensures r.Some? <==> |st.order| > 0 && st.order[0] in st.visible
    ensures r.Some? ==> r.value == st.order[0]
  {
    if |st.order| > 0 && st.order[0] in st.visible then Some(st.order[0]) else None
  }

  /** focusable_show: a modal front entry refuses to give up the focus;
      otherwise `f` goes to the front and becomes visible, and then has the
      focus. */
  method Show(st: State, f: Focusable) returns (ok: bool, st': State)
    ensures !ok <==> |st.order| > 1 && st.order[0] != f && st.order[0].modal
    ensures !ok ==> st' == st
    ensures ok ==> st'.visible == st.visible + {f}
    ensures ok && (|st.order| <= 1 || st.order[0] == f) ==> st'.order == st.order
    ensures ok && |st.order| > 1 && st.order[0] != f ==> st'.order == Raised(st.order, f)
    ensures ok && |st.order| > 0 && (|st.order| > 1 || st.order[0] == f) ==> Focused(st') == Some(f)
  {
    var o := st.order;
    if |o| > 1 && o[0] != f {
      var last := o[0];
      if last.modal {
        return false, st;
      }
      o := o[0 := f];
      var n := 1;
      while n < |o|
        invariant 1 <= n <= |o| == |st.order|
        invariant o == [f] + st.order[..n - 1] + st.order[n..]
        invariant last == st.order[n - 1]
        invariant forall i :: 0 <= i < n ==> st.order[i] != f
      {
        var tmp := o[n];
        o := o[n := last];
        last := tmp;
        assert o == [f] + st.order[..n] + st.order[n + 1..];
        if last == f {
          break;
        }
        n := n + 1;
      }
      assert o == Raised(st.order, f);
    }
    ok := true;
    st' := State(o, st.visible + {f});
  }

  /** focusable_add: the new focusable goes in front of all the others and
      is shown, which leaves it visible and focused. */
  method Add(st: State, f: Focusable) returns (st': State)
    ensures st'.order == [f] + st.order
    ensures st'.visible == st.visible + {f}
    ensures Focused(st') == Some(f)
  {
    var o := [f] + st.order;
    var ok;
    ok, st' := Show(State(o, st.visible), f);
  }

  /** focusable_close: `accepted` is the answer of the focusable's close
      callback (true for one without a callback, whose window is simply
      closed). A refusal changes nothing; otherwise the focusable leaves the
      array and the count drops by one. */
  method Close(st: State, f: Focusable, accepted: bool) returns (ok: bool, st': State)
    requires |st.order| > 0
    ensures ok == accepted
    ensures !ok ==> st' == st
    ensures ok ==> st'.order == Removed(st.order, f) && st'.visible == st.visible
    ensures ok ==> |st'.order| == |st.order| - 1
  {
    if !accepted {
      return false, st;
    }
    var o := st.order;
    var n := 0;
    while n < |o| && o[n] != f
      invariant n <= |o| && forall i :: 0 <= i < n ==> o[i] != f
    {
      n := n + 1;
    }
    if n < |o| {
      o := ShiftDown(o, n);
    }
    o := o[..|o| - 1];
    assert o == Removed(st.order, f);
    st' := State(o, st.visible);
    if |o| > 0 && o[0] in st.visible {
      var shown;
      shown, st' := Show(st', o[0]);
    }
    ok := true;
  }

  /** The shift loop of focusable_close and focusable_hide: every entry
      after `k` moves up by one; the last one stays where it was. */
  method ShiftDown(s: seq<Focusable>, k: nat) returns (r: seq<Focusable>)
    requires k < |s|
    ensures r == s[..k] + s[k + 1..] + [s[|s| - 1]]
  {
    r := s;
    var n := k;
    while n < |s| - 1
      invariant k <= n <= |s| - 1
      invariant r == s[..k] + s[k + 1..n + 1] + s[n..]
    {
      r := r[n := r[n + 1]];
      n := n + 1;
    }
  }

  /** focusable_hide: the focusable stops being visible and goes to the back
      of the array. */
  method Hide(st: State, f: Focusable) returns (st': State)
    requires |st.order| > 0
    ensures st'.order == Removed(st.order, f) + [f]
    ensures st'.visible == st.visible - {f}
  {
    var o := st.order;
    var n := 0;
    while n < |o| && o[n] != f
      invariant n <= |o| && forall i :: 0 <= i < n ==> o[i] != f
    {
      n := n + 1;
    }
    if n < |o| {
      o := ShiftDown(o, n);
    }
    o := o[|o| - 1 := f];
    assert o == Removed(st.order, f) + [f];
    st' := State(o, st.visible - {f});
  }

  // ---------------------------------------------------------------------
  // How the operations relate

  /** Closing a focusable just added gives the array back. */
  lemma CloseUndoesAdd(s: seq<Focusable>, f: Focusable)
    requires f !in s
    ensures Removed([f] + s, f) == s
  {
  }

  /** Taking out an entry that is there keeps every other entry, in order,
      and loses only that one. */
  lemma RemovedKeepsOthers(s: seq<Focusable>, x: Focusable)
    requires x in s
    ensures multiset(Removed(s, x)) + multiset{x} == multiset(s)
    ensures var k := FirstIndex(s, x); Removed(s, x)[..k] == s[..k] && Removed(s, x)[k..] == s[k + 1..]
  {
    var k := FirstIndex(s, x);
    var a, b := s[..k], s[k + 1..];
    assert s == a + [x] + b;
    assert Removed(s, x) == a + b;
    assert (a + b)[..k] == a && (a + b)[k..] == b;
  }

  /** Bringing an entry that is there to the front reorders the array and
      leaves the entries after it where they were. */
  lemma RaisedPermutes(s: seq<Focusable>, x: Focusable)
    requires x in s
    ensures multiset(Raised(s, x)) == multiset(s)
    ensures var k := FirstIndex(s, x); Raised(s, x)[k + 1..] == s[k + 1..] && Raised(s, x)[1..k + 1] == s[..k]
  {
    var k := FirstIndex(s, x);
    var a, b := s[..k], s[k + 1..];
    assert s == a + [x] + b;
    assert Raised(s, x) == [x] + a + b;
    assert ([x] + a + b)[k + 1..] == b && ([x] + a + b)[1..k + 1] == a;
  }

  /** Hiding the only visible focusable leaves nothing focused. */
  lemma HideUnfocuses(st: State, f: Focusable, st': State)
    requires |st.order| > 0
    requires st'.order == Removed(st.order, f) + [f] && st'.visible == st.visible - {f}
    requires st.visible <= {f}
    ensures Focused(st') == None
  {
  }
}

=== FILE: option.dfy ===
/** The optional value the C code expresses with a NULL pointer. */
module Options {

  datatype Option<+T> = None | Some(value: T)
}

=== FILE: repo_records.dfy ===
/**
 The records a repository keeps in its BILE file (repo.c, repo.h): the
 amendment record with its marshalled byte layout and parser, the file
 record parser, the two sorts run when a repository is opened, the lookup of
 a file by id, the seeding of the next ids, and the text header shown above
 an amendment's diff.

 Every multi-byte number in an amendment record is big-endian; the author is
 a Pascal string (a length byte, then the bytes); the log follows its
 two-byte length raw.
 */
module RepoRecords {
  import opened Bytes
  import opened CType
  import opened Options
  import Sorting
  import NatCompare

  /** sizeof(amendment->author): 31 bytes and the NUL. */
  const AUTHOR_SIZE: nat := 32

  /** struct repo_amendment. `fileIds` holds `nfiles` ids and `log` holds
      `log_len` bytes. */
  datatype Amendment = Amendment(
    id: nat, date: nat, author: seq<byte>, fileIds: seq<nat>, adds: nat, subs: nat, log: seq<byte>)

  /** What the C fields can hold: 16-bit words, a 32-bit date, and an author
      that is a C string fitting its 32-byte array. */
  predicate AmendmentFits(a: Amendment) {
    a.id < U16_LIMIT && a.date < U32_LIMIT &&
    NoNul(a.author) && |a.author| < AUTHOR_SIZE && BodyFits(BodyOf(a))
  }

  /** The length repo_marshall_amendment computes before it writes. */
  function MarshalledLength(a: Amendment): nat {
    4 + 1 + |a.author| + 2 + 2 * |a.fileIds| + 2 + 2 + 2 + |a.log|
  }

  /** Each id as two big-endian bytes. */
  function Words(ids: seq<nat>): (r: seq<byte>)
    ensures |r| == 2 * |ids|
  {
    if ids == [] then [] else Be16(ids[0]) + Words(ids[1..])
  }

  /** `n` big-endian words read from the front of `bs`. */
  function ReadWords(bs: seq<byte>, n: nat): (ids: seq<nat>)
    requires |bs| >= 2 * n
    ensures |ids| == n
    ensures forall i :: 0 <= i < n ==> ids[i] < U16_LIMIT
  {
    if n == 0 then [] else [ReadBe16(bs)] + ReadWords(bs[2..], n - 1)
  }

  /** repo_marshall_amendment: the date, the author as a Pascal string,
      then the body. The length it allocates and checks is a 16-bit word,
      so the record must stay below 65536 bytes. */
  function MarshallAmendment(a: Amendment): (r: seq<byte>)
    requires AmendmentFits(a) && MarshalledLength(a) < U16_LIMIT
    ensures |r| == MarshalledLength(a)
  {
    Be32(a.date) + ([|a.author|] + (a.author + BodyLayout(BodyOf(a))))
  }

  /** The part of an amendment record after the author. */
  datatype Body = Body(fileIds: seq<nat>, adds: nat, subs: nat, log: seq<byte>)

  /** The part after the file ids. */
  datatype Tail = Tail(adds: nat, subs: nat, log: seq<byte>)

  function BodyOf(a: Amendment): Body {
    Body(a.fileIds, a.adds, a.subs, a.log)
  }

  /** The file count and ids, then the additions, the subtractions, the log
      length and the log. */
  function BodyLayout(b: Body): (r: seq<byte>)
    ensures |r| == 8 + 2 * |b.fileIds| + |b.log|
  {
    Be16(|b.fileIds|) + (Words(b.fileIds) + TailLayout(Tail(b.adds, b.subs, b.log)))
  }

  function TailLayout(t: Tail): (r: seq<byte>)
    ensures |r| == 6 + |t.log|
  {
    Be16(t.adds) + (Be16(t.subs) + (Be16(|t.log|) + t.log))
  }

  predicate TailFits(t: Tail) {
    t.adds < U16_LIMIT && t.subs < U16_LIMIT && |t.log| < U16_LIMIT
  }

  predicate BodyFits(b: Body) {
    |b.fileIds| < U16_LIMIT && (forall i :: 0 <= i < |b.fileIds| ==> b.fileIds[i] < U16_LIMIT) &&
    TailFits(Tail(b.adds, b.subs, b.log))
  }

  /** The fields after the file ids; `None` where the record ends before
      the log it announces. */
  function ParseTail(u: seq<byte>): (r: Option<Tail>)
    ensures r.Some? ==> 6 + |r.value.log| <= |u|
  {
    if |u| < 6 then None
    else
      var len: nat := ReadBe16(u[4..]);
      if |u| < 6 + len then None
      else Some(Tail(ReadBe16(u), ReadBe16(u[2..]), u[6..6 + len]))
  }

  /** The fields after the author: `None` where the record ends before a
      field it announces. */
  function ParseBody(t: seq<byte>): (r: Option<Body>)
    ensures r.Some? ==> 8 + 2 * |r.value.fileIds| + |r.value.log| <= |t|
  {
    if |t| < 2 then None
    else
      var n: nat := ReadBe16(t);
      if |t| < 2 + 2 * n then None
      else
        match ParseTail(t[2 + 2 * n..])
        case None => None
        case Some(u) => Some(Body(ReadWords(t[2..], n), u.adds, u.subs, u.log))
  }

  /** repo_parse_amendment: the author keeps at most 31 bytes, but the
      parser skips the whole Pascal string; the record's size is never
      compared with what was read. The C code reads past the record where
      it ends early; the model answers `None` there. */
  function ParseAmendment(id: nat, data: seq<byte>): (r: Option<Amendment>)
    ensures r.Some? ==> r.value.id == id % U16_LIMIT && r.value.date < U32_LIMIT
    ensures r.Some? ==> NoNul(r.value.author) && |r.value.author| < AUTHOR_SIZE
  {
    if |data| < 5 || |data| < 5 + data[4] as int then None
    else
      var n: nat := data[4];
      var author := UpToNul(data[5..5 + Min(n, AUTHOR_SIZE - 1)]);
      Assemble(id, ReadBe32(data), author, ParseBody(data[5 + n..]))
  }

  /** The amendment's id field is a 16-bit word, so the object id is kept
      modulo 2^16. */
  function Assemble(id: nat, date: nat, author: seq<byte>, body: Option<Body>): Option<Amendment> {
    match body
    case None => None
    case Some(b) => Some(Amendment(id % U16_LIMIT, date, author, b.fileIds, b.adds, b.subs, b.log))
  }

  // ---------------------------------------------------------------------
  // Amendment round trip

  /** A big-endian word at the front reads back, and what follows it is
      left as it was. */
  lemma Be16Front(v: U16, rest: seq<byte>)
    ensures ReadBe16(Be16(v) + rest) == v
    ensures (Be16(v) + rest)[2..] == rest
  {
    Be16RoundTrip(v);
  }

  lemma {:induction false} WordsRoundTrip(ids: seq<nat>, rest: seq<byte>)
    requires forall i :: 0 <= i < |ids| ==> ids[i] < U16_LIMIT
    ensures ReadWords(Words(ids) + rest, |ids|) == ids
    ensures (Words(ids) + rest)[2 * |ids|..] == rest
  {
    if ids != [] {
      assert Words(ids) + rest == Be16(ids[0]) + (Words(ids[1..]) + rest);
      Be16Front(ids[0], Words(ids[1..]) + rest);
      WordsRoundTrip(ids[1..], rest);
    }
  }

  lemma TailRoundTrip(t: Tail)
    requires TailFits(t)
    ensures ParseTail(TailLayout(t)) == Some(t)
  {
    var u := TailLayout(t);
    var v := Be16(t.subs) + (Be16(|t.log|) + t.log);
    var w := Be16(|t.log|) + t.log;
    Be16Front(t.adds, v);
    Be16Front(t.subs, w);
    Be16Front(|t.log|, t.log);
    assert u[2..] == v && u[4..] == w && u[6..6 + |t.log|] == t.log;
  }

  /** The fields after the author read back from their layout. */
  lemma BodyRoundTrip(b: Body)
    requires BodyFits(b)
    ensures ParseBody(BodyLayout(b)) == Some(b)
  {
    var n := |b.fileIds|;
    var tail := Tail(b.adds, b.subs, b.log);
    var rest := Words(b.fileIds) + TailLayout(tail);
    var t := BodyLayout(b);
    Be16Front(n, rest);
    WordsRoundTrip(b.fileIds, TailLayout(tail));
    assert t[2 + 2 * n..] == rest[2 * n..];
    TailRoundTrip(tail);
  }

  /** Parsing a marshalled amendment gives it back. */
  lemma AmendmentRoundTrip(a: Amendment)
    requires AmendmentFits(a) && MarshalledLength(a) < U16_LIMIT
    ensures ParseAmendment(a.id, MarshallAmendment(a)) == Some(a)
  {
    var t := BodyLayout(BodyOf(a));
    AuthorTruncated(a.id, a.date, a.author, t);
    UpToNulOfString(a.author);
    BodyRoundTrip(BodyOf(a));
    assert a.id % U16_LIMIT == a.id;
  }

  /** The parser reads nothing past the record it announces, so bytes after
      it never change the result. */
  lemma ParseIgnoresTrailing(id: nat, data: seq<byte>, extra: seq<byte>)
    requires ParseAmendment(id, data).Some?
    ensures ParseAmendment(id, data + extra) == ParseAmendment(id, data)
  {
    ParseAmendmentFields(id, data);
    ExtendedFields(id, data, extra);
  }

  /** The fields of an amendment read from its bytes with more after them
      are the ones read from its bytes alone. */
  lemma ExtendedFields(id: nat, data: seq<byte>, extra: seq<byte>)
    requires |data| >= 5 && |data| >= 5 + data[4] as int && ParseBody(data[5 + data[4] as int..]).Some?
    ensures var n := data[4] as int;
      ParseAmendment(id, data + extra) ==
      Assemble(id, ReadBe32(data), UpToNul(data[5..5 + Min(n, AUTHOR_SIZE - 1)]), ParseBody(data[5 + n..]))
  {
    var d := data + extra;
    var n: nat := data[4];
    var m := Min(n, AUTHOR_SIZE - 1);
    assert d[4] == data[4];
    assert d[5..5 + m] == data[5..5 + m];
    assert d[5 + n..] == data[5 + n..] + extra;
    assert ReadBe32(d) == ReadBe32(data) by {
      assert d[0] == data[0] && d[1] == data[1] && d[2] == data[2] && d[3] == data[3];
    }
    BodyIgnoresTrailing(data[5 + n..], extra);
    ParseAmendmentFields(id, d);
  }

  /** ParseAmendment on input long enough for the author it announces. */
  lemma ParseAmendmentFields(id: nat, data: seq<byte>)
    requires |data| >= 5 && |data| >= 5 + data[4] as int
    ensures var n := data[4] as int;
      ParseAmendment(id, data) ==
      Assemble(id, ReadBe32(data), UpToNul(data[5..5 + Min(n, AUTHOR_SIZE - 1)]), ParseBody(data[5 + n..]))
  {
  }

  lemma BodyIgnoresTrailing(t: seq<byte>, extra: seq<byte>)
    requires ParseBody(t).Some?
    ensures ParseBody(t + extra) == ParseBody(t)
  {
    var n: nat := ReadBe16(t);
    var u := t + extra;
    assert u[..2] == t[..2];
    assert u[2..][..2 * n] == t[2..][..2 * n];
    ReadWordsPrefix(t[2..], u[2..], n);
    assert u[2 + 2 * n..] == t[2 + 2 * n..] + extra;
    TailIgnoresTrailing(t[2 + 2 * n..], extra);
  }

  lemma TailIgnoresTrailing(u: seq<byte>, extra: seq<byte>)
    requires ParseTail(u).Some?
    ensures ParseTail(u + extra) == ParseTail(u)
  {
    var w := u + extra;
    assert w[..6] == u[..6];
    var len: nat := ReadBe16(u[4..]);
    assert w[6..6 + len] == u[6..6 + len];
  }

  lemma {:induction false} ReadWordsPrefix(a: seq<byte>, b: seq<byte>, n: nat)
    requires |a| >= 2 * n && |b| >= 2 * n && a[..2 * n] == b[..2 * n]
    ensures ReadWords(a, n) == ReadWords(b, n)
  {
    if n > 0 {
      assert a[..2] == a[..2 * n][..2] && b[..2] == b[..2 * n][..2];
      assert a[2..][..2 * (n - 1)] == a[..2 * n][2..];
      assert b[2..][..2 * (n - 1)] == b[..2 * n][2..];
      ReadWordsPrefix(a[2..], b[2..], n - 1);
    }
  }

  /** An author longer than 31 bytes is cut to 31, yet the parser steps over
      all of it: the fields after it are read from where the full Pascal
      string ends. */
  lemma AuthorTruncated(id: nat, date: U32, name: seq<byte>, t: seq<byte>)
    requires |name| < 256
    ensures ParseAmendment(id, Be32(date) + ([|name|] + (name + t))) ==
      Assemble(id, date, UpToNul(name[..Min(|name|, AUTHOR_SIZE - 1)]), ParseBody(t))
  {
    var rest := [|name|] + (name + t);
    var data := Be32(date) + rest;
    var n := |name|;
    var m := Min(n, AUTHOR_SIZE - 1);
    Be32Front(date, rest);
    assert rest[0] == n && rest[1..] == name + t;
    assert data[4] == n;
    assert data[5..] == name + t by {
      assert data[5..] == data[4..][1..];
    }
    assert data[5..5 + m] == name[..m] by {
      assert data[5..5 + m] == data[5..][..m];
    }
    assert data[5 + n..] == t by {
      assert data[5 + n..] == data[5..][n..];
    }
    ParseAmendmentUnfold(id, data);
  }

  /** The parser's one case that reads a record, spelled out. */
  lemma ParseAmendmentUnfold(id: nat, data: seq<byte>)
    requires |data| >= 5 && |data| >= 5 + data[4] as int
    ensures ParseAmendment(id, data) ==
      Assemble(id, ReadBe32(data), UpToNul(data[5..5 + Min(data[4], AUTHOR_SIZE - 1)]), ParseBody(data[5 + data[4] as int..]))
  {
  }

  lemma Be32Front(v: U32, rest: seq<byte>)
    ensures ReadBe32(Be32(v) + rest) == v
    ensures (Be32(v) + rest)[4..] == rest
  {
    Be32RoundTrip(v);
  }

  // ---------------------------------------------------------------------
  // File records

  /** struct repo_file. `typ` and `auxType` are the four raw bytes of the
      host's `long`s, copied as they lie. */
  datatype RepoFile = RepoFile(
    id: nat, filename: seq<byte>, typ: seq<byte>, auxType: seq<byte>, ctime: nat, mtime: nat, flags: byte)

  predicate FileFits(f: RepoFile) {
    f.id < U16_LIMIT && |f.filename| < 256 && |f.typ| == 4 && |f.auxType| == 4 && f.ctime < U32_LIMIT && f.mtime < U32_LIMIT
  }

  /** The bytes repo_parse_file reads: the name as a Pascal string, type
      and aux type raw, the two dates big-endian, the flag byte. */
  function FileLayout(f: RepoFile): (r: seq<byte>)
    requires FileFits(f)
    ensures |r| == |f.filename| + 18
  {
    [|f.filename|] + f.filename + f.typ + f.auxType + Be32(f.ctime) + Be32(f.mtime) + [f.flags]
  }

  /** repo_parse_file. The id lands in a 16-bit field. It gives up (the C code panics) unless the bytes it
      consumed are exactly the object's size. */
  function ParseFile(id: nat, data: seq<byte>): (r: Option<RepoFile>)
    ensures r.Some? <==> |data| > 0 && |data| == data[0] as int + 18
    ensures r.Some? ==> r.value.id == id % U16_LIMIT && FileFits(r.value)
  {
    if |data| == 0 || |data| != data[0] as int + 18 then None
    else
      var n: nat := data[0];
      Some(RepoFile(id % U16_LIMIT, data[1..1 + n], data[1 + n..5 + n], data[5 + n..9 + n],
                    ReadBe32(data[9 + n..]), ReadBe32(data[13 + n..]), data[17 + n]))
  }

  /** The parse is exact: laying the parsed record out again gives the
      input back. */
  lemma ParseFileExact(id: nat, data: seq<byte>)
    requires ParseFile(id, data).Some?
    ensures FileLayout(ParseFile(id, data).value) == data
  {
    var f := ParseFile(id, data).value;
    var n: nat := data[0];
    assert |f.filename| == n;
    Be32Decoded(data[9 + n..13 + n]);
    Be32Decoded(data[13 + n..17 + n]);
    assert Be32(f.ctime) == data[9 + n..13 + n] by {
      assert data[9 + n..][..4] == data[9 + n..13 + n];
    }
    assert Be32(f.mtime) == data[13 + n..17 + n] by {
      assert data[13 + n..][..4] == data[13 + n..17 + n];
    }
    assert data[..9 + n] == [data[0]] + f.filename + f.typ + f.auxType;
    assert data[..17 + n] == data[..9 + n] + Be32(f.ctime) + Be32(f.mtime);
    assert data == data[..17 + n] + [f.flags];
  }

  /** Parsing the layout of a record gives the record back. */
  lemma FileRoundTrip(f: RepoFile)
    requires FileFits(f)
    ensures ParseFile(f.id, FileLayout(f)) == Some(f)
  {
    var data := FileLayout(f);
    var n := |f.filename|;
    assert data[0] == n;
    assert data[1..1 + n] == f.filename;
    assert data[1 + n..5 + n] == f.typ;
    assert data[5 + n..9 + n] == f.auxType;
    assert data[9 + n..][..4] == Be32(f.ctime);
    assert data[13 + n..][..4] == Be32(f.mtime);
    Be32RoundTrip(f.ctime);
    Be32RoundTrip(f.mtime);
  }

  /** repo_file_with_id: the first file with the id, `None` when there is
      none. */
  method FileWithId(files: seq<RepoFile>, id: nat) returns (r: Option<RepoFile>)
    ensures r.None? <==> forall i :: 0 <= i < |files| ==> files[i].id != id
    ensures r.Some? ==> (r.value.id == id &&
      exists i :: 0 <= i < |files| && files[i] == r.value && forall k :: 0 <= k < i ==> files[k].id != id)
  {
    var i := 0;
    while i < |files|
      invariant 0 <= i <= |files|
      invariant forall k :: 0 <= k < i ==> files[k].id != id
    {
      if files[i].id == id {
        return Some(files[i]);
      }
      i := i + 1;
    }
    return None;
  }

  // ---------------------------------------------------------------------
  // Sorting

  /** The swap test of repo_sort_files: strnatcmp of the names is 1. */
  predicate NameAfter(x: RepoFile, y: RepoFile) {
    NatCompare.NatCmp(x.filename, y.filename) == 1
  }

  lemma NameAfterAsymmetric()
    ensures Sorting.Asymmetric(NameAfter)
  {
    forall x, y | NameAfter(x, y)
      ensures !NameAfter(y, x)
    {
      NatCompare.NatCmpAsymmetric(x.filename, y.filename);
    }
  }

  /** repo_sort_files: the files permuted so that no name sorts naturally
      after the name that follows it. */
  method SortFiles(files: seq<RepoFile>) returns (r: seq<RepoFile>)
    ensures multiset(r) == multiset(files)
    ensures forall k :: 0 <= k < |r| - 1 ==> NatCompare.NatCmp(r[k].filename, r[k + 1].filename) != 1
  {
    r := Sorting.BubbleSort(files, NameAfter);
    NameAfterAsymmetric();
    assert Sorting.AdjacentSorted(r, NameAfter);
  }

  /** The swap test of repo_sort_amendments: the left id is smaller. */
  predicate Older(x: Amendment, y: Amendment) {
    x.id < y.id
  }

  lemma OlderIsWeakOrder()
    ensures Sorting.WeakOrder(Older)
  {
  }

  /** repo_sort_amendments: newest first, the ids never increasing. */
  method SortAmendments(amendments: seq<Amendment>) returns (r: seq<Amendment>)
    ensures multiset(r) == multiset(amendments)
    ensures forall i, j :: 0 <= i < j < |r| ==> r[i].id >= r[j].id
  {
    r := Sorting.BubbleSort(amendments, Older);
    OlderIsWeakOrder();
    assert Sorting.SortedBy(r, Older);
  }

  // ---------------------------------------------------------------------
  // Next ids

  /** The largest id, 0 for none. */
  function MaxId(ids: seq<nat>): (m: nat)
    ensures forall i :: 0 <= i < |ids| ==> ids[i] <= m
    ensures ids != [] ==> m in ids
    ensures ids == [] ==> m == 0
  {
    if ids == [] then 0
    else
      var m := MaxId(ids[..|ids| - 1]);
      assert ids == ids[..|ids| - 1] + [ids[|ids| - 1]];
      if ids[|ids| - 1] > m then ids[|ids| - 1] else m
  }

  /** Every id is below `bound`. */
  predicate AllBelow(ids: seq<nat>, bound: nat) {
    forall i :: 0 <= i < |ids| ==> ids[i] < bound
  }

  /** One step of the seeding keeps `next` one past the largest id seen. */
  lemma NextIdStep(s: seq<nat>, id: nat, next: nat)
    requires next == MaxId(s) + 1
    ensures MaxId(s + [id]) + 1 == if id >= next then id + 1 else next
  {
    assert (s + [id])[..|s|] == s;
  }

  lemma AllBelowSnoc(s: seq<nat>, id: nat, bound: nat)
    ensures AllBelow(s + [id], bound) <==> AllBelow(s, bound) && id < bound
  {
    assert (s + [id])[|s|] == id;
    assert forall k :: 0 <= k < |s| ==> (s + [id])[k] == s[k];
  }

  /** The seeding of next_file_id and next_amendment_id in repo_init: start
      at 1 and move to id + 1 for every parsed id at or above it. The field
      is a 16-bit word, so an id of 65535 wraps it to 0. */
  method NextId(ids: seq<nat>) returns (next: nat)
    requires AllBelow(ids, U16_LIMIT)
    ensures next < U16_LIMIT
    ensures AllBelow(ids, U16_LIMIT - 1) ==> next == MaxId(ids) + 1
  {
    next := 1;
    var i := 0;
    while i < |ids|
      invariant 0 <= i <= |ids| && next < U16_LIMIT
      invariant AllBelow(ids[..i], U16_LIMIT - 1) ==> next == MaxId(ids[..i]) + 1
    {
      var id := ids[i];
      assert ids[..i + 1] == ids[..i] + [id];
      AllBelowSnoc(ids[..i], id, U16_LIMIT - 1);
      if AllBelow(ids[..i], U16_LIMIT - 1) {
        NextIdStep(ids[..i], id, next);
      }
      if id >= next {
        next := if id == U16_LIMIT - 1 then 0 else id + 1;
      }
      i := i + 1;
    }
    assert ids[..i] == ids;
  }

  // ---------------------------------------------------------------------
  // The diff header

  const SP: byte := 32
  const TAB: byte := 9

  /** The header sprintf writes: "Author:\t<author>\rDate:\t<date>\r\r  ".
      The date's text comes from the toolbox and is a parameter. */
  function HeaderPrefix(author: seq<byte>, dateText: seq<byte>): (r: seq<byte>)
    ensures |r| == 19 + |author| + |dateText|
  {
    [65, 117, 116, 104, 111, 114, 58, TAB] + author + [CR] +
    [68, 97, 116, 101, 58, TAB] + dateText + [CR, CR, SP, SP]
  }

  /** A carriage return that is not the last byte of the log. */
  predicate InnerCR(log: seq<byte>, i: nat)
    requires i < |log|
  {
    log[i] == CR && i < |log| - 1
  }

  /** What the copy loop emits for the log's byte `i`. */
  function Piece(log: seq<byte>, i: nat): (r: seq<byte>)
    requires i < |log|
  {
    if InnerCR(log, i) then [CR, SP, SP] else [log[i]]
  }

  /** The copy of the first `k` bytes of the log, each line after the first
      indented by two spaces. */
  function Indented(log: seq<byte>, k: nat): (r: seq<byte>)
    requires k <= |log|
  {
    if k == 0 then [] else Indented(log, k - 1) + Piece(log, k - 1)
  }

  /** The inner carriage returns among the first `k` bytes. */
  function InnerCRs(log: seq<byte>, k: nat): nat
    requires k <= |log|
  {
    if k == 0 then 0 else InnerCRs(log, k - 1) + (if InnerCR(log, k - 1) then 1 else 0)
  }

  /** Where the log's byte `i` lands when the copy starts at `start`: two
      places further for every inner carriage return before it. */
  function Landing(start: nat, log: seq<byte>, i: nat): nat
    requires i <= |log|
  {
    start + i + 2 * InnerCRs(log, i)
  }

  /** `r` holds, from `start` on, each byte of the log at its landing place,
      with two spaces after every inner carriage return. */
  predicate LaidOut(r: seq<byte>, start: nat, log: seq<byte>) {
    forall i :: 0 <= i < |log| ==> Placed(r, start, log, i)
  }

  predicate Placed(r: seq<byte>, start: nat, log: seq<byte>, i: nat)
    requires i < |log|
  {
    var at := Landing(start, log, i);
    at < |r| && r[at] == log[i] &&
    (InnerCR(log, i) ==> at + 3 <= |r| && r[at + 1..at + 3] == [SP, SP])
  }

  /** repo_diff_header: the prefix, the log with two spaces after every
      carriage return but a final one, then two carriage returns. */
  method DiffHeader(author: seq<byte>, dateText: seq<byte>, log: seq<byte>) returns (r: seq<byte>)
    ensures |r| == |HeaderPrefix(author, dateText)| + |log| + 2 * InnerCRs(log, |log|) + 2
    ensures r[..|HeaderPrefix(author, dateText)|] == HeaderPrefix(author, dateText)
    ensures LaidOut(r, |HeaderPrefix(author, dateText)|, log)
    ensures r[|r| - 2..] == [CR, CR]
  {
    var prefix := HeaderPrefix(author, dateText);
    r := prefix;
    var i := 0;
    while i < |log|
      invariant 0 <= i <= |log|
      invariant r == prefix + Indented(log, i)
    {
      r := r + [log[i]];
      if log[i] == CR && i < |log| - 1 {
        r := r + [SP, SP];
      }
      i := i + 1;
    }
    IndentedShape(log, |log|);
    HeaderLaidOut(prefix, Indented(log, |log|), log);
    r := r + [CR, CR];
  }

  /** The places of the log's bytes carry over from the indented copy to the
      header around it. */
  lemma HeaderLaidOut(prefix: seq<byte>, body: seq<byte>, log: seq<byte>)
    requires body == Indented(log, |log|)
    ensures LaidOut(prefix + body + [CR, CR], |prefix|, log)
  {
    forall i | 0 <= i < |log|
      ensures Placed(prefix + body + [CR, CR], |prefix|, log, i)
    {
      IndentedPlaces(log, |log|, i);
      HeaderPlace(prefix, body, [CR, CR], log, i);
    }
  }

  /** A byte placed in the copy stays placed once the prefix is put before
      it and anything after it. */
  lemma HeaderPlace(prefix: seq<byte>, body: seq<byte>, tail: seq<byte>, log: seq<byte>, i: nat)
    requires i < |log| && Placed(body, 0, log, i)
    ensures Placed(prefix + body + tail, |prefix|, log, i)
  {
    var r := prefix + body + tail;
    var at := i + 2 * InnerCRs(log, i);
    assert r[|prefix| + at] == body[at];
    if InnerCR(log, i) {
      assert r[|prefix| + at + 1..|prefix| + at + 3] == body[at + 1..at + 3];
    }
  }

  lemma {:induction false} IndentedShape(log: seq<byte>, k: nat)
    requires k <= |log|
    ensures |Indented(log, k)| == k + 2 * InnerCRs(log, k)
  {
    if k > 0 {
      IndentedShape(log, k - 1);
    }
  }

  /** Byte `i` of the log sits at `i` plus two for every inner carriage
      return before it, followed by two spaces when it is one itself. */
  lemma {:induction false} IndentedPlaces(log: seq<byte>, k: nat, i: nat)
    requires i < k <= |log|
    ensures Placed(Indented(log, k), 0, log, i)
  {
    var a := Indented(log, k - 1);
    var p := Piece(log, k - 1);
    assert Indented(log, k) == a + p;
    var at := i + 2 * InnerCRs(log, i);
    IndentedShape(log, k - 1);
    if i < k - 1 {
      IndentedPlaces(log, k - 1, i);
      HeaderPlace([], a, p, log, i);
      assert [] + a + p == a + p;
    } else {
      PlacedLast(a, log, i);
    }
  }

  /** The piece of the last byte copied starts right where the copy ended. */
  lemma PlacedLast(a: seq<byte>, log: seq<byte>, i: nat)
    requires i < |log| && |a| == i + 2 * InnerCRs(log, i)
    ensures Placed(a + Piece(log, i), 0, log, i)
  {
    var p := Piece(log, i);
    assert (a + p)[|a|] == p[0];
    if InnerCR(log, i) {
      assert (a + p)[|a| + 1..|a| + 3] == p[1..3];
    }
  }

  /** The buffer repo_diff_header allocates. */
  function AllocatedSize(log: seq<byte>): nat {
    128 + |log|
  }

  /** The header repo_diff_header writes outgrows its buffer as soon as the
      log has 54 inner carriage returns, whatever the author and the date;
      a log of sixty empty lines under an empty author and date does. */
  lemma HeaderOverflows(author: seq<byte>, dateText: seq<byte>, log: seq<byte>)
    ensures InnerCRs(log, |log|) >= 54 ==> RequiredSize(author, dateText, log) > AllocatedSize(log)
    ensures var empty := seq(60, i => CR);
      RequiredSize([], [], empty) > AllocatedSize(empty)
  {
    var empty: seq<byte> := seq(60, i => CR);
    AllCRs(empty, 60);
  }

  lemma {:induction false} AllCRs(log: seq<byte>, k: nat)
    requires 0 < k <= |log|
    requires forall i :: 0 <= i < |log| ==> log[i] == CR
    ensures InnerCRs(log, k) == (if k == |log| then k - 1 else k)
  {
    if k > 1 {
      AllCRs(log, k - 1);
    }
  }

  /** The size the header needs: the prefix, the log, two spaces per inner
      carriage return and the closing pair. */
  function RequiredSize(author: seq<byte>, dateText: seq<byte>, log: seq<byte>): nat {
    |HeaderPrefix(author, dateText)| + |log| + 2 * InnerCRs(log, |log|) + 2
  }

  /** With the buffer sized as required, every header fits, and never needs
      more than three bytes per log byte beyond the prefix. */
  method DiffHeaderSized(author: seq<byte>, dateText: seq<byte>, log: seq<byte>) returns (r: seq<byte>, size: nat)
    ensures size == RequiredSize(author, dateText, log) && |r| == size
    ensures size <= |HeaderPrefix(author, dateText)| + 3 * |log| + 2
    ensures r[..|HeaderPrefix(author, dateText)|] == HeaderPrefix(author, dateText)
  {
    size := RequiredSize(author, dateText, log);
    r := DiffHeader(author, dateText, log);
    InnerCRsAtMost(log, |log|);
  }

  lemma {:induction false} InnerCRsAtMost(log: seq<byte>, k: nat)
    requires k <= |log|
    ensures InnerCRs(log, k) <= k
  {
    if k > 0 {
      InnerCRsAtMost(log, k - 1);
    }
  }
}

=== FILE: seqs.dfy ===
/** Searches over sequences shared by several modules. */
module Seqs {

  /** The first position holding `x`, or the length when there is none. */
  function FirstIndex<T(==)>(s: seq<T>, x: T): (k: nat)
    ensures k <= |s| && (k < |s| ==> s[k] == x)
    ensures forall i :: 0 <= i < k ==> s[i] != x
  {
    if s == [] then 0 else if s[0] == x then 0 else 1 + FirstIndex(s[1..], x)
  }
}

=== FILE: sorting.dfy ===
/**
 The exchange sort the program uses in three places (bile_sorted_ids_by_type,
 repo_sort_files, repo_sort_amendments): `count` passes, pass `n` walking
 `j` from 0 up to `count - n - 2` and swapping neighbours when the
 comparison says the left one belongs after the right one.

 The comparison is a parameter `gt`; the sort always permutes its input,
 leaves no neighbours out of order whenever `gt` is asymmetric, and leaves
 no pair at all out of order when `gt` is a strict weak order.
 */
module Sorting {

  /** `gt` is asymmetric and its complement is transitive, so "not after"
      is a total preorder. */
  ghost predicate WeakOrder<T(!new)>(gt: (T, T) -> bool) {
    (forall a, b :: gt(a, b) ==> !gt(b, a)) &&
    (forall a, b, c {:trigger Chains(gt, a, b, c)} :: Chains(gt, a, b, c))
  }

  /** "Not after" carries over from a to b to c. Transitivity is stated
      through this predicate so that it is only used where a proof names
      the three elements. */
  ghost predicate Chains<T>(gt: (T, T) -> bool, a: T, b: T, c: T) {
    !gt(a, b) && !gt(b, c) ==> !gt(a, c)
  }

  /** No element is followed by one it belongs after. */
  ghost predicate SortedBy<T>(s: seq<T>, gt: (T, T) -> bool) {
    forall i, j :: 0 <= i < j < |s| ==> !gt(s[i], s[j])
  }

  /** The exchange of two neighbours. */
  function Swap<T>(s: seq<T>, i: nat): (r: seq<T>)
    requires i + 1 < |s|
    ensures |r| == |s| && multiset(r) == multiset(s)
    ensures r[i] == s[i + 1] && r[i + 1] == s[i]
    ensures forall k :: 0 <= k < |s| && k != i && k != i + 1 ==> r[k] == s[k]
  {
    s[i := s[i + 1]][i + 1 := s[i]]
  }

  /** `gt` never holds both ways. */
  ghost predicate Asymmetric<T(!new)>(gt: (T, T) -> bool) {
    forall a, b :: gt(a, b) ==> !gt(b, a)
  }

  /** No element is directly followed by one it belongs after. */
  ghost predicate AdjacentSorted<T>(s: seq<T>, gt: (T, T) -> bool) {
    forall k :: 0 <= k < |s| - 1 ==> !gt(s[k], s[k + 1])
  }

  /** One exchange step at `j`. */
  function Step<T>(r: seq<T>, j: nat, gt: (T, T) -> bool): (r': seq<T>)
    requires j + 1 < |r|
    ensures |r'| == |r| && multiset(r') == multiset(r)
    ensures forall k :: 0 <= k < |r| && k != j && k != j + 1 ==> r'[k] == r[k]
    ensures !gt(r[j], r[j + 1]) ==> r' == r
    ensures gt(r[j], r[j + 1]) ==> r'[j] == r[j + 1] && r'[j + 1] == r[j]
  {
    if gt(r[j], r[j + 1]) then Swap(r, j) else r
  }

  /** What a pass leaves behind: `carry[k]` is the element the pass carried
      into position `k`; each element left at `k` is not after the one
      carried on from it, and is either that carried element itself or the
      carry did not change there. */
  ghost predicate Linked<T>(r: seq<T>, carry: seq<T>, top: nat, gt: (T, T) -> bool) {
    top < |r| && |carry| == top + 1 && r[top] == carry[top] &&
    forall k :: 0 <= k < top ==> !gt(r[k], carry[k + 1]) && (r[k] == carry[k] || carry[k + 1] == carry[k])
  }

  /** Part way through a pass that ends at `top`: the element carried to
      `j` is not after anything left before it, and nothing left in front
      of `top` is after anything past it. */
  ghost predicate WeakPass<T>(r: seq<T>, j: nat, top: nat, gt: (T, T) -> bool) {
    j <= top < |r| &&
    (forall k :: 0 <= k <= j ==> !gt(r[k], r[j])) &&
    (forall i, k :: 0 <= i <= top < k < |r| ==> !gt(r[i], r[k]))
  }

  lemma StepWeak<T(!new)>(r: seq<T>, j: nat, top: nat, gt: (T, T) -> bool)
    requires WeakOrder(gt) && WeakPass(r, j, top, gt) && j < top
    ensures WeakPass(Step(r, j, gt), j + 1, top, gt)
  {
    var r' := Step(r, j, gt);
    if !gt(r[j], r[j + 1]) {
      forall k | 0 <= k <= j
        ensures !gt(r[k], r[j + 1])
      {
        NotAfterTrans(gt, r[k], r[j], r[j + 1]);
      }
    }
    forall i, k | 0 <= i <= top < k < |r|
      ensures !gt(r'[i], r'[k])
    {
      if i == j {
        assert r'[i] == r[j] || r'[i] == r[j + 1];
      } else if i == j + 1 {
        assert r'[i] == r[j] || r'[i] == r[j + 1];
      }
    }
  }

  lemma NotAfterTrans<T(!new)>(gt: (T, T) -> bool, a: T, b: T, c: T)
    requires WeakOrder(gt) && !gt(a, b) && !gt(b, c)
    ensures !gt(a, c)
  {
    assert Chains(gt, a, b, c);
  }

  /** Part way through a pass: `cur` holds the carries so far. */
  ghost predicate CarryPass<T>(r: seq<T>, cur: seq<T>, j: nat, gt: (T, T) -> bool) {
    j < |r| && |cur| == j + 1 && cur[j] == r[j] &&
    (forall k :: 0 <= k < j ==> !gt(r[k], cur[k + 1]) && (r[k] == cur[k] || cur[k + 1] == cur[k])) &&
    (j >= 1 ==> !gt(r[j - 1], r[j]))
  }

  lemma StepCarry<T(!new)>(r: seq<T>, cur: seq<T>, j: nat, gt: (T, T) -> bool)
    requires Asymmetric(gt) && CarryPass(r, cur, j, gt) && j + 1 < |r|
    ensures CarryPass(Step(r, j, gt), cur + [Step(r, j, gt)[j + 1]], j + 1, gt)
  {
    var r' := Step(r, j, gt);
    var cur' := cur + [r'[j + 1]];
    assert forall k :: 0 <= k <= j ==> cur'[k] == cur[k];
    if gt(r[j], r[j + 1]) {
      assert !gt(r[j + 1], r[j]);
    }
  }

  /** The carry of the current pass is not after the previous pass's carry
      one place further on. */
  lemma StepLink<T(!new)>(s: seq<T>, r: seq<T>, prev: seq<T>, j: nat, top: nat, gt: (T, T) -> bool)
    requires Asymmetric(gt) && Linked(s, prev, top + 1, gt) && j < top
    requires |r| == |s| && r[j + 1] == s[j + 1] && !gt(r[j], prev[j + 1])
    ensures !gt(Step(r, j, gt)[j + 1], prev[j + 2])
  {
  }

  /** One pass of the exchange sort over positions 0 to `top`: neighbours
      are swapped when the left one belongs after the right one. `prev`
      holds the carries of the previous pass, when there was one. */
  method Pass<T(!new)>(s: seq<T>, top: nat, gt: (T, T) -> bool, ghost prev: seq<T>) returns (r: seq<T>, ghost cur: seq<T>)
    requires top < |s|
    requires WeakOrder(gt) ==> forall i, k :: 0 <= i <= top < k < |s| ==> !gt(s[i], s[k])
    ensures |r| == |s| && multiset(r) == multiset(s) && r[top + 1..] == s[top + 1..]
    ensures WeakOrder(gt) ==> WeakPass(r, top, top, gt)
    ensures Asymmetric(gt) ==> Linked(r, cur, top, gt)
    ensures Asymmetric(gt) && top >= 1 ==> !gt(r[top - 1], r[top])
    ensures Asymmetric(gt) && top + 1 < |s| && Linked(s, prev, top + 1, gt) ==> !gt(r[top], r[top + 1])
  {
    r := s;
    cur := [r[0]];
    var j := 0;
    ghost var linked := Asymmetric(gt) && top + 1 < |s| && Linked(s, prev, top + 1, gt);
    while j < top
      invariant |r| == |s| && 0 <= j <= top
      invariant multiset(r) == multiset(s)
      invariant forall k :: j < k < |r| ==> r[k] == s[k]
      invariant WeakOrder(gt) ==> WeakPass(r, j, top, gt)
      invariant Asymmetric(gt) ==> CarryPass(r, cur, j, gt)
      invariant |cur| == j + 1 && cur[j] == r[j]
      invariant linked ==> !gt(r[j], prev[j + 1])
    {
      if WeakOrder(gt) {
        StepWeak(r, j, top, gt);
      }
      if Asymmetric(gt) {
        StepCarry(r, cur, j, gt);
      }
      if linked {
        StepLink(s, r, prev, j, top, gt);
      }
      r := Step(r, j, gt);
      cur := cur + [r[j + 1]];
      j := j + 1;
    }
    assert r[top + 1..] == s[top + 1..];
  }

  /** The exchange sort. The ghost `prev` carries the previous pass's
      carries from pass to pass; their relation keeps the last exchange of
      a pass from disturbing the pair after it, so the result has no
      adjacent pair out of order for any asymmetric `gt`, transitive or
      not. */
  method BubbleSort<T(!new)>(s: seq<T>, gt: (T, T) -> bool) returns (r: seq<T>)
    ensures multiset(r) == multiset(s)
    ensures Asymmetric(gt) ==> AdjacentSorted(r, gt)
    ensures WeakOrder(gt) ==> SortedBy(r, gt)
  {
    r := s;
    var n := 0;
    ghost var prev: seq<T> := [];
    while n < |r|
      invariant |r| == |s| && 0 <= n <= |r|
      invariant multiset(r) == multiset(s)
      invariant WeakOrder(gt) ==> SortedBy(r[|r| - n..], gt)
      invariant WeakOrder(gt) ==> forall i, k :: 0 <= i < |r| - n <= k < |r| ==> !gt(r[i], r[k])
      invariant Asymmetric(gt) ==> forall k :: 0 <= k && |r| - n - 1 <= k < |r| - 1 ==> !gt(r[k], r[k + 1])
      invariant n >= 1 && Asymmetric(gt) ==> Linked(r, prev, |r| - n, gt)
    {
      ghost var before := r;
      r, prev := Pass(r, |r| - n - 1, gt, prev);
      assert forall k :: |r| - n <= k < |r| ==> r[k] == before[k];
      n := n + 1;
    }
  }
}

=== FILE: strnatcmp.dfy ===
/**
 Natural-order string comparison (strnatcmp.c): runs of digits compare as
 numbers, white space is skipped, everything else compares byte by byte.

 The C code walks two pointers; the model walks the suffixes they point at,
 so `a[1..]` stands for `a + 1`.
 */
module NatCompare {
  import opened Bytes
  import opened CType

  function Sign(x: int): (r: int)
    ensures r == -1 || r == 0 || r == 1
    ensures (r < 0 <==> x < 0) && (r == 0 <==> x == 0)
  {
    if x < 0 then -1 else if x > 0 then 1 else 0
  }

  predicate IsResult(r: int) {
    r == -1 || r == 0 || r == 1
  }

  /** The maximal run of digits at the front of `s`. */
  function Run(s: seq<byte>): (r: seq<byte>)
    ensures |r| <= |s|
    ensures forall i :: 0 <= i < |r| ==> IsDigit(r[i])
  {
    if |s| > 0 && IsDigit(s[0]) then [s[0]] + Run(s[1..]) else []
  }

  /** The run is a prefix of the string, and the byte after it is not a
      digit. */
  lemma {:induction false} RunIsMaximal(s: seq<byte>)
    ensures Run(s) == s[..|Run(s)|]
    ensures !IsDigit(Head(s[|Run(s)|..]))
  {
    if |s| > 0 && IsDigit(s[0]) {
      RunIsMaximal(s[1..]);
      assert s[1..][|Run(s[1..])|..] == s[|Run(s)|..];
    }
  }

  /** A run starts with the first byte exactly when that byte is a digit. */
  lemma RunHead(s: seq<byte>)
    ensures IsDigit(Head(s)) ==> |Run(s)| > 0 && Run(s)[0] == Head(s) && Run(s)[1..] == Run(s[1..])
    ensures !IsDigit(Head(s)) ==> Run(s) == []
  {
  }

  /** compare_right: numbers aligned at their last digit. The longer run
      wins; between runs of the same length the first differing digit,
      remembered in `bias`, decides. */
  function CompareRight(a: seq<byte>, b: seq<byte>, bias: int): (r: int)
    requires IsResult(bias)
    ensures IsResult(r)
    ensures r == 0 <==> bias == 0 && Run(a) == Run(b)
    decreases |a|
  {
    var ca, cb := Head(a), Head(b);
    RunHead(a);
    RunHead(b);
    if !IsDigit(ca) && !IsDigit(cb) then bias
    else if !IsDigit(ca) then -1
    else if !IsDigit(cb) then 1
    else if ca < cb then CompareRight(a[1..], b[1..], if bias == 0 then -1 else bias)
    else if ca > cb then CompareRight(a[1..], b[1..], if bias == 0 then 1 else bias)
    else if ca == NUL && cb == NUL then bias
    else CompareRight(a[1..], b[1..], bias)
  }

  /** compare_left: numbers aligned at their first digit; the first
      different digit wins, and a run that ends first is smaller. */
  function CompareLeft(a: seq<byte>, b: seq<byte>): (r: int)
    ensures IsResult(r)
    ensures r == 0 <==> Run(a) == Run(b)
    decreases |a|
  {
    var ca, cb := Head(a), Head(b);
    RunHead(a);
    RunHead(b);
    if !IsDigit(ca) && !IsDigit(cb) then 0
    else if !IsDigit(ca) then -1
    else if !IsDigit(cb) then 1
    else if ca < cb then -1
    else if ca > cb then 1
    else CompareLeft(a[1..], b[1..])
  }

  /** The string after its leading white space. */
  function SkipSpace(s: seq<byte>): (r: seq<byte>)
    ensures |r| <= |s| && r == s[|s| - |r|..]
    ensures !IsSpace(Head(r))
  {
    if |s| > 0 && IsSpace(s[0]) then SkipSpace(s[1..]) else s
  }

  /** The comparison of the digit runs at the two positions, 0 unless both
      start one: left-aligned when either starts with '0', right-aligned
      otherwise. */
  function RunsCompare(a: seq<byte>, b: seq<byte>): (r: int)
    ensures IsResult(r)
  {
    var ca, cb := Head(a), Head(b);
    if IsDigit(ca) && IsDigit(cb) then
      (if ca == ZERO || cb == ZERO then CompareLeft(a, b) else CompareRight(a, b, 0))
    else 0
  }

  /** The byte as compared: upper-cased when folding case. */
  function Fold(c: byte, fold: bool): (f: byte)
    ensures f == NUL <==> c == NUL
  {
    ToUpperKeepsClasses(c);
    if fold then ToUpper(c) else c
  }

  /** strnatcmp0: skip white space on both sides, then compare from there. */
  function Nat0(a: seq<byte>, b: seq<byte>, fold: bool): (r: int)
    ensures IsResult(r)
    decreases |a|, 1
  {
    NatAt(SkipSpace(a), SkipSpace(b), fold)
  }

  /** One round of strnatcmp0 once white space is skipped: where both sides
      start a digit run, compare the runs and return a difference; stop with
      0 at the end of both strings; otherwise compare the two current bytes
      and step past them. */
  function NatAt(a: seq<byte>, b: seq<byte>, fold: bool): (r: int)
    ensures IsResult(r)
    decreases |a|, 0
  {
    var result := RunsCompare(a, b);
    if result != 0 then result
    else if Head(a) == NUL && Head(b) == NUL then 0
    else if Fold(Head(a), fold) < Fold(Head(b), fold) then -1
    else if Fold(Head(a), fold) > Fold(Head(b), fold) then 1
    else Nat0(a[1..], b[1..], fold)
  }

  /** strnatcmp */
  function NatCmp(a: seq<byte>, b: seq<byte>): (r: int)
    ensures IsResult(r)
  {
    Nat0(a, b, false)
  }

  /** strnatcasecmp */
  function NatCaseCmp(a: seq<byte>, b: seq<byte>): (r: int)
    ensures IsResult(r)
  {
    Nat0(a, b, true)
  }

  // ---------------------------------------------------------------------
  // Reference orders on digit runs

  /** `x` comes before `y` in dictionary order: at the first position where
      they differ `x` has the smaller digit, or `x` is a proper prefix. */
  ghost predicate LexLess(x: seq<byte>, y: seq<byte>) {
    exists k :: LexLessAt(x, y, k)
  }

  /** ... with `k` the length of the common prefix. */
  ghost predicate LexLessAt(x: seq<byte>, y: seq<byte>, k: int) {
    0 <= k <= |x| && k <= |y| && x[..k] == y[..k] &&
    ((k == |x| && k < |y|) || (k < |x| && k < |y| && x[k] < y[k]))
  }

  ghost function LexCmp(x: seq<byte>, y: seq<byte>): int {
    if x == y then 0 else if LexLess(x, y) then -1 else 1
  }

  /** The value of a run of decimal digits. */
  function Value(x: seq<byte>): nat
    requires forall i :: 0 <= i < |x| ==> IsDigit(x[i])
  {
    if x == [] then 0 else Digit(x[0]) * Pow10(|x| - 1) + Value(x[1..])
  }

  function Digit(c: byte): nat
    requires IsDigit(c)
  {
    c - ZERO
  }

  lemma MulLeq(a: int, b: int, p: nat)
    requires a <= b
    ensures a * p <= b * p
  {
  }

  function Pow10(n: nat): (p: nat)
    ensures p >= 1
  {
    if n == 0 then 1 else 10 * Pow10(n - 1)
  }

  lemma LexLessConsUp(c: byte, x: seq<byte>, y: seq<byte>, k: int)
    requires LexLessAt(x, y, k)
    ensures LexLessAt([c] + x, [c] + y, k + 1)
  {
    assert ([c] + x)[..k + 1] == [c] + x[..k];
    assert ([c] + y)[..k + 1] == [c] + y[..k];
  }

  lemma LexLessConsDown(c: byte, x: seq<byte>, y: seq<byte>, k: int)
    requires LexLessAt([c] + x, [c] + y, k)
    ensures k > 0 && LexLessAt(x, y, k - 1)
  {
    var cx, cy := [c] + x, [c] + y;
    assert cx[0] == cy[0];
    assert x[..k - 1] == cx[1..k] && y[..k - 1] == cy[1..k];
  }

  lemma LexLessCons(c: byte, x: seq<byte>, y: seq<byte>)
    ensures LexLess([c] + x, [c] + y) <==> LexLess(x, y)
  {
    if LexLess(x, y) {
      var k :| LexLessAt(x, y, k);
      LexLessConsUp(c, x, y, k);
    }
    if LexLess([c] + x, [c] + y) {
      var k :| LexLessAt([c] + x, [c] + y, k);
      LexLessConsDown(c, x, y, k);
    }
  }

  lemma PrefixHeads(x: seq<byte>, y: seq<byte>, k: int)
    requires 0 < k <= |x| && k <= |y|
    ensures x[..k] == y[..k] ==> x[0] == y[0]
  {
    assert x[..k][0] == x[0] && y[..k][0] == y[0];
  }

  /** Two runs whose first digits differ are ordered by those digits. */
  lemma LexFirstDiffers(x: seq<byte>, y: seq<byte>)
    requires |x| > 0 && |y| > 0 && x[0] != y[0]
    ensures LexCmp(x, y) == (if x[0] < y[0] then -1 else 1)
  {
    if x[0] < y[0] {
      assert LexLessAt(x, y, 0);
    } else {
      forall k | 0 <= k
        ensures !LexLessAt(x, y, k)
      {
        if 0 < k <= |x| && k <= |y| {
          PrefixHeads(x, y, k);
        }
      }
    }
  }

  lemma LexCmpCons(c: byte, x: seq<byte>, y: seq<byte>)
    ensures LexCmp([c] + x, [c] + y) == LexCmp(x, y)
  {
    LexLessCons(c, x, y);
    if [c] + x == [c] + y {
      assert x == ([c] + x)[1..] && y == ([c] + y)[1..];
    }
  }

  /** The empty run is before every other run. */
  lemma LexEmpty(y: seq<byte>)
    ensures y != [] ==> LexCmp([], y) == -1 && LexCmp(y, []) == 1
  {
    if y != [] {
      var e: seq<byte> := [];
      assert LexLessAt(e, y, 0);
    }
  }

  /** compare_left orders the two digit runs in dictionary order. */
  lemma {:induction false} CompareLeftIsLex(a: seq<byte>, b: seq<byte>)
    ensures CompareLeft(a, b) == LexCmp(Run(a), Run(b))
    decreases |a|
  {
    var ca, cb := Head(a), Head(b);
    if !IsDigit(ca) || !IsDigit(cb) {
      LexEmpty(Run(a));
      LexEmpty(Run(b));
    } else if ca != cb {
      LexFirstDiffers(Run(a), Run(b));
    } else {
      CompareLeftIsLex(a[1..], b[1..]);
      LexCmpCons(ca, Run(a[1..]), Run(b[1..]));
    }
  }

  /** compare_right: a longer run wins; between runs of the same length the
      earlier `bias` stands, and without one the runs compare in dictionary
      order. */
  lemma {:induction false} CompareRightRuns(a: seq<byte>, b: seq<byte>, bias: int)
    requires IsResult(bias)
    ensures CompareRight(a, b, bias) ==
      if |Run(a)| != |Run(b)| then Sign(|Run(a)| - |Run(b)|)
      else if bias != 0 then bias
      else LexCmp(Run(a), Run(b))
    decreases |a|
  {
    var ca, cb := Head(a), Head(b);
    if !IsDigit(ca) || !IsDigit(cb) {
      LexEmpty(Run(a));
      LexEmpty(Run(b));
    } else {
      var nb := if ca < cb && bias == 0 then -1 else if ca > cb && bias == 0 then 1 else bias;
      CompareRightRuns(a[1..], b[1..], nb);
      if ca != cb {
        LexFirstDiffers(Run(a), Run(b));
      } else {
        LexCmpCons(ca, Run(a[1..]), Run(b[1..]));
      }
    }
  }

  // ---------------------------------------------------------------------
  // Runs as numbers

  lemma {:induction false} ValueBelow(x: seq<byte>)
    requires forall i :: 0 <= i < |x| ==> IsDigit(x[i])
    ensures Value(x) < Pow10(|x|)
  {
    if x != [] {
      ValueBelow(x[1..]);
      MulLeq(Digit(x[0]), 9, Pow10(|x| - 1));
    }
  }

  /** Same length: dictionary order is numeric order. */
  lemma {:induction false} LexIsNumericSameLength(x: seq<byte>, y: seq<byte>)
    requires |x| == |y|
    requires forall i :: 0 <= i < |x| ==> IsDigit(x[i])
    requires forall i :: 0 <= i < |y| ==> IsDigit(y[i])
    ensures LexCmp(x, y) == Sign(Value(x) - Value(y))
  {
    if x != [] {
      if x[0] == y[0] {
        LexIsNumericSameLength(x[1..], y[1..]);
        SameFirstDigit(x, y);
      } else {
        DifferentFirstDigit(x, y);
      }
    }
  }

  lemma SameFirstDigit(x: seq<byte>, y: seq<byte>)
    requires |x| == |y| && |x| > 0 && x[0] == y[0]
    requires forall i :: 0 <= i < |x| ==> IsDigit(x[i])
    requires forall i :: 0 <= i < |y| ==> IsDigit(y[i])
    ensures LexCmp(x, y) == LexCmp(x[1..], y[1..])
    ensures Value(x) - Value(y) == Value(x[1..]) - Value(y[1..])
  {
    assert x == [x[0]] + x[1..] && y == [y[0]] + y[1..];
    LexCmpCons(x[0], x[1..], y[1..]);
  }

  lemma DifferentFirstDigit(x: seq<byte>, y: seq<byte>)
    requires |x| == |y| && |x| > 0 && x[0] != y[0]
    requires forall i :: 0 <= i < |x| ==> IsDigit(x[i])
    requires forall i :: 0 <= i < |y| ==> IsDigit(y[i])
    ensures LexCmp(x, y) == Sign(Value(x) - Value(y))
  {
    LexFirstDiffers(x, y);
    if x[0] < y[0] {
      SmallerFirstDigit(x, y);
    } else {
      SmallerFirstDigit(y, x);
    }
  }

  lemma SmallerFirstDigit(x: seq<byte>, y: seq<byte>)
    requires |x| == |y| && |x| > 0 && x[0] < y[0]
    requires forall i :: 0 <= i < |x| ==> IsDigit(x[i])
    requires forall i :: 0 <= i < |y| ==> IsDigit(y[i])
    ensures Value(x) < Value(y)
  {
    ValueBelow(x[1..]);
    DigitBlocks(Digit(x[0]), Value(x[1..]), Digit(y[0]), Value(y[1..]), Pow10(|x| - 1));
  }

  /** A smaller leading digit outweighs whatever follows it. */
  lemma DigitBlocks(d: nat, v: nat, e: nat, w: nat, p: nat)
    requires d < e && v < p
    ensures d * p + v < e * p + w
  {
    MulLeq(d + 1, e, p);
  }

  /** A run that does not start with '0' is at least 10^(length - 1). */
  lemma ValueAtLeast(x: seq<byte>)
    requires |x| > 0 && x[0] != ZERO
    requires forall i :: 0 <= i < |x| ==> IsDigit(x[i])
    ensures Value(x) >= Pow10(|x| - 1)
  {
    MulLeq(1, Digit(x[0]), Pow10(|x| - 1));
  }

  lemma {:induction false} Pow10Monotone(m: nat, n: nat)
    requires m <= n
    ensures Pow10(m) <= Pow10(n)
    decreases n
  {
    if m < n {
      Pow10Monotone(m, n - 1);
    }
  }

  /** compare_right on two runs that do not start with '0' orders them by
      their values as decimal numbers. */
  lemma CompareRightIsNumeric(a: seq<byte>, b: seq<byte>)
    requires IsDigit(Head(a)) && IsDigit(Head(b)) && Head(a) != ZERO && Head(b) != ZERO
    ensures CompareRight(a, b, 0) == Sign(Value(Run(a)) - Value(Run(b)))
  {
    var x, y := Run(a), Run(b);
    CompareRightRuns(a, b, 0);
    if |x| < |y| {
      ValueBelow(x);
      ValueAtLeast(y);
      Pow10Monotone(|x|, |y| - 1);
    } else if |x| > |y| {
      ValueBelow(y);
      ValueAtLeast(x);
      Pow10Monotone(|y|, |x| - 1);
    } else {
      LexIsNumericSameLength(x, y);
    }
  }

  // ---------------------------------------------------------------------
  // Properties of the comparison

  lemma {:induction false} CompareRightAntisymmetric(a: seq<byte>, b: seq<byte>, bias: int)
    requires IsResult(bias)
    ensures CompareRight(a, b, bias) == -CompareRight(b, a, -bias)
    decreases |a|
  {
    var ca, cb := Head(a), Head(b);
    if IsDigit(ca) && IsDigit(cb) {
      var nb := if ca < cb && bias == 0 then -1 else if ca > cb && bias == 0 then 1 else bias;
      CompareRightAntisymmetric(a[1..], b[1..], nb);
    }
  }

  lemma {:induction false} CompareLeftAntisymmetric(a: seq<byte>, b: seq<byte>)
    ensures CompareLeft(a, b) == -CompareLeft(b, a)
    decreases |a|
  {
    if IsDigit(Head(a)) && IsDigit(Head(b)) && Head(a) == Head(b) {
      CompareLeftAntisymmetric(a[1..], b[1..]);
    }
  }

  lemma RunsCompareAntisymmetric(a: seq<byte>, b: seq<byte>)
    ensures RunsCompare(a, b) == -RunsCompare(b, a)
  {
    CompareLeftAntisymmetric(a, b);
    CompareRightAntisymmetric(a, b, 0);
  }

  /** Swapping the arguments negates the result. */
  lemma {:induction false} NatAntisymmetric(a: seq<byte>, b: seq<byte>, fold: bool)
    ensures Nat0(a, b, fold) == -Nat0(b, a, fold)
    decreases |a|, 1
  {
    NatAtAntisymmetric(SkipSpace(a), SkipSpace(b), fold);
  }

  lemma {:induction false} NatAtAntisymmetric(a: seq<byte>, b: seq<byte>, fold: bool)
    ensures NatAt(a, b, fold) == -NatAt(b, a, fold)
    decreases |a|, 0
  {
    RunsCompareAntisymmetric(a, b);
    if RunsCompare(a, b) == 0 && Head(a) != NUL && Fold(Head(a), fold) == Fold(Head(b), fold) {
      NatAntisymmetric(a[1..], b[1..], fold);
    }
  }

  lemma {:induction false} CompareRightReflexive(a: seq<byte>, bias: int)
    requires IsResult(bias)
    ensures CompareRight(a, a, bias) == bias
    decreases |a|
  {
    if IsDigit(Head(a)) {
      CompareRightReflexive(a[1..], bias);
    }
  }

  lemma {:induction false} CompareLeftReflexive(a: seq<byte>)
    ensures CompareLeft(a, a) == 0
    decreases |a|
  {
    if IsDigit(Head(a)) {
      CompareLeftReflexive(a[1..]);
    }
  }

  /** Every string compares equal to itself. */
  lemma {:induction false} NatReflexive(a: seq<byte>, fold: bool)
    ensures Nat0(a, a, fold) == 0
    decreases |a|
  {
    var a' := SkipSpace(a);
    CompareLeftReflexive(a');
    CompareRightReflexive(a', 0);
    assert RunsCompare(a', a') == 0;
    if Head(a') != NUL {
      NatReflexive(a'[1..], fold);
    }
  }

  /** strnatcmp never reports `a` after `b` and `b` after `a`. */
  lemma NatCmpAsymmetric(a: seq<byte>, b: seq<byte>)
    ensures NatCmp(a, b) == 1 ==> NatCmp(b, a) == -1
    ensures NatCmp(a, b) == -NatCmp(b, a)
  {
    NatAntisymmetric(a, b, false);
  }

  lemma {:induction false} SkipSpacePrefix(n: nat, s: seq<byte>)
    requires n <= |s|
    requires forall i :: 0 <= i < n ==> i < |s| && IsSpace(s[i])
    ensures SkipSpace(s) == SkipSpace(s[n..])
    decreases n
  {
    if n > 0 {
      SkipSpacePrefix(n - 1, s[1..]);
      assert s[1..][n - 1..] == s[n..];
    }
  }

  /** White space in front of either string does not change the result. */
  lemma LeadingSpaceIgnored(n: nat, a: seq<byte>, b: seq<byte>, fold: bool)
    requires n <= |a|
    requires forall i :: 0 <= i < n ==> i < |a| && IsSpace(a[i])
    ensures Nat0(a, b, fold) == Nat0(a[n..], b, fold)
  {
    SkipSpacePrefix(n, a);
  }

  /** A string that does not start with white space is its own skip. */
  lemma NoSpaceToSkip(s: seq<byte>)
    requires !IsSpace(Head(s))
    ensures SkipSpace(s) == s
  {
  }

  /** Where the digit runs at the front already differ, their comparison
      is the result. */
  lemma RunsDecide(a: seq<byte>, b: seq<byte>, fold: bool)
    requires IsDigit(Head(a)) && IsDigit(Head(b)) && RunsCompare(a, b) != 0
    ensures Nat0(a, b, fold) == RunsCompare(a, b)
  {
    NoSpaceToSkip(a);
    NoSpaceToSkip(b);
  }

  /** Two digit runs that do not start with '0' and differ in value
      compare as numbers, whatever follows them. */
  lemma NumericRunsDecide(a: seq<byte>, b: seq<byte>, fold: bool)
    requires IsDigit(Head(a)) && IsDigit(Head(b)) && Head(a) != ZERO && Head(b) != ZERO
    requires Value(Run(a)) != Value(Run(b))
    ensures Nat0(a, b, fold) == Sign(Value(Run(a)) - Value(Run(b)))
  {
    CompareRightIsNumeric(a, b);
    RunsDecide(a, b, fold);
  }

  /** Where either run starts with '0' the runs compare left-aligned, as
      in a dictionary; leading zeros are not skipped. */
  lemma ZeroLedRunsDecide(a: seq<byte>, b: seq<byte>, fold: bool)
    requires IsDigit(Head(a)) && IsDigit(Head(b)) && (Head(a) == ZERO || Head(b) == ZERO)
    requires Run(a) != Run(b)
    ensures Nat0(a, b, fold) == LexCmp(Run(a), Run(b))
    ensures LexCmp(Run(a), Run(b)) != 0
  {
    CompareLeftIsLex(a, b);
    RunsDecide(a, b, fold);
  }

  /** One digit of two identical runs: equal, and the comparison moves on. */
  lemma EqualRunsStep(a: seq<byte>, b: seq<byte>, fold: bool)
    requires IsDigit(Head(a)) && Run(a) == Run(b)
    ensures |a| > 0 && |b| > 0 && Run(a[1..]) == Run(b[1..])
    ensures Nat0(a, b, fold) == Nat0(a[1..], b[1..], fold)
  {
    EqualRunsHeads(a, b);
    NoSpaceToSkip(a);
    NoSpaceToSkip(b);
    assert RunsCompare(a, b) == 0 by {
      CompareLeftIsLex(a, b);
      CompareRightRuns(a, b, 0);
    }
  }

  lemma EqualRunsHeads(a: seq<byte>, b: seq<byte>)
    requires IsDigit(Head(a)) && Run(a) == Run(b)
    ensures |a| > 0 && |b| > 0 && Head(a) == Head(b)
    ensures Run(a[1..]) == Run(b[1..])
  {
    assert Run(a) == [a[0]] + Run(a[1..]);
    assert |b| > 0 && IsDigit(b[0]);
    assert Run(b) == [b[0]] + Run(b[1..]);
    assert Run(a[1..]) == Run(a)[1..];
  }

  /** Identical digit runs compare equal and the comparison goes on after
      them. */
  lemma {:induction false} EqualRunsContinue(a: seq<byte>, b: seq<byte>, fold: bool)
    requires IsDigit(Head(a)) && Run(a) == Run(b)
    ensures Nat0(a, b, fold) == Nat0(a[|Run(a)|..], b[|Run(b)|..], fold)
    decreases |a|
  {
    EqualRunsStep(a, b, fold);
    var r, r' := Run(a), Run(a[1..]);
    assert r == [a[0]] + r';
    if IsDigit(Head(a[1..])) {
      EqualRunsContinue(a[1..], b[1..], fold);
      assert a[1..][|r'|..] == a[|r|..];
      assert b[1..][|r'|..] == b[|r|..];
    } else {
      assert |r'| == 0;
    }
  }

  lemma UpperAllHead(x: seq<byte>)
    ensures Head(UpperAll(x)) == ToUpper(Head(x))
    ensures |x| > 0 ==> UpperAll(x)[1..] == UpperAll(x[1..])
  {
  }

  lemma {:induction false} CompareLeftUpper(a: seq<byte>, b: seq<byte>)
    ensures CompareLeft(UpperAll(a), UpperAll(b)) == CompareLeft(a, b)
    decreases |a|
  {
    UpperAllHead(a);
    UpperAllHead(b);
    ToUpperKeepsClasses(Head(a));
    ToUpperKeepsClasses(Head(b));
    if IsDigit(Head(a)) && IsDigit(Head(b)) {
      CompareLeftUpper(a[1..], b[1..]);
    }
  }

  lemma {:induction false} CompareRightUpper(a: seq<byte>, b: seq<byte>, bias: int)
    requires IsResult(bias)
    ensures CompareRight(UpperAll(a), UpperAll(b), bias) == CompareRight(a, b, bias)
    decreases |a|
  {
    UpperAllHead(a);
    UpperAllHead(b);
    ToUpperKeepsClasses(Head(a));
    ToUpperKeepsClasses(Head(b));
    if IsDigit(Head(a)) && IsDigit(Head(b)) {
      var nb := if Head(a) < Head(b) && bias == 0 then -1 else if Head(a) > Head(b) && bias == 0 then 1 else bias;
      CompareRightUpper(a[1..], b[1..], nb);
    }
  }

  lemma RunsCompareUpper(a: seq<byte>, b: seq<byte>)
    ensures RunsCompare(UpperAll(a), UpperAll(b)) == RunsCompare(a, b)
  {
    UpperAllHead(a);
    UpperAllHead(b);
    ToUpperKeepsClasses(Head(a));
    ToUpperKeepsClasses(Head(b));
    CompareLeftUpper(a, b);
    CompareRightUpper(a, b, 0);
  }

  lemma {:induction false} SkipSpaceUpper(s: seq<byte>)
    ensures SkipSpace(UpperAll(s)) == UpperAll(SkipSpace(s))
  {
    if |s| > 0 {
      ToUpperKeepsClasses(s[0]);
      UpperAllHead(s);
      SkipSpaceUpper(s[1..]);
    }
  }

  /** strnatcasecmp is strnatcmp on both strings upper-cased: case folding
      touches only the byte comparison, never the digit runs or the white
      space. */
  lemma CaseFoldIsUpperCase(a: seq<byte>, b: seq<byte>)
    ensures NatCaseCmp(a, b) == NatCmp(UpperAll(a), UpperAll(b))
  {
    FoldedNat0(a, b);
  }

  lemma {:induction false} FoldedNat0(a: seq<byte>, b: seq<byte>)
    ensures Nat0(a, b, true) == Nat0(UpperAll(a), UpperAll(b), false)
    decreases |a|, 1
  {
    SkipSpaceUpper(a);
    SkipSpaceUpper(b);
    FoldedNatAt(SkipSpace(a), SkipSpace(b));
  }

  lemma {:induction false} FoldedNatAt(a: seq<byte>, b: seq<byte>)
    ensures NatAt(a, b, true) == NatAt(UpperAll(a), UpperAll(b), false)
    decreases |a|, 0
  {
    RunsCompareUpper(a, b);
    UpperAllHead(a);
    UpperAllHead(b);
    ToUpperKeepsClasses(Head(a));
    ToUpperKeepsClasses(Head(b));
    if RunsCompare(a, b) == 0 && Head(a) != NUL && Fold(Head(a), true) == Fold(Head(b), true) {
      FoldedNat0(a[1..], b[1..]);
    }
  }

  /** Equal bytes outside digit runs: the comparison steps past them. */
  lemma SameByteStep(a: seq<byte>, b: seq<byte>, fold: bool)
    requires Head(a) == Head(b) && Head(a) != NUL && !IsDigit(Head(a))
    ensures NatAt(a, b, fold) == Nat0(a[1..], b[1..], fold)
  {
  }

  /** "2" sorts after "010": leading zeros are compared, not skipped. */
  lemma LeadingZeroExample()
    ensures NatCmp([50], [48, 49, 48]) == 1
  {
    var a, b: seq<byte> := [50], [48, 49, 48];
    assert Run(a) == [50] && Run(b) == b;
    LexFirstDiffers(Run(a), Run(b));
    ZeroLedRunsDecide(a, b, false);
  }

  /** "a10" sorts after "a9": longer runs are larger numbers. */
  lemma LongerRunExample()
    ensures NatCmp([97, 49, 48], [97, 57]) == 1
  {
    var a, b: seq<byte> := [97, 49, 48], [97, 57];
    NoSpaceToSkip(a);
    NoSpaceToSkip(b);
    SameByteStep(a, b, false);
    TenAfterNine(a[1..], b[1..]);
  }

  lemma TenAfterNine(a: seq<byte>, b: seq<byte>)
    requires a == [49, 48] && b == [57]
    ensures Nat0(a, b, false) == 1
  {
    assert |Run(a)| == 2 by {
      assert a[1..] == [48] && a[2..] == [];
      assert Run(a[1..]) == [48];
    }
    assert |Run(b)| == 1 by { assert b[1..] == []; }
    CompareRightRuns(a, b, 0);
    RunsDecide(a, b, false);
  }

  /** "a b" equals "ab": white space inside is skipped. */
  lemma InnerSpaceExample()
    ensures NatCmp([97, 32, 98], [97, 98]) == 0
  {
    var a, b: seq<byte> := [97, 32, 98], [97, 98];
    NoSpaceToSkip(a);
    NoSpaceToSkip(b);
    SameByteStep(a, b, false);
    var a1, b1 := a[1..], b[1..];
    assert a1 == [32, 98] && b1 == [98];
    LeadingSpaceIgnored(1, a1, b1, false);
    assert a1[1..] == b1;
    NatReflexive(b1, false);
  }
}

=== FILE: util_strings.dfy ===
/**
 The string and arithmetic helpers of util.c: the OpenBSD `strlcpy`,
 `strlcat`, `strsep` and `strndup`, the program's own `rtrim`,
 `strpos_quoted`, `ordinal` and `getline`, the text of an `OSType`, and the
 multiplication-overflow guard of the allocators.

 A destination buffer is the whole array of `dsize` bytes the caller passes;
 a source string is its bytes without the NUL. What a routine writes into
 the caller's memory comes back as the new contents of that memory.
 */
module UtilStrings {
  import opened Bytes
  import opened CType
  import opened Options

  // ---------------------------------------------------------------------
  // strlcpy and strlcat

  /** strlcpy: copy as much of `src` as fits in the `|dst|`-byte buffer, then
      a NUL; answer the length of `src`, so that an answer of at least
      `|dst|` means the copy was cut short. */
  method Strlcpy(dst: seq<byte>, src: seq<byte>) returns (r: seq<byte>, n: nat)
    requires NoNul(src)
    ensures |r| == |dst| && n == |src|
    ensures |dst| == 0 ==> r == dst
    ensures |dst| > 0 ==> (var k := Min(|src|, |dst| - 1);
      r[..k] == src[..k] && r[k] == NUL && r[k + 1..] == dst[k + 1..])
    ensures |dst| > 0 ==> UpToNul(r) == src[..Min(|src|, |dst| - 1)]
    ensures |dst| > 0 ==> (n >= |dst| <==> UpToNul(r) != src)
  {
    r := dst;
    if |dst| != 0 {
      var i := 0;
      while i < |dst| - 1 && i < |src|
        invariant i <= |src| && i <= |dst| - 1 && |r| == |dst|
        invariant r[..i] == src[..i] && r[i..] == dst[i..]
      {
        r := r[i := src[i]];
        i := i + 1;
      }
      r := r[i := NUL];
      assert r == src[..i] + [NUL] + dst[i + 1..];
      UpToNulTerminated(src[..i], dst[i + 1..]);
    }
    // Both paths leave `src` on its NUL: the count is its length.
    n := |src|;
  }

  /** strlcat: append `src` to the string in the `|dst|`-byte buffer, keeping
      the total below the buffer's size. It answers the length it tried to
      build: the initial string (no longer than the buffer) plus `src`. A
      buffer holding no NUL is left as it is. */
  method Strlcat(dst: seq<byte>, src: seq<byte>) returns (r: seq<byte>, n: nat)
    requires NoNul(src)
    ensures |r| == |dst| && n == |UpToNul(dst)| + |src|
    ensures |UpToNul(dst)| == |dst| ==> r == dst
    ensures |UpToNul(dst)| < |dst| ==> UpToNul(r) == (UpToNul(dst) + src)[..Min(n, |dst| - 1)]
    ensures |UpToNul(dst)| < |dst| ==> (var e := Min(n, |dst| - 1); r[e + 1..] == dst[e + 1..])
    ensures |UpToNul(dst)| < |dst| ==> (n >= |dst| <==> UpToNul(r) != UpToNul(dst) + src)
  {
    var d := StringEnd(dst);
    if d == |dst| {
      return dst, d + |src|;
    }
    r := CopyAt(dst, src, d);
    n := d + |src|;
    StrlcatResult(dst, src, d, Min(|src|, |dst| - d - 1), r);
  }

  /** The length of the string in the buffer, not looking past its end. */
  method StringEnd(dst: seq<byte>) returns (d: nat)
    ensures d == |UpToNul(dst)|
  {
    d := 0;
    while d < |dst| && dst[d] != NUL
      invariant d <= |dst| && NoNul(dst[..d])
    {
      d := d + 1;
    }
    UpToNulLength(dst, d);
  }

  /** Copy the bytes of `src` that fit from index `d` on, then a NUL. */
  method CopyAt(dst: seq<byte>, src: seq<byte>, d: nat) returns (r: seq<byte>)
    requires d < |dst|
    ensures var j := Min(|src|, |dst| - d - 1); r == dst[..d] + src[..j] + [NUL] + dst[d + j + 1..]
  {
    r := dst;
    var j := 0;
    while j < |src| && d + j < |dst| - 1
      invariant j <= |src| && d + j <= |dst| - 1
      invariant r == dst[..d] + src[..j] + dst[d + j..]
    {
      assert src[..j + 1] == src[..j] + [src[j]];
      r := r[d + j := src[j]];
      j := j + 1;
    }
    r := r[d + j := NUL];
  }

  /** The buffer strlcat leaves holds the two strings joined, cut to fit,
      and is cut exactly when the answer reaches the buffer's size. */
  lemma StrlcatResult(dst: seq<byte>, src: seq<byte>, d: nat, j: nat, r: seq<byte>)
    requires NoNul(src) && d == |UpToNul(dst)| < |dst| && j == Min(|src|, |dst| - d - 1)
    requires r == dst[..d] + src[..j] + [NUL] + dst[d + j + 1..]
    ensures |r| == |dst|
    ensures var e := Min(d + |src|, |dst| - 1); UpToNul(r) == (UpToNul(dst) + src)[..e] && r[e + 1..] == dst[e + 1..]
    ensures d + |src| >= |dst| <==> UpToNul(r) != UpToNul(dst) + src
  {
    var a := UpToNul(dst);
    assert dst[..d] == a;
    assert r == (a + src[..j]) + [NUL] + dst[d + j + 1..];
    UpToNulTerminated(a + src[..j], dst[d + j + 1..]);
    assert (a + src)[..d + j] == a + src[..j];
    if d + |src| >= |dst| {
      assert |a + src[..j]| < |a + src|;
    }
  }

  // ---------------------------------------------------------------------
  // strsep and strndup

  /** strsep: `s` is the string `*stringp` points at, `None` for NULL. The
      token runs up to the first delimiter, which the NUL written over it
      ends; the rest starts after it, or is NULL when the string ended
      first. The token, its delimiter and the rest give the string back. */
  method Strsep(s: Option<seq<byte>>, delim: seq<byte>) returns (tok: Option<seq<byte>>, rest: Option<seq<byte>>)
    requires s.Some? ==> NoNul(s.value)
    requires NoNul(delim)
    ensures s.None? ==> tok.None? && rest.None?
    ensures s.Some? ==> (tok.Some? && |tok.value| <= |s.value| && tok.value == s.value[..|tok.value|] &&
      forall i :: 0 <= i < |tok.value| ==> tok.value[i] !in delim)
    ensures s.Some? && rest.None? ==> tok == s
    ensures s.Some? && rest.Some? ==> (|tok.value| < |s.value| && s.value[|tok.value|] in delim &&
      s.value == tok.value + [s.value[|tok.value|]] + rest.value)
  {
    if s.None? {
      return None, None;
    }
    var str := s.value;
    var k := 0;
    while k < |str| && str[k] !in delim
      invariant k <= |str|
      invariant forall i :: 0 <= i < k ==> str[i] !in delim
    {
      k := k + 1;
    }
    if k == |str| {
      // The NUL matched the terminator of `delim`.
      tok, rest := Some(str), None;
    } else {
      tok, rest := Some(str[..k]), Some(str[k + 1..]);
      assert str == str[..k] + [str[k]] + str[k + 1..];
    }
  }

  /** strndup and xstrndup: a copy of at most `maxlen` bytes of the string;
      a copy shorter than `maxlen` is the whole string. The two differ only
      in what they do when the host has no memory. */
  method Strndup(str: seq<byte>, maxlen: nat) returns (copy: seq<byte>)
    requires NoNul(str)
    ensures |copy| <= maxlen && |copy| <= |str| && copy == str[..|copy|]
    ensures |copy| < maxlen ==> copy == str
  {
    var len := 0;
    var left := maxlen;
    while left != 0 && len < |str|
      invariant len <= |str| && len + left == maxlen
    {
      len := len + 1;
      left := left - 1;
    }
    copy := str[..len];
  }

  // ---------------------------------------------------------------------
  // rtrim

  /** Whether `c` is one of the bytes of the C string `chars`. */
  method Contains(chars: seq<byte>, c: byte) returns (found: bool)
    ensures found <==> c in chars
  {
    var j := 0;
    while j < |chars|
      invariant j <= |chars|
      invariant c !in chars[..j]
    {
      if chars[j] == c {
        return true;
      }
      assert chars[..j + 1] == chars[..j] + [chars[j]];
      j := j + 1;
    }
    assert chars[..j] == chars;
    return false;
  }

  /** rtrim: overwrite with NULs the longest run at the end of the string
      made of bytes from `chars`, and answer the length that remains. */
  method Rtrim(str: seq<byte>, chars: seq<byte>) returns (r: seq<byte>, rlen: nat)
    requires NoNul(str) && NoNul(chars)
    ensures rlen <= |str| && r == str[..rlen] + Zeros(|str| - rlen)
    ensures forall i :: rlen <= i < |str| ==> str[i] in chars
    ensures rlen > 0 ==> str[rlen - 1] !in chars
    ensures UpToNul(r) == str[..rlen]
  {
    r := str;
    rlen := |str|;
    var n := |str|;
    while n > 0
      invariant n == rlen <= |str|
      invariant r == str[..n] + Zeros(|str| - n)
      invariant forall i :: n <= i < |str| ==> str[i] in chars
    {
      var hit := Contains(chars, r[n - 1]);
      if !hit {
        break;
      }
      rlen := rlen - 1;
      r := r[n - 1 := NUL];
      assert r == str[..n - 1] + Zeros(|str| - (n - 1));
      n := n - 1;
    }
    if rlen < |str| {
      assert r == str[..rlen] + [NUL] + Zeros(|str| - rlen - 1);
      UpToNulTerminated(str[..rlen], Zeros(|str| - rlen - 1));
    } else {
      UpToNulOfString(str);
    }
  }

  // ---------------------------------------------------------------------
  // strpos_quoted

  const QUOTE: byte := 34
  const BACKSLASH: byte := 92

  /** Where the scan stands: outside double quotes, inside them, or on the
      byte after a backslash inside them. */
  datatype Quote = Outside | Inside | Escaped

  function Next(q: Quote, b: byte): Quote {
    match q
    case Outside => if b == QUOTE then Inside else Outside
    case Inside => if b == BACKSLASH then Escaped else if b == QUOTE then Outside else Inside
    case Escaped => Inside
  }

  /** The state in front of byte `i`, reading from the start. */
  function StateAt(str: seq<byte>, i: nat): Quote
    requires i <= |str|
  {
    if i == 0 then Outside else Next(StateAt(str, i - 1), str[i - 1])
  }

  /** Byte `i` is an occurrence of `c` that counts: outside quotes, and not
      the quote that opens them. */
  predicate Hit(str: seq<byte>, c: byte, i: nat)
    requires i < |str|
  {
    StateAt(str, i) == Outside && str[i] == c && str[i] != QUOTE
  }

  /** strpos_quoted, stopping at the terminator when the string ends on a
      backslash inside quotes: the first counting occurrence of `c`, or -1
      when there is none. */
  method StrposQuoted(str: seq<byte>, c: byte) returns (pos: int)
    requires NoNul(str)
    ensures pos == -1 <==> forall i :: 0 <= i < |str| ==> !Hit(str, c, i)
    ensures pos != -1 ==> (0 <= pos < |str| && Hit(str, c, pos) &&
      forall i :: 0 <= i < pos ==> !Hit(str, c, i))
  {
    var p := 0;
    var quoted := false;
    while p < |str|
      invariant p <= |str|
      invariant StateAt(str, p) == if quoted then Inside else Outside
      invariant forall i :: 0 <= i < p ==> !Hit(str, c, i)
    {
      if quoted {
        if str[p] == BACKSLASH {
          if p + 1 == |str| {
            return -1;
          }
          assert StateAt(str, p + 1) == Escaped;
          p := p + 2;
          continue;
        }
        if str[p] == QUOTE {
          quoted := false;
        }
        p := p + 1;
      } else {
        if str[p] == QUOTE {
          quoted := true;
          p := p + 1;
          continue;
        }
        if str[p] == c {
          assert Hit(str, c, p);
          return p;
        }
        p := p + 1;
      }
    }
    return -1;
  }

  /** What the loop of strpos_quoted reaches: an index, the terminator, or a
      byte beyond the terminator. */
  datatype Scan = Found(pos: nat) | Missing | PastEnd

  /** strpos_quoted as written: after a backslash inside quotes it steps two
      bytes, so a backslash just before the terminator carries the scan past
      it. */
  function StrposAsWritten(str: seq<byte>, c: byte, p: nat, quoted: bool): (r: Scan)
    requires p <= |str| + 1
    ensures r.Found? ==> p <= r.pos < |str| && str[r.pos] == c
    ensures p > |str| ==> r == PastEnd
    decreases |str| + 1 - p
  {
    if p > |str| then PastEnd
    else if p == |str| then Missing
    else if quoted then
      if str[p] == BACKSLASH then StrposAsWritten(str, c, p + 2, true)
      else StrposAsWritten(str, c, p + 1, str[p] != QUOTE)
    else if str[p] == QUOTE then StrposAsWritten(str, c, p + 1, true)
    else if str[p] == c then Found(p)
    else StrposAsWritten(str, c, p + 1, false)
  }

  /** The string `"\` sends the scan as written past its terminator, for
      every `c` it looks for. */
  lemma StrposReadsPastEnd(c: byte)
    ensures StrposAsWritten([QUOTE, BACKSLASH], c, 0, false) == PastEnd
  {
    var str: seq<byte> := [QUOTE, BACKSLASH];
    assert StrposAsWritten(str, c, 3, true) == PastEnd;
    assert StrposAsWritten(str, c, 1, true) == PastEnd;
  }

  /** Where the scan as written finds an index, that index is a counting
      occurrence of `c`. */
  lemma {:induction false} StrposAsWrittenFinds(str: seq<byte>, c: byte, p: nat, quoted: bool)
    requires p <= |str| + 1
    requires p <= |str| ==> StateAt(str, p) == if quoted then Inside else Outside
    requires StrposAsWritten(str, c, p, quoted).Found?
    ensures var i := StrposAsWritten(str, c, p, quoted).pos; p <= i < |str| && Hit(str, c, i)
    decreases |str| + 1 - p
  {
    if quoted && str[p] == BACKSLASH {
      if p + 2 <= |str| {
        assert StateAt(str, p + 1) == Escaped;
      }
      StrposAsWrittenFinds(str, c, p + 2, true);
    } else if quoted || str[p] == QUOTE || str[p] != c {
      StrposAsWrittenFinds(str, c, p + 1, if quoted then str[p] != QUOTE else str[p] == QUOTE);
    }
  }

  // ---------------------------------------------------------------------
  // ordinal and getline

  const TH: seq<byte> := [116, 104]
  const ST: seq<byte> := [115, 116]
  const ND: seq<byte> := [110, 100]
  const RD: seq<byte> := [114, 100]

  /** ordinal: the English suffix of a number, "th" for the teens. */
  function Ordinal(n: U16): (r: seq<byte>)
    ensures r == ST <==> n % 10 == 1 && n % 100 != 11
    ensures r == ND <==> n % 10 == 2 && n % 100 != 12
    ensures r == RD <==> n % 10 == 3 && n % 100 != 13
    ensures r == TH <==> (n % 10 == 0 || n % 10 > 3 || 11 <= n % 100 <= 13)
  {
    if 11 <= n % 100 <= 13 then TH
    else if n % 10 == 1 then ST
    else if n % 10 == 2 then ND
    else if n % 10 == 3 then RD
    else TH
  }

  /** The suffix depends on the last two digits only. */
  lemma OrdinalByHundreds(n: U16)
    ensures Ordinal(n) == Ordinal(n % 100)
  {
    var q, m := n / 100, n % 100;
    assert n == 10 * (10 * q) + m;
    assert m % 100 == m;
    assert n % 10 == m % 10;
  }

  /** What getline does with a buffer: no line for an empty one, a line, or a
      scan that never ends. */
  datatype LineResult = NoLine | Line(count: U16, text: seq<byte>) | Spins

  /** getline: the line runs to the first CR, or to the byte before the
      buffer's last; the answer is its length plus one, in a 16-bit word.
      The index is a word too: a buffer longer than 65536 bytes with no CR
      among the first 65536 sends it round forever. */
  method GetLine(str: seq<byte>) returns (res: LineResult)
    ensures res == NoLine <==> |str| == 0
    ensures res.Spins? <==> |str| > U16_LIMIT && CR !in str[..U16_LIMIT]
    ensures res.Line? ==> (|res.text| < |str| && res.text == str[..|res.text|] && CR !in res.text &&
      (str[|res.text|] == CR || |res.text| == |str| - 1) && res.count == (|res.text| + 1) % U16_LIMIT)
  {
    var i := 0;
    while i < |str|
      invariant i <= |str| && i <= U16_LIMIT
      invariant CR !in str[..i]
      invariant i > 0 ==> i < |str|
    {
      if i == U16_LIMIT {
        return Spins;
      }
      if str[i] == CR || i == |str| - 1 {
        return Line((i + 1) % U16_LIMIT, str[..i]);
      }
      assert str[..i + 1] == str[..i] + [str[i]];
      i := i + 1;
    }
    return NoLine;
  }

  // ---------------------------------------------------------------------
  // OSTypeToString

  /** OSTypeToString: the four bytes of the type, most significant first,
      then a NUL; reading them back gives the type. */
  function OSTypeToString(t: U32): (r: seq<byte>)
    ensures |r| == 5 && r[4] == NUL
    ensures ReadBe32(r) == t
  {
    Be32RoundTrip(t);
    Be32(t) + [NUL]
  }

  // ---------------------------------------------------------------------
  // The allocators' overflow guard

  /** 1 << (sizeof(size_t) * 4): below it, two factors cannot overflow. */
  const MUL_NO_OVERFLOW: nat := 0x1_0000

  /** The guard of xcalloc and xreallocarray. */
  predicate GuardTrips(nmemb: U32, size: U32) {
    (nmemb >= MUL_NO_OVERFLOW || size >= MUL_NO_OVERFLOW) && nmemb > 0 && SIZE_MAX / nmemb < size
  }

  /** The guard trips exactly when the product does not fit a size_t: the
      shortcut for small factors never lets an overflow through. */
  lemma GuardExact(nmemb: U32, size: U32)
    ensures GuardTrips(nmemb, size) <==> nmemb * size > SIZE_MAX
  {
    if nmemb < MUL_NO_OVERFLOW && size < MUL_NO_OVERFLOW {
      MulAtMost(nmemb, size, MUL_NO_OVERFLOW - 1);
    } else if nmemb > 0 {
      DivBound(SIZE_MAX, nmemb, size);
    }
  }

  lemma MulAtMost(a: nat, b: nat, m: nat)
    requires a <= m && b <= m
    ensures a * b <= m * m
  {
    assert a * b <= m * b;
    assert m * b <= m * m;
  }

  /** `x / n < y` says exactly that `n * y` exceeds `x`. */
  lemma DivBound(x: nat, n: nat, y: nat)
    requires n > 0
    ensures x / n < y <==> n * y > x
  {
    var q := x / n;
    assert x == n * q + x % n;
    if y > q {
      assert n * y >= n * (q + 1);
    } else {
      assert n * y <= n * q;
    }
  }

  /** What an allocation gives: a panic, or a block of that many bytes. */
  datatype Alloc = Panic | Block(size: nat)

  /** xmalloc panics on a zero size; a host out of memory is not modelled. */
  function XMalloc(size: nat): (r: Alloc)
    ensures r.Panic? <==> size == 0
  {
    if size == 0 then Panic else Block(size)
  }

  /** xcalloc and xreallocarray: they panic when the product overflows or is
      zero, and otherwise allocate exactly the product. */
  function XCalloc(nmemb: U32, size: U32): (r: Alloc)
    ensures r.Panic? <==> nmemb * size > SIZE_MAX || nmemb * size == 0
    ensures r.Block? ==> r.size == nmemb * size && r.size <= SIZE_MAX
  {
    GuardExact(nmemb, size);
    if GuardTrips(nmemb, size) then Panic else XMalloc(nmemb * size)
  }
}

=== FILE: visualize_scan.dfy ===
/**
 The two scanners of visualize.c: `parseDiff`, which copies one
 CR-terminated line of the diff text into a line buffer, and `gotoLine`,
 which finds a line of a display buffer by its record marker. Display
 buffers hold records that start with the word 0xFFFF; the two bytes 0xFF
 0xFF are looked for byte by byte. `char` is taken to be unsigned, so a
 byte compares equal to 0xff.
 */
module VisualizeScan {
  import opened Bytes
  import opened CType

  /** The line at `pos`: the bytes from there up to the next carriage
      return or the end of the text. */
  function LineFrom(diff: seq<byte>, pos: nat): (line: seq<byte>)
    ensures pos + |line| <= |diff| || line == []
    ensures CR !in line
  {
    if pos < |diff| then LineOf(diff[pos..]) else []
  }

  /** What parseDiff returns and leaves behind: its result, `*pos`, and the
      line buffer. */
  datatype Parsed = Parsed(count: int, pos: nat, buf: seq<byte>)

  /** How many bytes the loop of parseDiff copies at most: its guard refuses
      a byte only once `count` exceeds `bufLen`. */
  function Room(bufLen: int): nat {
    if bufLen < 0 then 0 else bufLen + 1
  }

  /** The copying loop of parseDiff, `count` bytes in. The guard refuses a
      byte only once `count` exceeds `bufLen`, so up to `bufLen + 1` bytes
      are copied. */
  function CopyLine(diff: seq<byte>, pos: nat, buf: seq<byte>, bufLen: int, count: nat): (int, seq<byte>)
    requires |buf| > bufLen
    decreases |diff| - pos - count
  {
    if pos + count < |diff| && diff[pos + count] != CR then
      if count > bufLen then (-1, buf)
      else CopyLine(diff, pos, buf[count := diff[pos + count]], bufLen, count + 1)
    else (count, buf)
  }

  /** parseDiff as written: -1, with `*pos` unchanged, when more than
      `Room(bufLen)` bytes precede the terminator; otherwise the line's length,
      with `*pos` moved onto the carriage return (never past it), the line
      copied to the front of the buffer and a NUL after it only when it is
      at most `bufLen` long. The buffer holds `bufLen + 1` bytes. */
  function ParseDiff(diff: seq<byte>, pos: nat, buf: seq<byte>, bufLen: int): (r: Parsed)
    requires |buf| > bufLen
    ensures |r.buf| == |buf|
    ensures r.count == -1 <==> |LineFrom(diff, pos)| > Room(bufLen)
    ensures r.count == -1 ==> r.pos == pos
    ensures r.count == -1 ==> forall i :: 0 <= i < |buf| ==>
      r.buf[i] == if i < Room(bufLen) then LineFrom(diff, pos)[i] else buf[i]
    ensures r.count != -1 ==> r.count == |LineFrom(diff, pos)| && r.pos == pos + r.count
    ensures r.count != -1 && r.pos < |diff| ==> diff[r.pos] == CR
    ensures r.count != -1 ==> forall i :: 0 <= i < |buf| ==>
      r.buf[i] == if i < r.count then LineFrom(diff, pos)[i]
                  else if i == r.count && r.count <= bufLen then NUL
                  else buf[i]
  {
    var line := LineFrom(diff, pos);
    var (n, b) := CopyLine(diff, pos, buf, bufLen, 0);
    CopyLineCopies(diff, pos, buf, bufLen, 0);
    if n == -1 then Parsed(-1, pos, b)
    else Parsed(n, pos + n, if n <= bufLen then b[n := NUL] else b)
  }

  /** What the copying loop does from `count` on, when the first `count`
      bytes of the line are already in place. */
  lemma {:induction false} CopyLineCopies(diff: seq<byte>, pos: nat, buf: seq<byte>, bufLen: int, count: nat)
    requires |buf| > bufLen && count <= |LineFrom(diff, pos)| && count <= Room(bufLen)
    requires forall i :: 0 <= i < count ==> buf[i] == LineFrom(diff, pos)[i]
    ensures var (n, b) := CopyLine(diff, pos, buf, bufLen, count);
      |b| == |buf| &&
      (n == -1 <==> |LineFrom(diff, pos)| > Room(bufLen)) &&
      (n != -1 ==> n == |LineFrom(diff, pos)|) &&
      forall i :: 0 <= i < |buf| ==>
        b[i] == if i < count || (i < Room(bufLen) && i < |LineFrom(diff, pos)|) then LineFrom(diff, pos)[i] else buf[i]
    decreases |diff| - pos - count
  {
    var line := LineFrom(diff, pos);
    LineFromAt(diff, pos, count);
    if pos + count < |diff| && diff[pos + count] != CR && count <= bufLen {
      var buf' := buf[count := diff[pos + count]];
      CopyLineCopies(diff, pos, buf', bufLen, count + 1);
    }
  }

  /** Where the line at `pos` has its `count`-th byte, and where it ends. */
  lemma LineFromAt(diff: seq<byte>, pos: nat, count: nat)
    requires count <= |LineFrom(diff, pos)|
    ensures count < |LineFrom(diff, pos)| <==> pos + count < |diff| && diff[pos + count] != CR
    ensures count < |LineFrom(diff, pos)| ==> LineFrom(diff, pos)[count] == diff[pos + count]
  {
    if pos < |diff| {
      var line := LineOf(diff[pos..]);
      assert line == diff[pos..][..|line|];
      if count < |line| {
        assert line[count] == diff[pos..][count];
      } else {
        assert pos + count < |diff| ==> diff[pos + count] == diff[pos..][count];
      }
    }
  }

  /** parseDiff with the guard it evidently means: a byte is refused once
      `bufLen` bytes are in, so a line that is returned always has its NUL
      inside the buffer. */
  function ParseDiffTerminated(diff: seq<byte>, pos: nat, buf: seq<byte>, bufLen: nat): (r: Parsed)
    requires |buf| > bufLen
    ensures |r.buf| == |buf|
    ensures r.count == -1 <==> |LineFrom(diff, pos)| > bufLen
    ensures r.count == -1 ==> r.pos == pos
    ensures r.count != -1 ==> r.count == |LineFrom(diff, pos)| && r.pos == pos + r.count
    ensures r.count != -1 ==> r.count < |r.buf| && r.buf[..r.count] == LineFrom(diff, pos) && r.buf[r.count] == NUL
    ensures r.count != -1 && NoNul(LineFrom(diff, pos)) ==> UpToNul(r.buf) == LineFrom(diff, pos)
  {
    var line := LineFrom(diff, pos);
    if |line| > bufLen then Parsed(-1, pos, buf)
    else
      var b := line + [NUL] + buf[|line| + 1..];
      assert b[..|line|] == line;
      CTermination(line, buf[|line| + 1..]);
      Parsed(|line|, pos + |line|, b)
  }

  lemma CTermination(line: seq<byte>, rest: seq<byte>)
    ensures NoNul(line) ==> UpToNul(line + [NUL] + rest) == line
  {
    if NoNul(line) {
      UpToNulTerminated(line, rest);
    }
  }

  /** A line of exactly `bufLen + 1` bytes fills the buffer as written and
      gets no terminator: with a two-byte buffer, "ab" followed by a carriage
      return comes back as the two bytes and no NUL, where the corrected
      guard refuses it. */
  lemma ParseDiffUnterminated()
    ensures ParseDiff([97, 98, CR], 0, [0, 0], 1) == Parsed(2, 2, [97, 98])
    ensures NoNul(ParseDiff([97, 98, CR], 0, [0, 0], 1).buf)
    ensures ParseDiffTerminated([97, 98, CR], 0, [0, 0], 1).count == -1
  {
    var d: seq<byte> := [97, 98, CR];
    assert LineOf(d[0..]) == [97, 98] by {
      LineOfTerminated([97, 98], []);
      assert d[0..] == [97, 98] + [CR] + [];
    }
  }

  // ---------------------------------------------------------------------
  // gotoLine

  /** A record marker starts at `p`. */
  predicate MarkerAt(buf: seq<byte>, p: nat)
    requires p + 1 < |buf|
  {
    buf[p] == 0xFF && buf[p + 1] == 0xFF
  }

  /** The number of positions before `p` where a marker starts. */
  function MarkersBefore(buf: seq<byte>, p: nat): nat
    requires p < |buf|
  {
    if p == 0 then 0 else MarkersBefore(buf, p - 1) + (if MarkerAt(buf, p - 1) then 1 else 0)
  }

  /** gotoLine: the position of the `line`-th marker, counted from 1 and
      found byte by byte, so overlapping pairs each count; 0 for line 0;
      the buffer's size when it has fewer markers. The buffer is followed by
      at least one byte (the handle keeps the NUL its last record was
      written with), which the test at the last position reads. */
  method GotoLine(buf: seq<byte>, bufSize: nat, line: U16) returns (pos: nat)
    requires bufSize < |buf|
    ensures pos <= bufSize
    ensures line == 0 ==> pos == 0
    ensures line > 0 && pos < bufSize ==> MarkerAt(buf, pos) && MarkersBefore(buf, pos) == line - 1
    ensures line > 0 ==> (pos == bufSize <==> MarkersBefore(buf, bufSize) < line)
  {
    pos := 0;
    var l := line;
    while pos < bufSize && l != 0
      invariant pos <= bufSize && l <= line
      invariant line > 0 ==> l > 0
      invariant line == 0 ==> pos == 0
      invariant MarkersBefore(buf, pos) == line - l
    {
      if buf[pos] == 0xFF && buf[pos + 1] == 0xFF {
        l := l - 1;
        if l == 0 {
          MarkersMonotone(buf, pos, bufSize);
          return;
        }
      }
      pos := pos + 1;
    }
  }

  /** More of the buffer holds at least as many markers. */
  lemma {:induction false} MarkersMonotone(buf: seq<byte>, p: nat, q: nat)
    requires p <= q < |buf|
    ensures MarkersBefore(buf, p) <= MarkersBefore(buf, q)
    ensures p < q && MarkerAt(buf, p) ==> MarkersBefore(buf, p) < MarkersBefore(buf, q)
    decreases q - p
  {
    if p < q {
      MarkersMonotone(buf, p, q - 1);
      if p == q - 1 {
        assert MarkersBefore(buf, q) == MarkersBefore(buf, p) + (if MarkerAt(buf, p) then 1 else 0);
      }
    }
  }
}
